=== FILE: README.md ===
# tukib digital library — a Dafny model of its core

tukib is a digital library. An Express/Mongoose backend stores books,
categories and users. A Next.js/Redux frontend lists and reads them. This
project models the core of that system as pure Dafny functions over
immutable data:

- the book document: its schema constraints, its pre-save hook and its
  rating summary (`book.dfy`);
- the category document and its slug hook (`category.dfy`);
- the catalog listing `GET /api/books`, with its filter, its sort-parameter
  parser, the store's ordering of values, and paging (`catalog_query.dfy`,
  `book_order.dfy`, `sorting.dfy`, `pagination.dfy`);
- the book handlers on a stored state that holds books, categories and
  users, together with the denormalised per-category book count
  (`library.dfy`);
- the user handlers: favourites, reading history, the download log and the
  administrator's listing, lookup, update and delete (`users.dfy`);
- the upload file rules: Node's `path.extname`, the extension allowlist,
  the stored file name and the size limit (`upload.dfy`);
- the client's books store reducers (`books_slice.dfy`);
- the client-side checks of the registration form (`register.dfy`).

Each handler returns a `Response` (from `outcomes.dfy`) and, where it writes,
the state afterwards. The kinds of `Response` are:

- `NotFound`: a 404;
- `BadRequest`: a 400;
- `ValidationFailure`: a schema validator refused the document;
- `ServerError`: the store, a cast or the upload filter threw an error that carries no status.

The last two both reach the client as a 500. An id that is not 24
hexadecimal digits fails the ObjectId cast. Stored ids are the cast's
lower-case form. Clocks and random numbers are parameters (`now`,
`random`).

Where the repository's own description and its code disagree, the model
follows the code:

- `parseInt(page) || 1` keeps a negative page. The resulting negative skip
  is refused by the store (a 500).
- A rating is any number from 1 to 5, not only an integer.
- `updateBook` goes through `findByIdAndUpdate`, which does not run the
  pre-save hook, so `updatedAt` is not refreshed.
- The author and search parameters are regular expressions in the source.
  The model matches them as literal text, ignoring case.

## Model

| member | source | states |
|---|---|---|
| Text.Trim | backend/models/Book.js:7 | the result is a stretch of the input with only JavaScript whitespace before and after it, and no whitespace at either of its own ends; all-whitespace text becomes empty and already-trimmed text is unchanged |
| Text.Utf16Length | backend/models/Book.js:8 | a code point above U+FFFF counts two units and any other one; the length lies between the code point count and twice it, and equals it in the Basic Multilingual Plane |
| Text.Utf16LengthConcat | backend/models/Book.js:8 | the length of a concatenation is the sum of the lengths |
| Text.JoinSplit | backend/controllers/bookController.js:44 | joining the pieces of `split(',')` with `,` gives back the original parameter |
| Text.SplitJoin | backend/controllers/bookController.js:44 | splitting pieces that hold no comma, joined by commas, gives back the pieces |
| Sorting.InsertionSortSorted | backend/controllers/bookController.js:59 | sorting under a total, transitive order yields an ordered permutation of the input |
| Sorting.PrefixBeforeRest | backend/controllers/bookController.js:328-329 | in a sorted sequence, every element of a prefix comes before every element after it, so a limit taken after a sort keeps the best ones |
| Pagination.ParseIntRender | backend/controllers/bookController.js:10-11 | `parseInt` reads back any integer written in decimal, whatever non-digit text follows it |
| Pagination.ParsePlain | backend/controllers/bookController.js:10-11 | a value without a sign reads as its digits say |
| Pagination.ParseMinus | backend/controllers/bookController.js:10-11 | a leading `-` negates what `parseInt` reads after it |
| Pagination.ParsePaging | backend/controllers/bookController.js:10-12 | a missing, non-numeric or zero parameter gives the default; any other number `parseInt` reads is kept, negative ones included; skip is `(page - 1) * limit` |
| Pagination.ParsePagingOfNumbers | backend/controllers/userController.js:8-10 | decimal page and limit are taken as written, negatives included; zero falls back to the default |
| Pagination.PageCount | backend/controllers/bookController.js:69 | `ceil(total / limit)` is the least page count whose pages hold `total` items, for a negative limit too |
| Pagination.PageCountZero | backend/controllers/bookController.js:69 | with a positive limit there are no pages exactly when there are no items |
| Pagination.PageInRange | backend/controllers/bookController.js:69 | a page starts before the end of the items exactly when its number is at most the page count |
| Pagination.Window | backend/controllers/bookController.js:60-61 | a negative skip is refused; the window is a stretch of the input starting at skip, at most `\|limit\|` long, and empty past the end |
| Pagination.WindowContents | backend/controllers/bookController.js:60-61 | with a positive limit, the window is exactly the items from skip up to skip plus limit, cut at the end |
| Books.CastObjectId | backend/models/Book.js:25-29 | an id casts exactly when it is 24 hexadecimal digits, and its stored form is lower-case hexadecimal |
| Books.CastObjectIdCanonical | backend/models/Book.js:25-29 | casting a cast id, or its lower-cased text, gives the same id |
| Books.ParseFormatName | backend/models/Book.js:38-42 | every format name in the enumeration is accepted and reads back as that format |
| Books.ParseFileFormat | backend/models/Book.js:38-42 | an accepted format string is exactly the name of the format it yields |
| Books.CalculateAverageRating | backend/models/Book.js:131-140 | no reviews give a summary of zero and zero; otherwise the count is the number of reviews and average times count is the sum of the ratings |
| Books.AverageWithinBounds | backend/models/Book.js:61-67 | with valid reviews the average lies within 0 and 5, and within 1 and 5 once there is a review |
| Books.SummaryIgnoresOrder | backend/models/Book.js:136-138 | the summary depends only on the multiset of ratings, not on their order |
| Books.SumPermutation | backend/models/Book.js:136 | the sum of the ratings is the same for any permutation of them |
| Books.SummaryAfterAppend | backend/controllers/bookController.js:248-249 | appending a review raises the count by one and the rating total by the new rating |
| Books.Recalculate | backend/models/Book.js:131-140 | only the summary changes, and it becomes the summary of the book's reviews |
| Books.Save | backend/models/Book.js:125-128 | saving succeeds exactly for a valid document; it sets `updatedAt` to now and changes nothing else |
| Books.CreateDocument | backend/models/Book.js:3-122 | creation succeeds exactly for a known format, a category that casts and a draft whose required fields, `fileSize` among them, are present and within their lengths; a missing or non-numeric `fileSize` fails validation; a created book is valid, keeps the given size, takes the cast category, the trimmed title and author, and the defaults: no reviews, zero counters, not featured, English unless a language is given, created and updated now |
| Categories.Slug | backend/models/Category.js:41 | a slug is no longer than the name, and every character is a lower-case word character or a hyphen |
| Categories.SlugIdempotent | backend/models/Category.js:41 | deriving the slug of a slug changes nothing |
| Categories.SlugOfSlugChars | backend/models/Category.js:41 | a text that is already lower-case slug characters is its own slug |
| Categories.SpaceRunBecomesOneHyphen | backend/models/Category.js:41 | a maximal run of whitespace becomes exactly one hyphen |
| Categories.NonSpaceIsCopied | backend/models/Category.js:41 | a character that is not whitespace is copied as it is |
| Categories.PreSave | backend/models/Category.js:39-44 | the slug is derived again only when the name was modified; otherwise the document is saved unchanged; no field other than the slug ever changes |
| Categories.SlugStableUntilRenamed | backend/models/Category.js:40-42 | a second save without a rename keeps the slug the first save derived |
| Categories.NewCategory | backend/models/Category.js:3-36 | creation succeeds exactly for a non-empty trimmed name of at most 50 characters and a description of at most 500; it applies the icon, colour and count defaults and the slug of the trimmed name |
| BookOrder.CompareStringsTransitive | backend/controllers/bookController.js:59 | the store's code-point order on strings is transitive |
| BookOrder.CompareStringsAntisymmetric | backend/controllers/bookController.js:59 | swapping two strings negates their comparison |
| BookOrder.CompareValues | backend/controllers/bookController.js:59 | values of different types compare by type rank (null, number, string, ObjectId, boolean, date) |
| BookOrder.CompareValuesTransitive | backend/controllers/bookController.js:59 | the comparison of stored values is transitive across types |
| BookOrder.CompareByTransitive | backend/controllers/bookController.js:59 | comparing by a list of sort rules, the first rule that separates two books deciding, is transitive |
| BookOrder.LeIsPreorder | backend/controllers/bookController.js:59 | every sort specification orders books totally and transitively |
| BookOrder.SortBooks | backend/controllers/bookController.js:56-59 | the sorted list is a permutation of the input, ordered by the specification |
| BookOrder.SortedByFirstRule | backend/controllers/bookController.js:59 | in a sorted list, the first rule's field never goes against its direction |
| BookOrder.ParseSort | backend/controllers/bookController.js:42-54 | an absent or empty parameter sorts newest first; otherwise the rules name the fields of the comma-separated tokens in order of first mention, each with the direction of its last mention |
| BookOrder.BuildRulesFields | backend/controllers/bookController.js:44-51 | the rules' fields are the parameter's fields in order of first occurrence |
| BookOrder.BuildRulesDistinct | backend/controllers/bookController.js:45-51 | no field gets two rules |
| BookOrder.BuildRulesDirections | backend/controllers/bookController.js:45-51 | each field's direction is the one its last occurrence in the parameter gives |
| BookOrder.RepeatedFieldExample | backend/controllers/bookController.js:44-51 | `title,-title` sorts by title, descending, as one rule |
| CatalogQuery.BuildFilter | backend/controllers/bookController.js:15-39 | there is a clause for each given category, author and search parameter, and a featured clause exactly when `featured` is `true` |
| CatalogQuery.FilterMeaning | backend/controllers/bookController.js:15-39 | a book satisfies the built filter exactly when it has the requested category, author and search text, and is featured if that was asked |
| CatalogQuery.FilterBooks | backend/controllers/bookController.js:56 | every match is a collection book that satisfies the filter, and every such book is matched |
| CatalogQuery.FilterConcat | backend/controllers/bookController.js:56 | filtering a collection split in two filters each part, so the matches keep collection order |
| CatalogQuery.FilterOne | backend/controllers/bookController.js:56 | a single book is kept exactly when it satisfies the filter |
| CatalogQuery.FilterMultiplicity | backend/controllers/bookController.js:56-63 | a matching book appears among the matches as often as in the collection and a non-matching one never, so `total` counts each match once |
| CatalogQuery.ListBooks | backend/controllers/bookController.js:8-79 | refused exactly for a negative skip, an uncastable category, a sort field with an empty dotted component or more than 32 distinct sort fields (the store's limit on sort keys); otherwise `count`, `total`, `pages` and `currentPage` are as computed, and the data is wanted books of the collection in sort order, at most `\|limit\|` of them, namely the window of the sorted matches |
| CatalogQuery.EmptyComponentExamples | backend/controllers/bookController.js:44-59 | `title.`, `.title` and `a..b` are refused sort fields, `ratings.average` is not |
| CatalogQuery.FirstPageHoldsAll | backend/controllers/bookController.js:56-72 | when every match fits on page 1, page 1 lists every wanted book |
| Users.AddToFavorites | backend/controllers/userController.js:130-155 | an id that does not cast is an error; an id already present is refused; otherwise it is appended, and a list without duplicates keeps none |
| Users.AddToFavoritesAsWritten | backend/controllers/userController.js:134-141 | the request text is refused exactly when that raw text is already in the list; otherwise the cast id is appended |
| Users.AddToFavoritesAsWrittenDuplicates | backend/controllers/userController.js:134-141 | the upper-case text of a favourite's id is not refused, and the id is appended a second time |
| Users.RemoveFromFavoritesAsWritten | backend/controllers/userController.js:164-166 | the result holds exactly the entries that differ from the raw request text, and an absent text leaves the list as it was |
| Users.RemoveAsWrittenConcat | backend/controllers/userController.js:164-166 | the filter works entry by entry, so kept entries stay in order with their multiplicity |
| Users.RemoveFromFavoritesAsWrittenKeeps | backend/controllers/userController.js:130-166 | a favourite added under its upper-case id is stored in lower case and survives removal under that same id |
| Users.RemoveFromFavorites | backend/controllers/userController.js:160-180 | text that does not cast removes nothing; otherwise the result holds exactly the entries other than the cast id |
| Users.RemoveConcat | backend/controllers/userController.js:164-166 | the corrected removal also works entry by entry |
| Users.RemoveOne | backend/controllers/userController.js:164-166 | a stored id is removed by any spelling of it, and kept otherwise |
| Users.RemoveIdempotent | backend/controllers/userController.js:164-166 | removing twice is removing once |
| Users.AddThenRemove | backend/controllers/userController.js:130-166 | adding a book and removing it under the same request text gives back the list as it was |
| Users.Upsert | backend/controllers/userController.js:190-203 | an existing entry for the book has its progress and time replaced in place, otherwise an entry is appended; one entry per book is kept |
| Users.UpdateReadingProgress | backend/controllers/userController.js:185-218 | an id that does not cast is an error; otherwise the entry for the cast id is updated or added, keeping one entry per book |
| Users.UpdateReadingProgressAsWritten | backend/controllers/userController.js:190-203 | the entry is found by the raw request text; when none matches, an entry is appended |
| Users.UpdateReadingProgressAsWrittenDuplicates | backend/controllers/userController.js:190-203 | an upper-case id for a book already in the history appends a second entry for the same book |
| Users.ProgressTwice | backend/controllers/userController.js:194-196 | a second progress report for a book overwrites, in place, the entry the first report left, and nothing else |
| Users.RecordDownload | backend/controllers/bookController.js:285-292 | only the download log changes, by one entry at its end |
| Users.GetUser | backend/controllers/userController.js:39-64 | an id that does not cast is an error; an unknown one is not found; any other id is found, and the user returned is a stored user with that id |
| Users.ApplyPatch | backend/controllers/userController.js:71-78 | only the name and email given change |
| Users.UpdateUser | backend/controllers/userController.js:69-97 | the errors match the lookup's and change nothing; a stored id always succeeds, replacing only that user by the patched one |
| Users.GetAfterUpdate | backend/controllers/userController.js:39-97 | looking a user up after updating it returns the updated user |
| Users.DeleteUser | backend/controllers/userController.js:102-125 | the errors match the lookup's and change nothing; a stored id always succeeds, removing exactly that user |
| Users.GetAfterDelete | backend/controllers/userController.js:39-125 | with unique ids, a deleted user is not found afterwards |
| Users.NewerFirstIsPreorder | backend/controllers/userController.js:16 | newest-first is a total, transitive order on users |
| Users.ListUsers | backend/controllers/userController.js:6-34 | refused exactly for a negative skip; otherwise `count`, `total`, `pages` and `currentPage` are as computed, and the page holds at most `\|limit\|` stored users, newest first, namely the window of the users sorted newest first |
| Library.Locate | backend/controllers/bookController.js:86-96 | an id that does not cast is an error; an unknown one is not found with the book-not-found message; otherwise the index is that of the book with the cast id |
| Library.GetBook | backend/controllers/bookController.js:84-112 | not found exactly when the lookup is; a found book is served exactly when it is valid; success raises `views` by exactly one, touches nothing else but `updatedAt`, and keeps the category counts consistent |
| Library.CreateBook | backend/controllers/bookController.js:117-138 | success exactly when the document is created and neither its id nor its isbn is taken; a validation failure of the document is reported; success appends the book and adds one to its category's count, keeping the counts consistent |
| Library.CreatePreserves | backend/controllers/bookController.js:123-126 | adding a book and incrementing its category keeps every count equal to the number of books in that category |
| Library.DeleteBook | backend/controllers/bookController.js:184-212 | succeeds exactly when the lookup finds the book; success removes the book and takes one from its category's count, keeping the counts consistent |
| Library.DeletePreserves | backend/controllers/bookController.js:195-200 | removing a book and decrementing its category keeps the counts consistent |
| Library.ApplyPatch | backend/controllers/bookController.js:164-167 | an update of the modelled fields is accepted exactly when the fields it sets are valid and its category casts; it sets the trimmed title and the cast category and the given author (trimmed), description, cover, file URL, featured flag and tags (each trimmed), and every field the request does not give keeps its value |
| Library.NoPatchKeeps | backend/controllers/bookController.js:164-167 | an update that sets nothing is accepted and leaves the book as it was |
| Library.ApplyPatchTwice | backend/controllers/bookController.js:164-167 | two accepted updates in a row equal one update with the merged request, the later value winning field by field; re-sending an accepted request changes nothing more |
| Library.UpdateBook | backend/controllers/bookController.js:143-179 | a found book is updated exactly when the update is valid and its category casts; a failed update changes nothing; success replaces the book and moves one unit of count from the old category to the new, keeping the counts consistent |
| Library.UpdatePreserves | backend/controllers/bookController.js:154-167 | replacing a book and moving one count between its old and new category keeps the counts consistent |
| Library.UpdateBookAsWritten | backend/controllers/bookController.js:154-167 | not found exactly when the lookup is; a failed update keeps the books and users; a successful one stores the patched book; for a found book, whatever the outcome, a request naming a different non-empty category has already taken one from the stored category and, when the text casts, added one to the named one, and otherwise the counts are unchanged |
| Library.UpdateBookAsWrittenAgrees | backend/controllers/bookController.js:154-167 | when stored categories are in cast form, both orders of work succeed on the same requests and agree on the response, the books and the counts |
| Library.UpdateBookAsWrittenDrifts | backend/controllers/bookController.js:154-167 | a category move combined with an empty title fails validation, keeps the book where it was, and leaves the counts inconsistent |
| Library.UpdateBookRejectsCleanly | backend/controllers/bookController.js:154-167 | the same request against the validate-first update fails and changes nothing |
| Library.ReviewBook | backend/controllers/bookController.js:230-251 | a second review by the same user is refused with its message; a rating that is not a number or out of range fails validation; a valid first review of a valid book succeeds; success appends the review, recomputes the summary, stamps `updatedAt` and changes nothing else |
| Library.ReviewedStaysValid | backend/controllers/bookController.js:248-251 | a valid book with one more valid review and its summary recomputed is valid |
| Library.AddReview | backend/controllers/bookController.js:217-264 | not found exactly when the lookup is; only the reviewed book changes, and the category counts stay consistent |
| Library.SecondReviewRefused | backend/controllers/bookController.js:231-240 | after a successful review, the same user's next review is refused whatever its rating |
| Library.ReviewScenario | backend/controllers/bookController.js:242-251 | ratings 4 then 2 from two users give summaries (4, 1) then (3, 2), and the first user's retry is refused |
| Library.FileNameExtension | backend/controllers/bookController.js:298 | the download name of a book with a plain title has the lower-cased format as its extension, which the upload filter accepts |
| Library.DownloadBook | backend/controllers/bookController.js:269-307 | not found exactly when the lookup is; a found book is downloaded exactly when it is valid; success raises `downloads` by exactly one and changes nothing else of the book but `updatedAt`; the requesting user, if stored, gets one download entry; counts stay consistent |
| Library.SameCategory | backend/controllers/bookController.js:323-326 | the candidates are exactly the other books of the same category |
| Library.SameCategoryConcat | backend/controllers/bookController.js:323-326 | candidates are picked book by book, so they keep store order and multiplicity |
| Library.SameCategoryOne | backend/controllers/bookController.js:323-326 | one book is a candidate exactly when it is another book of the same category |
| Library.ByAverageMeaning | backend/controllers/bookController.js:329 | under `-ratings.average` one book comes before another exactly when its average is at least as high |
| Library.RelatedBooks | backend/controllers/bookController.js:312-341 | a found book always gets an answer: six candidates, or all of them when fewer, drawn from the candidates without repetition, highest average first, and no candidate left out has a higher average than one listed |
| Upload.ExtName | backend/config/upload.js:27 | the extension is empty or a dot followed by text without a dot or separator, and no longer than the name |
| Upload.ExtNameScan | backend/config/upload.js:27 | Node's backward scan for the extension computes exactly the last dot of the last component up to its end, with none for dotfiles, for `..` and for names without a dot |
| Upload.OnlyLastExtensionCounts | backend/config/upload.js:27-29 | for a stem followed by one extension, the filter's verdict is whether that extension, lower-cased, is allowed |
| Upload.NoExtensionRejected | backend/config/upload.js:27-29 | a name without a dot is refused |
| Upload.DotfileRejected | backend/config/upload.js:27-29 | a dotfile such as `.pdf` has no extension and is refused |
| Upload.AcceptsIgnoresCase | backend/config/upload.js:27 | a name is accepted exactly when its lower-cased form is |
| Upload.ExtNameLowerCase | backend/config/upload.js:27 | the extension of the lower-cased name is the lower-cased extension |
| Upload.UpperCaseAccepted | backend/config/upload.js:26-29 | `BOOK.PDF` is accepted |
| Upload.LastExtensionAccepted | backend/config/upload.js:26-29 | `a.exe.pdf` is accepted: only the last extension is judged |
| Upload.LastExtensionRefused | backend/config/upload.js:26-29 | `a.pdf.exe` is refused although an inner extension is allowed |
| Upload.DotPdfRejected | backend/config/upload.js:27-29 | `.pdf` is refused |
| Upload.StoredNameKeepsExtension | backend/config/upload.js:17-20 | the stored name carries the original's extension, case included, so the filter judges it as it judged the original |
| Upload.Admit | backend/config/upload.js:24-41 | an upload is stored exactly when its extension is allowed and it is at most 52,428,800 bytes; the type is checked first, and either refusal is an error without a status, hence a 500 |
| BooksSlice.Reduce | frontend/src/store/slices/booksSlice.ts:43-71 | each action writes only its own fields, which are named by where two states differ, and gives them the action's values |
| BooksSlice.ReduceFrame | frontend/src/store/slices/booksSlice.ts:43-71 | the fields a dispatch changes are among those its action writes |
| BooksSlice.DifferNoneMeansEqual | frontend/src/store/slices/booksSlice.ts:18-27 | two states that differ in no field are equal |
| BooksSlice.FeaturedUntouched | frontend/src/store/slices/booksSlice.ts:64-66 | only `setFeaturedBooks` changes the featured list, over any run of other actions |
| BooksSlice.FeaturedCommutes | frontend/src/store/slices/booksSlice.ts:64-66 | `setFeaturedBooks` commutes with every other action |
| BooksSlice.ClearThenLoad | frontend/src/store/slices/booksSlice.ts:51-71 | clearing and then loading a page equals loading it, except that the current book is gone |
| BooksSlice.ReduceIdempotent | frontend/src/store/slices/booksSlice.ts:43-71 | dispatching any action twice is dispatching it once |
| Register.Submit | frontend/src/pages/register.tsx:31-52 | a request is sent exactly when the passwords match and have at least 6 UTF-16 units; a mismatch is reported before length; a sent request carries the form's name, email and password, with the error cleared |
| Register.Settle | frontend/src/pages/register.tsx:60-64 | loading ends; a refusal shows the server's message, or a generic one when the message is missing or empty |
| Register.SubmitThenSettle | frontend/src/pages/register.tsx:31-64 | an accepted request ends with no error; a refused one shows a message, and submitting the same form again clears it and sends the same request |
| Register.MismatchBeforeLength | frontend/src/pages/register.tsx:35-43 | mismatched short passwords report the mismatch and send nothing |
| Register.SixCharactersSuffice | frontend/src/pages/register.tsx:40-43 | a password of exactly six characters is long enough to send |
| Register.FiveCharactersTooShort | frontend/src/pages/register.tsx:40-43 | five characters give the length message |

## Findings

| source | as written | input that shows it | evidently intended | confidence | as-written member | corrected member |
|---|---|---|---|---|---|---|
| backend/controllers/bookController.js:154-167 | the category counts are moved before `findByIdAndUpdate` validates the update | a request with a new category and an empty title: the update fails, the book stays, and the old category's count drops while the new one's rises | counts move only when the update succeeds | high, not executed | Library.UpdateBookAsWrittenDrifts | Library.UpdateBook |
| backend/controllers/userController.js:134-141 | `includes` compares the raw request text with the stored lower-case ids, but the cast id is pushed | the upper-case text of an id already in favourites passes the check and the id is stored twice | an id already in favourites is refused whatever its case | medium, not executed | Users.AddToFavoritesAsWrittenDuplicates | Users.AddToFavorites |
| backend/controllers/userController.js:190-203 | the history entry is found by `===` on the raw request text | progress for an upper-case id of a book already in the history appends a second entry for that book | one entry per book, found by the cast id | medium, not executed | Users.UpdateReadingProgressAsWrittenDuplicates | Users.UpdateReadingProgress |
| backend/controllers/userController.js:164-166 | the stored ids are compared with the raw request text, while `addToFavorites` stores the cast, lower-case id | a favourite added under its upper-case id is stored in lower case; removing it under that same id removes nothing | any spelling of a favourite's id removes it | medium, not executed | Users.RemoveFromFavoritesAsWrittenKeeps | Users.RemoveFromFavorites |

## Left out

- Regular expressions: the author and search parameters are matched as literal, case-insensitive text. Metacharacters, anchors and invalid patterns (which the store refuses) are not modelled.
- Case mapping is ASCII only. Unicode case folding in `toLowerCase` and in the store's `i` option is not modelled.
- A query parameter given more than once arrives as an array. The model takes every parameter as a single string.
- Sort fields named by integer-like keys are reordered by JavaScript's object-key order. The model keeps insertion order.
- The store gives no order among books that tie under every sort rule. The model's sort is stable and fixes one such order.
- Sorting by a field that holds an object or array, or by one the model does not know, reads the field as null.
- Numbers are unbounded integers and exact reals. IEEE double rounding in averages, `Math.ceil` and large counters is not modelled.
- Concurrency: every handler runs as one atomic step. Interleaved requests, and a partial failure between two writes other than the one under Findings, are not modelled.
- Cloudinary upload and delete, multer's disk storage, `Date.now()` and `Math.random()` are left out. Time and the random suffix are parameters.
- backend/models/User.js is not part of this model. User validation, password hashing, the type of `progress` and the fields of a user beyond those the handlers touch are not modelled.
- Library.ApplyPatch: the update request body goes to the store whole, so it may also set fields the model keeps fixed: views, downloads, ratings, reviews, isbn, format, size, language, publisher, dates and `updatedAt`. The model's patch sets only title, author, description, category, cover, file URL, featured flag and tags.
- Sort fields starting with `$`: the store refuses most of them but accepts special keys such as `$natural`. The model does not refuse them.
- Users.UpdateUser: an administrator's update may set any field of the request body; the model lets it set only the name and email.
- Authentication and authorisation middleware are not modelled. A current user who has vanished between authentication and lookup (a 500 in the favourite and history handlers) is not modelled.
- Books.CreateDocument: fields the request body may set that have defaults (counters, reviews, ratings, timestamps) are taken at their defaults.
- The ObjectId cast accepts only the 24-hex-digit string form, not the 12-byte form.
- Uniqueness of category names and slugs is not modelled.
- Rendering, routing, cookies and every other part of the user interface are left out. So are the other client stores and pages.
- Population of referenced documents (`populate`) and field selection (`select('-password')`) are not modelled. References stay ids.

=== FILE: book.dfy ===
/** The book document: its schema constraints and defaults, the pre-save
    hook that stamps `updatedAt`, and `calculateAverageRating`, which derives
    the `{average, count}` summary from the embedded reviews. */
module Books {
  import opened Outcomes
  import opened Text

  type BookId = string
  type UserId = string
  type CategoryId = string

  predicate IsHexDigit(c: char) {
    '0' <= c <= '9' || 'a' <= c <= 'f' || 'A' <= c <= 'F'
  }

  /** Casting request text to an object id, as the store does before a
      lookup by id: the text must be 24 hexadecimal digits, and the id is
      the same whichever case the digits are written in. Ids are kept in
      lower case. */
  function CastObjectId(s: string): (r: Option<string>)
    ensures r.Some? <==> |s| == 24 && forall i :: 0 <= i < |s| ==> IsHexDigit(s[i])
    ensures r.Some? ==> |r.value| == 24 && forall i :: 0 <= i < 24 ==> IsHexDigit(r.value[i]) && !IsUpper(r.value[i])
  {
    if |s| == 24 && forall i :: 0 <= i < |s| ==> IsHexDigit(s[i]) then Some(LowerCase(s)) else None
  }

  /** An id in its stored form casts to itself, and the cast is insensitive
      to the case of the digits. */
  lemma CastObjectIdCanonical(s: string)
    requires CastObjectId(s).Some?
    ensures CastObjectId(CastObjectId(s).value) == CastObjectId(s)
    ensures CastObjectId(LowerCase(s)) == CastObjectId(s)
  {
    var id := CastObjectId(s).value;
    assert LowerCase(id) == id;
    assert LowerCase(LowerCase(s)) == LowerCase(s);
  }

  /** The `fileFormat` enumeration. */
  datatype FileFormat = PDF | EPUB | MOBI

  function FormatName(f: FileFormat): string
  {
    match f
    case PDF => "PDF"
    case EPUB => "EPUB"
    case MOBI => "MOBI"
  }

  /** Casting a request value to the enumeration: only the three names, in
      upper case, are members. */
  function ParseFileFormat(s: string): (r: Option<FileFormat>)
    ensures r.Some? ==> FormatName(r.value) == s
  {
    if s == "PDF" then Some(PDF)
    else if s == "EPUB" then Some(EPUB)
    else if s == "MOBI" then Some(MOBI)
    else None
  }

  lemma ParseFormatName(f: FileFormat)
    ensures ParseFileFormat(FormatName(f)) == Some(f)
  {
  }

  /** A review embedded in a book. The rating is a JavaScript number, so a
      fractional value such as 4.5 is representable; `None` comment is an
      absent comment. */
  datatype Review = Review(user: UserId, rating: real, comment: Option<string>, createdAt: int)

  datatype Ratings = Ratings(average: real, count: nat)

  datatype Book = Book(
    id: BookId,
    title: string,
    author: string,
    description: string,
    isbn: Option<string>,
    category: CategoryId,
    coverImage: string,
    fileUrl: string,
    fileFormat: FileFormat,
    fileSize: real,
    language: string,
    publisher: Option<string>,
    publishedDate: Option<int>,
    pages: Option<real>,
    ratings: Ratings,
    reviews: seq<Review>,
    downloads: int,
    views: int,
    isFeatured: bool,
    tags: seq<string>,
    createdBy: UserId,
    createdAt: int,
    updatedAt: int)

  const MaxTitleLength := 200
  const MaxDescriptionLength := 2000
  const MaxCommentLength := 500
  const MinRating := 1.0
  const MaxRating := 5.0

  /** The schema constraints on one review: a rating between 1 and 5 and a
      comment of at most 500 characters. */
  predicate ValidReview(r: Review) {
    && MinRating <= r.rating <= MaxRating
    && (r.comment.Some? ==> Utf16Length(r.comment.value) <= MaxCommentLength)
  }

  /** The schema constraints Mongoose checks when a book is saved. */
  predicate ValidBook(b: Book) {
    && b.title != "" && Utf16Length(b.title) <= MaxTitleLength
    && b.author != ""
    && b.description != "" && Utf16Length(b.description) <= MaxDescriptionLength
    && b.category != ""
    && b.coverImage != ""
    && b.fileUrl != ""
    && 0.0 <= b.ratings.average <= 5.0
    && (forall i :: 0 <= i < |b.reviews| ==> ValidReview(b.reviews[i]))
    && b.createdBy != ""
  }

  function RatingValues(reviews: seq<Review>): (xs: seq<real>)
    ensures |xs| == |reviews|
    ensures forall i :: 0 <= i < |xs| ==> xs[i] == reviews[i].rating
  {
    seq(|reviews|, i requires 0 <= i < |reviews| => reviews[i].rating)
  }

  function Sum(xs: seq<real>): real
  {
    if |xs| == 0 then 0.0 else xs[0] + Sum(xs[1..])
  }

  /** `calculateAverageRating`: no reviews give `{0, 0}`; otherwise the
      count is the number of reviews and the average their exact mean. */
  function CalculateAverageRating(reviews: seq<Review>): (r: Ratings)
    ensures |reviews| == 0 ==> r == Ratings(0.0, 0)
    ensures |reviews| > 0 ==> r.count == |reviews|
    ensures |reviews| > 0 ==> r.average * r.count as real == Sum(RatingValues(reviews))
  {
    if |reviews| == 0 then Ratings(0.0, 0)
    else Ratings(Sum(RatingValues(reviews)) / |reviews| as real, |reviews|)
  }

  lemma {:induction false} SumConcat(a: seq<real>, b: seq<real>)
    ensures Sum(a + b) == Sum(a) + Sum(b)
    decreases |a|
  {
    if |a| > 0 {
      SumConcat(a[1..], b);
      assert (a + b)[1..] == a[1..] + b;
    } else {
      assert a + b == b;
    }
  }

  /** The sum of a sequence does not depend on the order of its elements. */
  lemma {:induction false} SumPermutation(a: seq<real>, b: seq<real>)
    requires multiset(a) == multiset(b)
    ensures Sum(a) == Sum(b)
    decreases |a|
  {
    if |a| == 0 {
      assert |b| == |multiset(b)| == 0;
    } else {
      var x := a[0];
      assert x in multiset(b);
      var i :| 0 <= i < |b| && b[i] == x;
      var rest := b[..i] + b[i + 1..];
      assert b == b[..i] + [x] + b[i + 1..];
      assert a == [x] + a[1..];
      assert multiset(b) == multiset(b[..i]) + multiset{x} + multiset(b[i + 1..]);
      assert multiset(rest) == multiset(b[..i]) + multiset(b[i + 1..]);
      assert multiset(rest) == multiset(b) - multiset{x};
      assert multiset(a) == multiset{x} + multiset(a[1..]);
      assert multiset(a[1..]) == multiset(a) - multiset{x};
      SumPermutation(a[1..], rest);
      SumConcat(b[..i] + [x], b[i + 1..]);
      SumConcat(b[..i], [x]);
      SumConcat(b[..i], b[i + 1..]);
    }
  }

  /** Ratings between 1 and 5 sum to between `n` and `5n`. */
  lemma {:induction false} SumBounds(xs: seq<real>)
    requires forall i :: 0 <= i < |xs| ==> MinRating <= xs[i] <= MaxRating
    ensures |xs| as real <= Sum(xs) <= 5.0 * |xs| as real
    decreases |xs|
  {
    if |xs| > 0 {
      SumBounds(xs[1..]);
    }
  }

  /** When every review passes validation, the average stays inside the
      schema's `0..5` bounds for `ratings.average` (indeed inside `1..5`). */
  lemma AverageWithinBounds(reviews: seq<Review>)
    requires forall i :: 0 <= i < |reviews| ==> ValidReview(reviews[i])
    ensures 0.0 <= CalculateAverageRating(reviews).average <= 5.0
    ensures |reviews| > 0 ==> 1.0 <= CalculateAverageRating(reviews).average
  {
    if |reviews| > 0 {
      var xs := RatingValues(reviews);
      SumBounds(xs);
      MeanBounds(Sum(xs), |xs| as real);
    }
  }

  lemma MeanBounds(sum: real, n: real)
    requires n > 0.0
    requires n <= sum <= 5.0 * n
    ensures 1.0 <= sum / n <= 5.0
  {
    var avg := sum / n;
    assert (avg - 1.0) * n == sum - n;
    assert (5.0 - avg) * n == 5.0 * n - sum;
    NonNegativeFactor(avg - 1.0, n);
    NonNegativeFactor(5.0 - avg, n);
  }

  lemma NonNegativeFactor(x: real, n: real)
    requires n > 0.0 && x * n >= 0.0
    ensures x >= 0.0
  {
  }

  /** The summary depends only on the multiset of ratings: reordering the
      reviews, or recomputing, gives the same `{average, count}`. */
  lemma SummaryIgnoresOrder(r1: seq<Review>, r2: seq<Review>)
    requires multiset(RatingValues(r1)) == multiset(RatingValues(r2))
    ensures CalculateAverageRating(r1) == CalculateAverageRating(r2)
  {
    SumPermutation(RatingValues(r1), RatingValues(r2));
    assert |r1| == |RatingValues(r1)| == |multiset(RatingValues(r1))|;
    assert |r2| == |RatingValues(r2)| == |multiset(RatingValues(r2))|;
  }

  /** Summary of a review list that grew by one review at the end. */
  lemma SummaryAfterAppend(reviews: seq<Review>, r: Review)
    ensures var s := CalculateAverageRating(reviews + [r]);
      && s.count == |reviews| + 1
      && s.average * s.count as real == Sum(RatingValues(reviews)) + r.rating
  {
    assert RatingValues(reviews + [r]) == RatingValues(reviews) + [r.rating];
    SumConcat(RatingValues(reviews), [r.rating]);
  }

  /** `book.calculateAverageRating()` on a whole document: only `ratings`
      changes. */
  function Recalculate(b: Book): (r: Book)
    ensures r.ratings == CalculateAverageRating(b.reviews)
    ensures r.(ratings := b.ratings) == b
  {
    b.(ratings := CalculateAverageRating(b.reviews))
  }

  /** `book.save()`: validation first; on success the pre-save hook stamps
      `updatedAt` with the current time, and nothing else changes. */
  function Save(b: Book, now: int): (r: Response<Book>)
    ensures r.Ok? <==> ValidBook(b)
    ensures r.Ok? ==> r.value.updatedAt == now && r.value.(updatedAt := b.updatedAt) == b
    ensures !r.Ok? ==> r.ValidationFailure?
  {
    if ValidBook(b) then Ok(b.(updatedAt := now)) else ValidationFailure("Validation failed")
  }

  /** The fields of a book the catalog manager supplies; the rest take their
      schema defaults. `fileFormat` arrives as text and is cast to the
      enumeration. `fileSize` is `None` when the body leaves it out or gives
      something that does not cast to a number. */
  datatype BookDraft = BookDraft(
    title: string,
    author: string,
    description: string,
    isbn: Option<string>,
    category: CategoryId,
    coverImage: string,
    fileUrl: string,
    fileFormat: string,
    fileSize: Option<real>,
    language: Option<string>,
    publisher: Option<string>,
    publishedDate: Option<int>,
    pages: Option<real>,
    isFeatured: Option<bool>,
    tags: seq<string>)

  function TrimOption(s: Option<string>): Option<string>
  {
    match s
    case None => None
    case Some(v) => Some(Trim(v))
  }

  /** The schema constraints as they bear on a draft: the required fields
      present once trimmed, and the title and description within their
      lengths. */
  predicate DraftValid(d: BookDraft, creator: UserId) {
    && Trim(d.title) != "" && Utf16Length(Trim(d.title)) <= MaxTitleLength
    && Trim(d.author) != ""
    && d.description != "" && Utf16Length(d.description) <= MaxDescriptionLength
    && d.coverImage != "" && d.fileUrl != ""
    && d.fileSize.Some?
    && creator != ""
  }

  /** `Book.create(body)`: the trimming setters and defaults applied, then
      validated and saved. A format outside the enumeration, or a category
      that does not cast to an object id, fails validation. */
  function CreateDocument(d: BookDraft, id: BookId, creator: UserId, now: int): (r: Response<Book>)
    ensures ParseFileFormat(d.fileFormat).None? ==> r.ValidationFailure?
    ensures CastObjectId(d.category).None? ==> r.ValidationFailure?
    ensures d.fileSize.None? ==> r.ValidationFailure?
    ensures r.Ok? <==> ParseFileFormat(d.fileFormat).Some? && CastObjectId(d.category).Some? && DraftValid(d, creator)
    ensures r.Ok? ==> ValidBook(r.value)
    ensures r.Ok? ==> var b := r.value;
      && b.id == id && Some(b.category) == CastObjectId(d.category) && b.createdBy == creator
      && b.title == Trim(d.title) && b.author == Trim(d.author)
      && FormatName(b.fileFormat) == d.fileFormat && Some(b.fileSize) == d.fileSize
      && b.ratings == Ratings(0.0, 0) && b.reviews == []
      && b.downloads == 0 && b.views == 0
      && b.isFeatured == (d.isFeatured == Some(true))
      && b.language == (if d.language.Some? then d.language.value else "English")
      && b.createdAt == now && b.updatedAt == now
    ensures !r.Ok? ==> r.ValidationFailure?
  {
    match (ParseFileFormat(d.fileFormat), CastObjectId(d.category), d.fileSize)
    case (None, _, _) => ValidationFailure("Invalid file format")
    case (_, None, _) => ValidationFailure("Cast to ObjectId failed")
    case (_, _, None) => ValidationFailure("Path `fileSize` is required.")
    case (Some(format), Some(category), Some(size)) =>
      var b := DraftBook(d, id, format, category, size, creator, now);
      DraftBookValid(d, id, format, category, size, creator, now);
      Save(b, now)
  }

  /** The document `Book.create` builds from a draft: the trimming setters
      applied and the defaults filled in. */
  function DraftBook(d: BookDraft, id: BookId, format: FileFormat, category: CategoryId, size: real,
                     creator: UserId, now: int): Book
  {
    Book(
      id, Trim(d.title), Trim(d.author), d.description, d.isbn, category,
      d.coverImage, d.fileUrl, format, size,
      if d.language.Some? then d.language.value else "English",
      TrimOption(d.publisher), d.publishedDate, d.pages, Ratings(0.0, 0), [], 0, 0,
      d.isFeatured == Some(true), seq(|d.tags|, i requires 0 <= i < |d.tags| => Trim(d.tags[i])),
      creator, now, now)
  }

  /** A built document passes the schema exactly when its draft does, given
      a category id, which is never empty, and the draft's size. */
  lemma DraftBookValid(d: BookDraft, id: BookId, format: FileFormat, category: CategoryId, size: real,
                       creator: UserId, now: int)
    requires |category| == 24 && d.fileSize == Some(size)
    ensures ValidBook(DraftBook(d, id, format, category, size, creator, now)) <==> DraftValid(d, creator)
  {
  }
}

=== FILE: book_order.dfy ===
/** How the catalog orders books: the `sort` query parameter becomes an
    ordered list of sort rules, and the document store compares two books
    rule by rule, each rule comparing one field's values in the store's
    order of values (null first, then numbers, strings, object ids,
    booleans, dates). */
module BookOrder {
  import opened Outcomes
  import opened Text
  import opened Books
  import Sorting

  /** A field value as the store compares it; an absent field reads as
      `Null`. */
  datatype Value = Null | Num(n: real) | Str(s: string) | Oid(id: string) | Bool(b: bool) | Date(t: int)

  /** The store orders values of different types by type first. */
  function TypeRank(v: Value): nat
  {
    match v
    case Null => 0
    case Num(_) => 1
    case Str(_) => 2
    case Oid(_) => 3
    case Bool(_) => 4
    case Date(_) => 5
  }

  /** Code-point lexicographic comparison, which is the order of the UTF-8
      bytes the store compares; -1, 0 or 1. A proper prefix comes first. */
  function CompareStrings(a: string, b: string): (c: int)
    ensures -1 <= c <= 1
    ensures a < b ==> c == -1
    ensures b < a ==> c == 1
  {
    if |a| == 0 && |b| == 0 then 0
    else if |a| == 0 then -1
    else if |b| == 0 then 1
    else if a[0] < b[0] then -1
    else if a[0] > b[0] then 1
    else CompareStrings(a[1..], b[1..])
  }

  lemma {:induction false} CompareStringsZero(a: string, b: string)
    ensures CompareStrings(a, b) == 0 <==> a == b
    decreases |a|
  {
    if |a| > 0 && |b| > 0 && a[0] == b[0] {
      CompareStringsZero(a[1..], b[1..]);
      assert a == [a[0]] + a[1..] && b == [b[0]] + b[1..];
    }
  }

  lemma {:induction false} CompareStringsAntisymmetric(a: string, b: string)
    ensures CompareStrings(a, b) == -CompareStrings(b, a)
    decreases |a|
  {
    if |a| > 0 && |b| > 0 && a[0] == b[0] {
      CompareStringsAntisymmetric(a[1..], b[1..]);
    }
  }

  lemma {:induction false} CompareStringsTransitive(a: string, b: string, c: string)
    requires CompareStrings(a, b) <= 0 && CompareStrings(b, c) <= 0
    ensures CompareStrings(a, c) <= 0
    decreases |a|
  {
    if |a| > 0 && |b| > 0 && |c| > 0 && a[0] == b[0] && b[0] == c[0] {
      CompareStringsTransitive(a[1..], b[1..], c[1..]);
    }
  }

  function CompareNumbers(x: real, y: real): int
  {
    if x < y then -1 else if x > y then 1 else 0
  }

  function CompareInts(x: int, y: int): int
  {
    if x < y then -1 else if x > y then 1 else 0
  }

  /** The store's comparison of two values: -1, 0 or 1. */
  function CompareValues(u: Value, v: Value): (c: int)
    ensures -1 <= c <= 1
    ensures TypeRank(u) < TypeRank(v) ==> c == -1
    ensures TypeRank(u) > TypeRank(v) ==> c == 1
  {
    if TypeRank(u) != TypeRank(v) then CompareInts(TypeRank(u), TypeRank(v))
    else
      match (u, v)
      case (Num(x), Num(y)) => CompareNumbers(x, y)
      case (Str(x), Str(y)) => CompareStrings(x, y)
      case (Oid(x), Oid(y)) => CompareStrings(x, y)
      case (Bool(x), Bool(y)) => if x == y then 0 else if y then -1 else 1
      case (Date(x), Date(y)) => CompareInts(x, y)
      case _ => 0
  }

  lemma CompareValuesZero(u: Value, v: Value)
    ensures CompareValues(u, v) == 0 <==> u == v
  {
    match (u, v)
    case (Str(x), Str(y)) => CompareStringsZero(x, y);
    case (Oid(x), Oid(y)) => CompareStringsZero(x, y);
    case _ =>
  }

  lemma CompareValuesAntisymmetric(u: Value, v: Value)
    ensures CompareValues(u, v) == -CompareValues(v, u)
  {
    match (u, v)
    case (Str(x), Str(y)) => CompareStringsAntisymmetric(x, y);
    case (Oid(x), Oid(y)) => CompareStringsAntisymmetric(x, y);
    case _ =>
  }

  lemma CompareValuesTransitive(u: Value, v: Value, w: Value)
    requires CompareValues(u, v) <= 0 && CompareValues(v, w) <= 0
    ensures CompareValues(u, w) <= 0
  {
    if TypeRank(u) == TypeRank(v) == TypeRank(w) {
      match (u, v, w)
      case (Str(x), Str(y), Str(z)) => CompareStringsTransitive(x, y, z);
      case (Oid(x), Oid(y), Oid(z)) => CompareStringsTransitive(x, y, z);
      case _ =>
    }
  }

  datatype Direction = Asc | Desc

  /** One rule of a sort specification: a field path and a direction. */
  datatype SortRule = SortRule(field: string, dir: Direction)

  /** The value of a field path in a book. Fields whose values are embedded
      documents or arrays are not ordered by the model and read as `Null`,
      like a path the book does not have. */
  function FieldValue(b: Book, path: string): Value
  {
    if path == "_id" then Oid(b.id)
    else if path == "title" then Str(b.title)
    else if path == "author" then Str(b.author)
    else if path == "description" then Str(b.description)
    else if path == "isbn" then (if b.isbn.Some? then Str(b.isbn.value) else Null)
    else if path == "category" then Oid(b.category)
    else if path == "coverImage" then Str(b.coverImage)
    else if path == "fileUrl" then Str(b.fileUrl)
    else if path == "fileFormat" then Str(FormatName(b.fileFormat))
    else if path == "fileSize" then Num(b.fileSize)
    else if path == "language" then Str(b.language)
    else if path == "publisher" then (if b.publisher.Some? then Str(b.publisher.value) else Null)
    else if path == "publishedDate" then (if b.publishedDate.Some? then Date(b.publishedDate.value) else Null)
    else if path == "pages" then (if b.pages.Some? then Num(b.pages.value) else Null)
    else if path == "ratings.average" then Num(b.ratings.average)
    else if path == "ratings.count" then Num(b.ratings.count as real)
    else if path == "downloads" then Num(b.downloads as real)
    else if path == "views" then Num(b.views as real)
    else if path == "isFeatured" then Bool(b.isFeatured)
    else if path == "createdBy" then Oid(b.createdBy)
    else if path == "createdAt" then Date(b.createdAt)
    else if path == "updatedAt" then Date(b.updatedAt)
    else Null
  }

  /** One rule's comparison of two books: descending reverses the operands. */
  function CompareByRule(rule: SortRule, a: Book, b: Book): int
  {
    var u := FieldValue(a, rule.field);
    var v := FieldValue(b, rule.field);
    if rule.dir == Asc then CompareValues(u, v) else CompareValues(v, u)
  }

  /** The comparison for a whole specification: the first rule that tells
      the books apart decides; books equal under every rule compare 0. */
  function CompareBy(rules: seq<SortRule>, a: Book, b: Book): int
  {
    if |rules| == 0 then 0
    else
      var c := CompareByRule(rules[0], a, b);
      if c != 0 then c else CompareBy(rules[1..], a, b)
  }

  predicate LeBy(rules: seq<SortRule>, a: Book, b: Book) {
    CompareBy(rules, a, b) <= 0
  }

  function Le(rules: seq<SortRule>): (Book, Book) -> bool
  {
    (a: Book, b: Book) => LeBy(rules, a, b)
  }

  lemma CompareByRuleZero(rule: SortRule, a: Book, b: Book)
    ensures CompareByRule(rule, a, b) == 0 <==> FieldValue(a, rule.field) == FieldValue(b, rule.field)
  {
    CompareValuesZero(FieldValue(a, rule.field), FieldValue(b, rule.field));
    CompareValuesZero(FieldValue(b, rule.field), FieldValue(a, rule.field));
  }

  lemma CompareByRuleAntisymmetric(rule: SortRule, a: Book, b: Book)
    ensures CompareByRule(rule, a, b) == -CompareByRule(rule, b, a)
  {
    CompareValuesAntisymmetric(FieldValue(a, rule.field), FieldValue(b, rule.field));
  }

  lemma CompareByRuleTransitive(rule: SortRule, a: Book, b: Book, c: Book)
    requires CompareByRule(rule, a, b) <= 0 && CompareByRule(rule, b, c) <= 0
    ensures CompareByRule(rule, a, c) <= 0
  {
    var u, v, w := FieldValue(a, rule.field), FieldValue(b, rule.field), FieldValue(c, rule.field);
    if rule.dir == Asc {
      CompareValuesTransitive(u, v, w);
    } else {
      CompareValuesTransitive(w, v, u);
    }
  }

  lemma {:induction false} CompareByAntisymmetric(rules: seq<SortRule>, a: Book, b: Book)
    ensures CompareBy(rules, a, b) == -CompareBy(rules, b, a)
    decreases |rules|
  {
    if |rules| > 0 {
      CompareByRuleAntisymmetric(rules[0], a, b);
      CompareByAntisymmetric(rules[1..], a, b);
    }
  }

  /** When the first rule ties `a` with `b`, `a` compares to any third book
      exactly as `b` does under that rule. */
  lemma TieSubstitutes(rule: SortRule, a: Book, b: Book, c: Book)
    requires CompareByRule(rule, a, b) == 0
    ensures CompareByRule(rule, a, c) == CompareByRule(rule, b, c)
    ensures CompareByRule(rule, c, a) == CompareByRule(rule, c, b)
  {
    CompareByRuleZero(rule, a, b);
  }

  lemma {:induction false} CompareByTransitive(rules: seq<SortRule>, a: Book, b: Book, c: Book)
    requires CompareBy(rules, a, b) <= 0 && CompareBy(rules, b, c) <= 0
    ensures CompareBy(rules, a, c) <= 0
    decreases |rules|
  {
    if |rules| > 0 {
      var r := rules[0];
      var x, y := CompareByRule(r, a, b), CompareByRule(r, b, c);
      if x == 0 {
        TieSubstitutes(r, a, b, c);
        if y == 0 {
          CompareByTransitive(rules[1..], a, b, c);
        }
      } else if y == 0 {
        TieSubstitutes(r, b, c, a);
      } else {
        CompareByRuleTransitive(r, a, b, c);
        StrictStep(r, a, b, c);
      }
    }
  }

  /** Strictly before, then at most: strictly before. */
  lemma StrictStep(r: SortRule, a: Book, b: Book, c: Book)
    requires CompareByRule(r, a, b) < 0 && CompareByRule(r, b, c) <= 0
    ensures CompareByRule(r, a, c) < 0
  {
    CompareByRuleTransitive(r, a, b, c);
    if CompareByRule(r, a, c) == 0 {
      TieSubstitutes(r, a, c, b);
      CompareByRuleAntisymmetric(r, b, c);
    }
  }

  /** Every specification orders books by a total preorder. */
  lemma LeIsPreorder(rules: seq<SortRule>)
    ensures Sorting.Total(Le(rules))
    ensures Sorting.Transitive(Le(rules))
  {
    forall a, b ensures Le(rules)(a, b) || Le(rules)(b, a) {
      CompareByAntisymmetric(rules, a, b);
    }
    forall a, b, c | Le(rules)(a, b) && Le(rules)(b, c) ensures Le(rules)(a, c) {
      CompareByTransitive(rules, a, b, c);
    }
  }

  /** Books rearranged into the order the specification asks for; books
      equal under every rule keep their relative order. */
  function SortBooks(rules: seq<SortRule>, books: seq<Book>): (r: seq<Book>)
    ensures multiset(r) == multiset(books)
    ensures Sorting.SortedBy(r, Le(rules))
  {
    LeIsPreorder(rules);
    Sorting.InsertionSortSorted(books, Le(rules));
    Sorting.InsertionSort(books, Le(rules))
  }

  /** In a sorted list the first rule's field is in the rule's direction. */
  lemma SortedByFirstRule(rules: seq<SortRule>, s: seq<Book>, i: int, j: int)
    requires |rules| > 0 && Sorting.SortedBy(s, Le(rules))
    requires 0 <= i < j < |s|
    ensures CompareByRule(rules[0], s[i], s[j]) <= 0
  {
    assert Le(rules)(s[i], s[j]);
  }

  /** A sort parameter token: a leading `-` asks for descending order on the
      rest of the token. */
  function RuleOfToken(t: string): (r: SortRule)
    ensures r.dir == Desc <==> |t| > 0 && t[0] == '-'
    ensures r.dir == Desc ==> t == "-" + r.field
    ensures r.dir == Asc ==> t == r.field
  {
    if |t| > 0 && t[0] == '-' then SortRule(t[1..], Desc) else SortRule(t, Asc)
  }

  function IndexOfField(rules: seq<SortRule>, f: string): (i: int)
    ensures -1 <= i < |rules|
    ensures i >= 0 ==> rules[i].field == f && forall j :: 0 <= j < i ==> rules[j].field != f
    ensures i < 0 ==> forall j :: 0 <= j < |rules| ==> rules[j].field != f
  {
    if |rules| == 0 then -1
    else if rules[0].field == f then 0
    else
      var k := IndexOfField(rules[1..], f);
      if k < 0 then -1 else k + 1
  }

  /** `sort[field] = direction` on an object: a new key goes last, an
      existing key keeps its place and takes the new direction. */
  function AddRule(rules: seq<SortRule>, r: SortRule): seq<SortRule>
  {
    var i := IndexOfField(rules, r.field);
    if i < 0 then rules + [r] else rules[i := r]
  }

  /** The rules built from the tokens, read left to right. */
  function BuildRules(tokens: seq<string>): seq<SortRule>
  {
    if |tokens| == 0 then []
    else AddRule(BuildRules(tokens[..|tokens| - 1]), RuleOfToken(tokens[|tokens| - 1]))
  }

  const DefaultSort := [SortRule("createdAt", Desc)]

  /** The sort specification of a listing request: the parameter split at
      commas, or newest first when it is absent or empty. */
  function ParseSort(param: Option<string>): (r: seq<SortRule>)
    ensures param.None? || param == Some("") ==> r == DefaultSort
    ensures param.Some? && param.value != "" ==> r == BuildRules(Split(param.value, ','))
    ensures param.Some? && param.value != "" ==> var tokens := Split(param.value, ',');
      && Fields(r) == FirstOccurrences(TokenFields(tokens))
      && forall i :: 0 <= i < |r| ==> LastDirection(tokens, r[i].field) == Some(r[i].dir)
  {
    if param.None? || param.value == "" then DefaultSort
    else
      var tokens := Split(param.value, ',');
      BuildRulesMeaning(tokens);
      BuildRules(tokens)
  }

  // Reference description of the rules: the distinct fields in order of
  // first mention, each with the direction of its last mention.

  function Fields(rules: seq<SortRule>): (fs: seq<string>)
    ensures |fs| == |rules|
    ensures forall i :: 0 <= i < |rules| ==> fs[i] == rules[i].field
  {
    seq(|rules|, i requires 0 <= i < |rules| => rules[i].field)
  }

  function TokenFields(tokens: seq<string>): (fs: seq<string>)
    ensures |fs| == |tokens|
    ensures forall i :: 0 <= i < |tokens| ==> fs[i] == RuleOfToken(tokens[i]).field
  {
    seq(|tokens|, i requires 0 <= i < |tokens| => RuleOfToken(tokens[i]).field)
  }

  /** The elements of `xs` in order of first occurrence. */
  function FirstOccurrences(xs: seq<string>): seq<string>
  {
    if |xs| == 0 then []
    else
      var d := FirstOccurrences(xs[..|xs| - 1]);
      if xs[|xs| - 1] in d then d else d + [xs[|xs| - 1]]
  }

  predicate Distinct(xs: seq<string>) {
    forall i, j :: 0 <= i < j < |xs| ==> xs[i] != xs[j]
  }

  lemma {:induction false} FirstOccurrencesSpec(xs: seq<string>)
    ensures Distinct(FirstOccurrences(xs))
    ensures forall x :: x in FirstOccurrences(xs) <==> x in xs
    decreases |xs|
  {
    if |xs| > 0 {
      var init := xs[..|xs| - 1];
      FirstOccurrencesSpec(init);
      assert xs == init + [xs[|xs| - 1]];
    }
  }

  /** The direction of the last token naming `f`, if any. */
  function LastDirection(tokens: seq<string>, f: string): Option<Direction>
  {
    if |tokens| == 0 then None
    else
      var r := RuleOfToken(tokens[|tokens| - 1]);
      if r.field == f then Some(r.dir) else LastDirection(tokens[..|tokens| - 1], f)
  }

  lemma AddRuleFields(rules: seq<SortRule>, r: SortRule)
    ensures Fields(AddRule(rules, r)) == if r.field in Fields(rules) then Fields(rules) else Fields(rules) + [r.field]
  {
    var i := IndexOfField(rules, r.field);
    if i >= 0 {
      assert Fields(rules)[i] == r.field;
    }
  }

  /** The fields of the parsed rules are the token fields in order of first
      mention: a repeated field keeps its first position. */
  lemma {:induction false} BuildRulesFields(tokens: seq<string>)
    ensures Fields(BuildRules(tokens)) == FirstOccurrences(TokenFields(tokens))
    decreases |tokens|
  {
    if |tokens| > 0 {
      var init := tokens[..|tokens| - 1];
      BuildRulesFields(init);
      assert TokenFields(tokens)[..|tokens| - 1] == TokenFields(init);
      AddRuleFields(BuildRules(init), RuleOfToken(tokens[|tokens| - 1]));
    }
  }

  /** The parsed rules name each field at most once, and exactly the fields
      the tokens name. */
  lemma BuildRulesDistinct(tokens: seq<string>)
    ensures Distinct(Fields(BuildRules(tokens)))
    ensures forall f :: f in Fields(BuildRules(tokens)) <==> f in TokenFields(tokens)
  {
    BuildRulesFields(tokens);
    FirstOccurrencesSpec(TokenFields(tokens));
  }

  lemma AddRuleDirections(rules: seq<SortRule>, r: SortRule, i: int)
    requires Distinct(Fields(rules))
    requires 0 <= i < |AddRule(rules, r)|
    ensures AddRule(rules, r)[i] == if AddRule(rules, r)[i].field == r.field then r else rules[i]
  {
    var k := IndexOfField(rules, r.field);
    if k >= 0 && i != k {
      assert Fields(rules)[i] != Fields(rules)[k];
    }
  }

  /** Each parsed rule carries the direction of the last token that names
      its field. */
  lemma {:induction false} BuildRulesDirections(tokens: seq<string>, i: int)
    requires 0 <= i < |BuildRules(tokens)|
    ensures LastDirection(tokens, BuildRules(tokens)[i].field) == Some(BuildRules(tokens)[i].dir)
    decreases |tokens|
  {
    var init := tokens[..|tokens| - 1];
    var r := RuleOfToken(tokens[|tokens| - 1]);
    BuildRulesDistinct(init);
    AddRuleDirections(BuildRules(init), r, i);
    if BuildRules(tokens)[i].field != r.field {
      BuildRulesDirections(init, i);
    }
  }

  /** The parsed rules, described without the parser: the fields in order
      of first mention, each with the direction of its last mention. */
  lemma BuildRulesMeaning(tokens: seq<string>)
    ensures Fields(BuildRules(tokens)) == FirstOccurrences(TokenFields(tokens))
    ensures forall i :: 0 <= i < |BuildRules(tokens)| ==>
      LastDirection(tokens, BuildRules(tokens)[i].field) == Some(BuildRules(tokens)[i].dir)
  {
    BuildRulesFields(tokens);
    forall i | 0 <= i < |BuildRules(tokens)|
      ensures LastDirection(tokens, BuildRules(tokens)[i].field) == Some(BuildRules(tokens)[i].dir)
    {
      BuildRulesDirections(tokens, i);
    }
  }

  /** A repeated field: `title,-title` sorts by title descending only. */
  lemma RepeatedFieldExample()
    ensures ParseSort(Some("title,-title")) == [SortRule("title", Desc)]
  {
    SplitExample();
    BuildRulesExample();
  }

  lemma BuildRulesExample()
    ensures BuildRules(["title", "-title"]) == [SortRule("title", Desc)]
  {
    var tokens := ["title", "-title"];
    assert tokens[..1] == ["title"];
    assert ["title"][..0] == [];
    assert RuleOfToken("-title") == SortRule("title", Desc);
  }

  lemma SplitExample()
    ensures Split("title,-title", ',') == ["title", "-title"]
  {
    var parts := ["title", "-title"];
    assert Join(parts, ',') == "title,-title" by {
      assert parts[1..] == ["-title"];
    }
    SplitJoin(parts, ',');
  }
}

=== FILE: books_slice.dfy ===
/** The client's books store: its initial state and the six reducers, each a
    pure transition from one state to the next. */
module BooksSlice {
  import opened Outcomes

  /** A book as the client holds it. */
  datatype BookView = BookView(
    id: string,
    title: string,
    author: string,
    description: string,
    coverImage: string,
    category: string,
    average: real,
    count: int,
    downloads: int,
    views: int)

  datatype State = State(
    books: seq<BookView>,
    currentBook: Option<BookView>,
    featuredBooks: seq<BookView>,
    loading: bool,
    error: Option<string>,
    total: int,
    pages: int,
    currentPage: int)

  /** The body of a listing response, as `setBooks` reads it. */
  datatype ListingPayload = ListingPayload(data: seq<BookView>, total: int, pages: int, currentPage: int)

  datatype Action =
    | SetBooksLoading(loading: bool)
    | SetBooksError(error: Option<string>)
    | SetBooks(payload: ListingPayload)
    | SetCurrentBook(book: Option<BookView>)
    | SetFeaturedBooks(featured: seq<BookView>)
    | ClearBooks

  /** The names of the state's fields. */
  datatype Field = BooksField | CurrentBookField | FeaturedBooksField | LoadingField
                 | ErrorField | TotalField | PagesField | CurrentPageField

  /** The fields in which two states differ. */
  function Differ(a: State, b: State): set<Field>
  {
    (if a.books != b.books then {BooksField} else {})
    + (if a.currentBook != b.currentBook then {CurrentBookField} else {})
    + (if a.featuredBooks != b.featuredBooks then {FeaturedBooksField} else {})
    + (if a.loading != b.loading then {LoadingField} else {})
    + (if a.error != b.error then {ErrorField} else {})
    + (if a.total != b.total then {TotalField} else {})
    + (if a.pages != b.pages then {PagesField} else {})
    + (if a.currentPage != b.currentPage then {CurrentPageField} else {})
  }

  lemma DifferNoneMeansEqual(a: State, b: State)
    ensures Differ(a, b) == {} <==> a == b
  {
    if Differ(a, b) == {} {
      assert BooksField !in Differ(a, b) && CurrentBookField !in Differ(a, b);
      assert FeaturedBooksField !in Differ(a, b) && LoadingField !in Differ(a, b);
      assert ErrorField !in Differ(a, b) && TotalField !in Differ(a, b);
      assert PagesField !in Differ(a, b) && CurrentPageField !in Differ(a, b);
    }
  }

  /** Nothing listed, nothing loading, no error, first page. */
  function InitialState(): (s: State)
    ensures s.books == [] && s.featuredBooks == [] && s.currentBook.None?
    ensures !s.loading && s.error.None?
    ensures s.total == 0 && s.pages == 0 && s.currentPage == 1
  {
    State([], None, [], false, None, 0, 0, 1)
  }

  /** The reducer. */
  function Reduce(s: State, a: Action): (r: State)
    ensures a.SetBooksLoading? ==> Differ(s, r) <= {LoadingField} && r.loading == a.loading
    ensures a.SetBooksError? ==> Differ(s, r) <= {ErrorField, LoadingField} && r.error == a.error && !r.loading
    ensures a.SetBooks? ==>
      && Differ(s, r) <= {BooksField, TotalField, PagesField, CurrentPageField, LoadingField, ErrorField}
      && r.books == a.payload.data && r.total == a.payload.total
      && r.pages == a.payload.pages && r.currentPage == a.payload.currentPage
      && !r.loading && r.error.None?
    ensures a.SetCurrentBook? ==>
      Differ(s, r) <= {CurrentBookField, LoadingField, ErrorField} && r.currentBook == a.book && !r.loading && r.error.None?
    ensures a.SetFeaturedBooks? ==> Differ(s, r) <= {FeaturedBooksField} && r.featuredBooks == a.featured
    ensures a.ClearBooks? ==>
      Differ(s, r) <= {BooksField, CurrentBookField, ErrorField} && r.books == [] && r.currentBook.None? && r.error.None?
  {
    match a
    case SetBooksLoading(v) => s.(loading := v)
    case SetBooksError(e) => s.(error := e, loading := false)
    case SetBooks(p) => s.(books := p.data, total := p.total, pages := p.pages, currentPage := p.currentPage,
                           loading := false, error := None)
    case SetCurrentBook(b) => s.(currentBook := b, loading := false, error := None)
    case SetFeaturedBooks(f) => s.(featuredBooks := f)
    case ClearBooks => s.(books := [], currentBook := None, error := None)
  }

  /** Every action sets its fields to values that depend only on the action:
      dispatching it twice is dispatching it once. */
  lemma ReduceIdempotent(s: State, a: Action)
    ensures Reduce(Reduce(s, a), a) == Reduce(s, a)
  {
  }

  /** The fields an action may write. */
  function Writes(a: Action): set<Field>
  {
    match a
    case SetBooksLoading(_) => {LoadingField}
    case SetBooksError(_) => {ErrorField, LoadingField}
    case SetBooks(_) => {BooksField, TotalField, PagesField, CurrentPageField, LoadingField, ErrorField}
    case SetCurrentBook(_) => {CurrentBookField, LoadingField, ErrorField}
    case SetFeaturedBooks(_) => {FeaturedBooksField}
    case ClearBooks => {BooksField, CurrentBookField, ErrorField}
  }

  /** Each action leaves every field outside its write set as it was. */
  lemma ReduceFrame(s: State, a: Action)
    ensures Differ(s, Reduce(s, a)) <= Writes(a)
  {
  }

  /** The featured list is written by `setFeaturedBooks` alone, so that
      action commutes with every other. */
  lemma FeaturedCommutes(s: State, f: seq<BookView>, a: Action)
    requires !a.SetFeaturedBooks?
    ensures Reduce(Reduce(s, SetFeaturedBooks(f)), a) == Reduce(Reduce(s, a), SetFeaturedBooks(f))
  {
  }

  /** Loading a page after clearing is the same as loading it directly,
      except that the current book is gone. */
  lemma ClearThenLoad(s: State, p: ListingPayload)
    ensures Reduce(Reduce(s, ClearBooks), SetBooks(p)) == Reduce(s, SetBooks(p)).(currentBook := None)
  {
  }

  /** A state reached by any sequence of actions from the initial state. */
  function Run(s: State, actions: seq<Action>): State
    decreases |actions|
  {
    if |actions| == 0 then s else Run(Reduce(s, actions[0]), actions[1..])
  }

  /** Only `setFeaturedBooks` ever changes the featured list: after any
      sequence of other actions it is as it was. */
  lemma {:induction false} FeaturedUntouched(s: State, actions: seq<Action>)
    requires forall k :: 0 <= k < |actions| ==> !actions[k].SetFeaturedBooks?
    ensures Run(s, actions).featuredBooks == s.featuredBooks
    decreases |actions|
  {
    if |actions| > 0 {
      FeaturedUntouched(Reduce(s, actions[0]), actions[1..]);
    }
  }
}

=== FILE: catalog_query.dfy ===
/** The catalog listing (`GET /api/books`): the query parameters become a
    conjunction of filter clauses, a sort specification and paging; the
    listing is the matching books, sorted, then windowed by skip and limit,
    with the page metadata. */
module CatalogQuery {
  import opened Outcomes
  import opened Text
  import opened Books
  import opened BookOrder
  import Pagination
  import Sorting

  /** The raw query string values; `None` is an absent parameter. */
  datatype QueryParams = QueryParams(
    page: Option<string>,
    limit: Option<string>,
    category: Option<string>,
    author: Option<string>,
    search: Option<string>,
    featured: Option<string>,
    sort: Option<string>)

  /** One condition of the filter. Author and search patterns are matched
      as literal text, ignoring case. */
  datatype Clause =
    | CategoryIs(categoryText: string)
    | AuthorMatches(pattern: string)
    | TextSearch(pattern: string)
    | FeaturedOnly

  const DefaultLimit := 12

  /** A parameter counts when it is present and not the empty string. */
  predicate Present(p: Option<string>) {
    p.Some? && p.value != ""
  }

  /** The clauses of the filter, one for each parameter that is given;
      `featured` counts only when it is exactly `true`. */
  function BuildFilter(q: QueryParams): (r: seq<Clause>)
    ensures forall t :: CategoryIs(t) in r <==> Present(q.category) && t == q.category.value
    ensures forall t :: AuthorMatches(t) in r <==> Present(q.author) && t == q.author.value
    ensures forall t :: TextSearch(t) in r <==> Present(q.search) && t == q.search.value
    ensures FeaturedOnly in r <==> q.featured == Some("true")
  {
    (if Present(q.category) then [CategoryIs(q.category.value)] else [])
    + (if Present(q.author) then [AuthorMatches(q.author.value)] else [])
    + (if Present(q.search) then [TextSearch(q.search.value)] else [])
    + (if q.featured == Some("true") then [FeaturedOnly] else [])
  }

  predicate MatchesClause(c: Clause, b: Book) {
    match c
    case CategoryIs(t) => CastObjectId(t) == Some(b.category)
    case AuthorMatches(p) => ContainsIgnoringCase(b.author, p)
    case TextSearch(p) =>
      ContainsIgnoringCase(b.title, p) || ContainsIgnoringCase(b.author, p) || ContainsIgnoringCase(b.description, p)
    case FeaturedOnly => b.isFeatured
  }

  predicate Matches(clauses: seq<Clause>, b: Book) {
    forall i :: 0 <= i < |clauses| ==> MatchesClause(clauses[i], b)
  }

  /** What a request asks of a book, parameter by parameter. */
  predicate Wanted(q: QueryParams, b: Book) {
    && (Present(q.category) ==> CastObjectId(q.category.value) == Some(b.category))
    && (Present(q.author) ==> ContainsIgnoringCase(b.author, q.author.value))
    && (Present(q.search) ==>
          || ContainsIgnoringCase(b.title, q.search.value)
          || ContainsIgnoringCase(b.author, q.search.value)
          || ContainsIgnoringCase(b.description, q.search.value))
    && (q.featured == Some("true") ==> b.isFeatured)
  }

  /** A book satisfies the built filter exactly when it is what the request
      asks for. */
  lemma FilterMeaning(q: QueryParams, b: Book)
    ensures Matches(BuildFilter(q), b) <==> Wanted(q, b)
  {
    var r := BuildFilter(q);
    if Matches(r, b) {
      if Present(q.category) { ClauseHolds(r, CategoryIs(q.category.value), b); }
      if Present(q.author) { ClauseHolds(r, AuthorMatches(q.author.value), b); }
      if Present(q.search) { ClauseHolds(r, TextSearch(q.search.value), b); }
      if q.featured == Some("true") { ClauseHolds(r, FeaturedOnly, b); }
    }
  }

  lemma ClauseHolds(clauses: seq<Clause>, c: Clause, b: Book)
    requires Matches(clauses, b) && c in clauses
    ensures MatchesClause(c, b)
  {
    var i :| 0 <= i < |clauses| && clauses[i] == c;
  }

  /** The matching books in collection order. */
  function FilterBooks(clauses: seq<Clause>, books: seq<Book>): (r: seq<Book>)
    ensures |r| <= |books|
    ensures forall i :: 0 <= i < |r| ==> Matches(clauses, r[i]) && r[i] in books
    ensures forall b :: b in books && Matches(clauses, b) ==> b in r
  {
    if |books| == 0 then []
    else
      var rest := FilterBooks(clauses, books[1..]);
      assert forall b :: b in books ==> b == books[0] || b in books[1..];
      if Matches(clauses, books[0]) then [books[0]] + rest else rest
  }

  /** The filter works book by book: a collection split in two is filtered
      piecewise, so the matches keep their collection order. */
  lemma {:induction false} FilterConcat(clauses: seq<Clause>, xs: seq<Book>, ys: seq<Book>)
    ensures FilterBooks(clauses, xs + ys) == FilterBooks(clauses, xs) + FilterBooks(clauses, ys)
    decreases |xs|
  {
    if |xs| == 0 {
      assert xs + ys == ys;
    } else {
      assert (xs + ys)[1..] == xs[1..] + ys;
      FilterConcat(clauses, xs[1..], ys);
    }
  }

  /** One book is kept exactly when it matches. */
  lemma FilterOne(clauses: seq<Clause>, b: Book)
    ensures FilterBooks(clauses, [b]) == if Matches(clauses, b) then [b] else []
  {
    assert [b][1..] == [];
  }

  /** A matching book is kept as many times as the collection holds it, and
      a book that does not match is not kept at all; so the listing's
      `total` counts every match exactly once. */
  lemma {:induction false} FilterMultiplicity(clauses: seq<Clause>, books: seq<Book>, b: Book)
    ensures multiset(FilterBooks(clauses, books))[b] == if Matches(clauses, b) then multiset(books)[b] else 0
    decreases |books|
  {
    if |books| > 0 {
      var x, rest := books[0], books[1..];
      FilterMultiplicity(clauses, rest, b);
      assert multiset(books)[b] == multiset{x}[b] + multiset(rest)[b] by {
        assert books == [x] + rest;
      }
      if Matches(clauses, x) {
        assert FilterBooks(clauses, books) == [x] + FilterBooks(clauses, rest);
        assert multiset([x] + FilterBooks(clauses, rest)) == multiset{x} + multiset(FilterBooks(clauses, rest));
      } else {
        assert FilterBooks(clauses, books) == FilterBooks(clauses, rest);
      }
    }
  }

  /** The response body of a listing. */
  datatype BookPage = BookPage(count: nat, total: nat, pages: int, currentPage: int, data: seq<Book>)

  /** A field path with an empty dotted component: the empty name, a
      leading or trailing dot, or two dots in a row. */
  predicate EmptyComponent(f: string) {
    || f == ""
    || f[0] == '.'
    || f[|f| - 1] == '.'
    || exists i :: 0 <= i < |f| - 1 && f[i] == '.' && f[i + 1] == '.'
  }

  /** The store refuses a sort specification with such a field path. */
  predicate HasEmptyField(rules: seq<SortRule>) {
    exists i :: 0 <= i < |rules| && EmptyComponent(rules[i].field)
  }

  /** `title.`, `.title` and `a..b` are refused; `ratings.average` is not. */
  lemma EmptyComponentExamples()
    ensures EmptyComponent("title.") && EmptyComponent(".title") && EmptyComponent("a..b")
    ensures !EmptyComponent("ratings.average")
  {
    assert "a..b"[1] == '.' && "a..b"[2] == '.';
    var f := "ratings.average";
    assert forall i :: 0 <= i < |f| - 1 && f[i] == '.' ==> i == 7;
  }

  /** The store sorts on at most this many keys. */
  const MaxSortKeys := 32

  /** Why the store refuses to run a listing, if it does. */
  predicate Refused(q: QueryParams, paging: Pagination.Paging) {
    || paging.skip < 0
    || (Present(q.category) && CastObjectId(q.category.value).None?)
    || HasEmptyField(ParseSort(q.sort))
    || |ParseSort(q.sort)| > MaxSortKeys
  }

  function PagingOf(q: QueryParams): Pagination.Paging
  {
    Pagination.ParsePaging(q.page, q.limit, DefaultLimit)
  }

  /** `getBooks`: filter, sort, skip and limit, then the page metadata. */
  function ListBooks(q: QueryParams, books: seq<Book>): (r: Response<BookPage>)
    ensures r.ServerError? <==> Refused(q, PagingOf(q))
    ensures r.Ok? || r.ServerError?
    ensures r.Ok? ==> var p := r.value; var paging := PagingOf(q);
      && p.count == |p.data|
      && p.total == |FilterBooks(BuildFilter(q), books)|
      && p.pages == Pagination.PageCount(p.total, paging.limit)
      && p.currentPage == paging.page
      && |p.data| <= (if paging.limit < 0 then -paging.limit else paging.limit)
      && (forall i :: 0 <= i < |p.data| ==> Wanted(q, p.data[i]) && p.data[i] in books)
      && Sorting.SortedBy(p.data, Le(ParseSort(q.sort)))
      && p.data == Pagination.Window(SortBooks(ParseSort(q.sort), FilterBooks(BuildFilter(q), books)), paging.skip, paging.limit).value
  {
    var paging := PagingOf(q);
    var clauses := BuildFilter(q);
    var rules := ParseSort(q.sort);
    if Refused(q, paging) then ServerError("The store refused the query")
    else
      var matching := FilterBooks(clauses, books);
      var sorted := SortBooks(rules, matching);
      var data := Pagination.Window(sorted, paging.skip, paging.limit).value;
      ListingFacts(q, books, matching, sorted, data, paging.skip, paging.limit);
      Ok(BookPage(|data|, |matching|, Pagination.PageCount(|matching|, paging.limit), paging.page, data))
  }

  /** The items of a window onto the sorted matches are wanted books of the
      collection, in sorted order. */
  lemma ListingFacts(q: QueryParams, books: seq<Book>, matching: seq<Book>, sorted: seq<Book>,
                     data: seq<Book>, skip: int, limit: int)
    requires matching == FilterBooks(BuildFilter(q), books)
    requires sorted == SortBooks(ParseSort(q.sort), matching)
    requires skip >= 0 && data == Pagination.Window(sorted, skip, limit).value
    ensures forall i :: 0 <= i < |data| ==> Wanted(q, data[i]) && data[i] in books
    ensures Sorting.SortedBy(data, Le(ParseSort(q.sort)))
  {
    WindowSorted(sorted, Le(ParseSort(q.sort)), skip, limit);
    var lo := if skip < |sorted| then skip else |sorted|;
    Pagination.WindowIsStretch(sorted, skip, limit);
    StretchWanted(q, books, matching, sorted, lo, data);
  }

  /** A window onto a sorted sequence is sorted. */
  lemma WindowSorted<T>(s: seq<T>, le: (T, T) -> bool, skip: nat, limit: int)
    requires Sorting.SortedBy(s, le)
    ensures Sorting.SortedBy(Pagination.Window(s, skip, limit).value, le)
  {
    var lo := if skip < |s| then skip else |s|;
    Pagination.WindowIsStretch(s, skip, limit);
    Sorting.SortedSlice(s, le, lo, lo + |Pagination.Window(s, skip, limit).value|);
  }

  /** Every book of a stretch of a permutation of the matches is a wanted
      book of the collection. */
  lemma StretchWanted(q: QueryParams, books: seq<Book>, matching: seq<Book>, sorted: seq<Book>,
                      lo: nat, data: seq<Book>)
    requires matching == FilterBooks(BuildFilter(q), books)
    requires multiset(sorted) == multiset(matching)
    requires lo + |data| <= |sorted| && data == sorted[lo..lo + |data|]
    ensures forall i :: 0 <= i < |data| ==> Wanted(q, data[i]) && data[i] in books
  {
    forall i | 0 <= i < |data| ensures Wanted(q, data[i]) && data[i] in books {
      assert data[i] == sorted[lo + i];
      assert data[i] in multiset(matching);
      FilterMeaning(q, data[i]);
    }
  }

  /** When every match fits on the first page, the first page lists every
      matching book of the collection. */
  lemma FirstPageHoldsAll(q: QueryParams, books: seq<Book>)
    requires ListBooks(q, books).Ok?
    requires PagingOf(q).page == 1 && PagingOf(q).limit >= |FilterBooks(BuildFilter(q), books)|
    ensures forall b :: b in books && Wanted(q, b) ==> b in ListBooks(q, books).value.data
  {
    var matching := FilterBooks(BuildFilter(q), books);
    var sorted := SortBooks(ParseSort(q.sort), matching);
    var data := ListBooks(q, books).value.data;
    assert data == sorted;
    forall b | b in books && Wanted(q, b) ensures b in data {
      FilterMeaning(q, b);
      assert b in multiset(matching);
    }
  }
}

=== FILE: category.dfy ===
/** The category document: its defaults and constraints, and the pre-save
    hook that derives the URL slug from the name,
    `name.toLowerCase().replace(/\s+/g, '-').replace(/[^\w\-]+/g, '')`,
    but only when the name was modified. */
module Categories {
  import opened Outcomes
  import opened Text
  import Books

  datatype Category = Category(
    id: Books.CategoryId,
    name: string,
    slug: string,
    description: Option<string>,
    icon: string,
    color: string,
    booksCount: int,
    createdAt: int)

  const MaxNameLength := 50
  const MaxDescriptionLength := 500
  const DefaultIcon := "book"
  const DefaultColor := "#3B82F6"

  /** Characters the second replacement keeps: `\w` and `-`. */
  predicate IsSlugChar(c: char) {
    IsWordChar(c) || c == '-'
  }

  /** `replace(/\s+/g, '-')`, scanning left to right; `inRun` says the
      previous character was whitespace already replaced by a hyphen. */
  function Hyphenate(s: string, inRun: bool): (r: string)
    ensures |r| <= |s|
    ensures forall i :: 0 <= i < |r| ==> !IsSpace(r[i])
    ensures forall i :: 0 <= i < |r| ==> r[i] == '-' || r[i] in s
  {
    if |s| == 0 then ""
    else if IsSpace(s[0]) then (if inRun then "" else "-") + Hyphenate(s[1..], true)
    else [s[0]] + Hyphenate(s[1..], false)
  }

  function ReplaceSpaceRuns(s: string): string
  {
    Hyphenate(s, false)
  }

  /** `replace(/[^\w\-]+/g, '')`: every other character is dropped. */
  function KeepSlugChars(s: string): (r: string)
    ensures |r| <= |s|
    ensures forall i :: 0 <= i < |r| ==> IsSlugChar(r[i]) && r[i] in s
    ensures (forall i :: 0 <= i < |s| ==> IsSlugChar(s[i])) ==> r == s
  {
    if |s| == 0 then ""
    else if IsSlugChar(s[0]) then [s[0]] + KeepSlugChars(s[1..])
    else KeepSlugChars(s[1..])
  }

  /** The slug of a category name. */
  function Slug(name: string): (r: string)
    ensures |r| <= |name|
    ensures forall i :: 0 <= i < |r| ==> IsSlugChar(r[i]) && !IsUpper(r[i])
  {
    var lowered := LowerCase(name);
    var hyphenated := ReplaceSpaceRuns(lowered);
    var r := KeepSlugChars(hyphenated);
    assert forall i :: 0 <= i < |r| ==> !IsUpper(r[i]) by {
      forall i | 0 <= i < |r| ensures !IsUpper(r[i]) {
        assert r[i] in hyphenated;
        if r[i] != '-' {
          assert r[i] in lowered;
        }
      }
    }
    r
  }

  /** A string that already is a slug is left alone by every stage. */
  lemma SlugOfSlugChars(s: string)
    requires forall i :: 0 <= i < |s| ==> IsSlugChar(s[i]) && !IsUpper(s[i])
    ensures Slug(s) == s
  {
    assert LowerCase(s) == s;
    HyphenateWithoutSpaces(s);
  }

  lemma {:induction false} HyphenateWithoutSpaces(s: string)
    requires forall i :: 0 <= i < |s| ==> !IsSpace(s[i])
    ensures Hyphenate(s, false) == s
    decreases |s|
  {
    if |s| > 0 {
      HyphenateWithoutSpaces(s[1..]);
      assert s == [s[0]] + s[1..];
    }
  }

  /** Deriving the slug twice changes nothing. */
  lemma SlugIdempotent(name: string)
    ensures Slug(Slug(name)) == Slug(name)
  {
    SlugOfSlugChars(Slug(name));
  }

  /** Inside a run of whitespace no further hyphen is written: the run and
      whatever follows read as what follows alone. */
  lemma {:induction false} HyphenateRunTail(w: string, rest: string)
    requires forall i :: 0 <= i < |w| ==> IsSpace(w[i])
    requires |rest| == 0 || !IsSpace(rest[0])
    ensures Hyphenate(w + rest, true) == Hyphenate(rest, false)
    decreases |w|
  {
    if |w| > 0 {
      assert (w + rest)[1..] == w[1..] + rest;
      HyphenateRunTail(w[1..], rest);
    } else {
      assert w + rest == rest;
    }
  }

  /** A maximal run of whitespace becomes exactly one hyphen. */
  lemma SpaceRunBecomesOneHyphen(w: string, rest: string)
    requires |w| > 0
    requires forall i :: 0 <= i < |w| ==> IsSpace(w[i])
    requires |rest| == 0 || !IsSpace(rest[0])
    ensures ReplaceSpaceRuns(w + rest) == "-" + ReplaceSpaceRuns(rest)
  {
    assert (w + rest)[0] == w[0];
    assert (w + rest)[1..] == w[1..] + rest;
    HyphenateRunTail(w[1..], rest);
  }

  /** A character that is not whitespace is copied, whatever came before. */
  lemma NonSpaceIsCopied(c: char, rest: string, inRun: bool)
    requires !IsSpace(c)
    ensures Hyphenate([c] + rest, inRun) == [c] + ReplaceSpaceRuns(rest)
  {
    assert ([c] + rest)[1..] == rest;
  }

  /** The pre-save hook: the slug is derived again only when the name was
      modified (always the case for a new document); otherwise the document
      is saved as it is. */
  function PreSave(c: Category, nameModified: bool): (r: Category)
    ensures nameModified ==> r.slug == Slug(c.name)
    ensures !nameModified ==> r == c
    ensures r.(slug := c.slug) == c
  {
    if nameModified then c.(slug := Slug(c.name)) else c
  }

  /** Saving again without touching the name keeps the slug the first save
      derived. */
  lemma SlugStableUntilRenamed(c: Category)
    ensures PreSave(PreSave(c, true), false).slug == Slug(c.name)
    ensures PreSave(PreSave(c, true), true) == PreSave(c, true)
  {
    SlugIdempotent(c.name);
  }

  predicate ValidCategory(c: Category) {
    && c.name != "" && Utf16Length(c.name) <= MaxNameLength
    && (c.description.Some? ==> Utf16Length(c.description.value) <= MaxDescriptionLength)
  }

  /** Creating a category document: the name is trimmed, `icon`, `color` and
      `booksCount` take their defaults, the constraints are checked and the
      slug is derived. */
  function NewCategory(id: Books.CategoryId, name: string, description: Option<string>, now: int): (r: Response<Category>)
    ensures r.Ok? <==> Trim(name) != "" && Utf16Length(Trim(name)) <= MaxNameLength
                       && (description.Some? ==> Utf16Length(description.value) <= MaxDescriptionLength)
    ensures r.Ok? ==> var c := r.value;
      && c.id == id && c.name == Trim(name) && c.slug == Slug(Trim(name))
      && c.booksCount == 0 && c.icon == DefaultIcon && c.color == DefaultColor
    ensures !r.Ok? ==> r.ValidationFailure?
  {
    var c := Category(id, Trim(name), "", description, DefaultIcon, DefaultColor, 0, now);
    if ValidCategory(c) then Ok(PreSave(c, true)) else ValidationFailure("Validation failed")
  }
}

=== FILE: library.dfy ===
/** The library's stored state and the book operations of the catalog:
    reading a book (which counts a view), creating, updating and deleting
    books with the denormalised per-category book counts, reviews, downloads
    and related books.

    Each operation returns the response and the state afterwards; an
    operation that fails leaves the state as it was. */
module Library {
  import opened Outcomes
  import opened Text
  import opened Books
  import opened BookOrder
  import Categories
  import Users
  import Sorting
  import Upload

  datatype Store = Store(
    books: seq<Book>,
    categories: map<CategoryId, Categories.Category>,
    users: seq<Users.User>)

  /** The number of books in category `c`. */
  function CountIn(books: seq<Book>, c: CategoryId): nat
  {
    if |books| == 0 then 0
    else (if books[0].category == c then 1 else 0) + CountIn(books[1..], c)
  }

  /** Every category's `booksCount` is the number of books that reference
      it. */
  predicate CountsConsistent(s: Store) {
    forall c :: c in s.categories ==> s.categories[c].booksCount == CountIn(s.books, c)
  }

  function Indicator(b: bool): nat {
    if b then 1 else 0
  }

  lemma {:induction false} CountAppend(books: seq<Book>, b: Book, c: CategoryId)
    ensures CountIn(books + [b], c) == CountIn(books, c) + Indicator(b.category == c)
    decreases |books|
  {
    if |books| == 0 {
      assert books + [b] == [b];
    } else {
      assert (books + [b])[1..] == books[1..] + [b];
      CountAppend(books[1..], b, c);
    }
  }

  lemma {:induction false} CountReplace(books: seq<Book>, i: nat, b: Book, c: CategoryId)
    requires i < |books|
    ensures CountIn(books[i := b], c)
         == CountIn(books, c) - Indicator(books[i].category == c) + Indicator(b.category == c)
    decreases i
  {
    if i > 0 {
      assert books[i := b][1..] == books[1..][i - 1 := b];
      CountReplace(books[1..], i - 1, b, c);
    }
  }

  lemma {:induction false} CountRemove(books: seq<Book>, i: nat, c: CategoryId)
    requires i < |books|
    ensures CountIn(books[..i] + books[i + 1..], c) == CountIn(books, c) - Indicator(books[i].category == c)
    decreases i
  {
    if i > 0 {
      assert (books[..i] + books[i + 1..])[1..] == books[1..][..i - 1] + books[1..][i..];
      CountRemove(books[1..], i - 1, c);
    } else {
      assert books[..i] + books[i + 1..] == books[1..];
    }
  }

  /** `Category.findByIdAndUpdate(c, {$inc: {booksCount: delta}})`: a
      category that does not exist is left alone. */
  function BumpCount(cats: map<CategoryId, Categories.Category>, c: CategoryId, delta: int): (r: map<CategoryId, Categories.Category>)
    ensures r.Keys == cats.Keys
    ensures c in cats ==> r[c] == cats[c].(booksCount := cats[c].booksCount + delta)
    ensures forall d :: d in cats && d != c ==> r[d] == cats[d]
  {
    if c in cats then cats[c := cats[c].(booksCount := cats[c].booksCount + delta)] else cats
  }

  function IndexOfBook(books: seq<Book>, id: BookId): (i: int)
    ensures -1 <= i < |books|
    ensures i >= 0 ==> books[i].id == id
    ensures i < 0 ==> forall j :: 0 <= j < |books| ==> books[j].id != id
  {
    if |books| == 0 then -1
    else if books[0].id == id then 0
    else
      var k := IndexOfBook(books[1..], id);
      if k < 0 then -1 else k + 1
  }

  /** The lookup every `/books/:id` handler starts with: an id that does not
      cast is a server error, an unknown one is not found. */
  function Locate(s: Store, idText: string): (r: Response<nat>)
    ensures r.ServerError? <==> CastObjectId(idText).None?
    ensures r.NotFound? <==> CastObjectId(idText).Some? && forall j :: 0 <= j < |s.books| ==> s.books[j].id != CastObjectId(idText).value
    ensures r.NotFound? ==> r.message == BookNotFound
    ensures r.Ok? ==> r.value < |s.books| && Some(s.books[r.value].id) == CastObjectId(idText)
    ensures r.Ok? || r.NotFound? || r.ServerError?
  {
    match CastObjectId(idText)
    case None => ServerError("Cast to ObjectId failed")
    case Some(id) =>
      var i := IndexOfBook(s.books, id);
      if i < 0 then NotFound(BookNotFound) else Ok(i)
  }

  /** Replacing one book by a book of the same category keeps the counts. */
  lemma ReplaceSameCategory(s: Store, i: nat, b: Book)
    requires i < |s.books| && b.category == s.books[i].category
    ensures CountsConsistent(s) ==> CountsConsistent(s.(books := s.books[i := b]))
  {
    if CountsConsistent(s) {
      forall c | c in s.categories ensures s.categories[c].booksCount == CountIn(s.books[i := b], c) {
        CountReplace(s.books, i, b, c);
      }
    }
  }

  // getBook

  /** `getBook`: the book's `views` goes up by exactly one and the book is
      saved. */
  function GetBook(s: Store, idText: string, now: int): (r: (Response<Book>, Store))
    ensures Locate(s, idText).NotFound? <==> r.0.NotFound?
    ensures !r.0.Ok? ==> r.1 == s
    ensures r.0.Ok? ==> Locate(s, idText).Ok?
    ensures r.0.Ok? ==> var i := Locate(s, idText).value;
      && r.0.value.views == s.books[i].views + 1
      && r.0.value.(views := s.books[i].views, updatedAt := s.books[i].updatedAt) == s.books[i]
      && r.1 == s.(books := s.books[i := r.0.value])
    ensures Locate(s, idText).Ok? ==> (r.0.Ok? <==> ValidBook(s.books[Locate(s, idText).value]))
    ensures r.0.Ok? || r.0.NotFound? || r.0.ValidationFailure? || r.0.ServerError?
    ensures CountsConsistent(s) ==> CountsConsistent(r.1)
  {
    match Locate(s, idText)
    case Ok(i) =>
      var b := s.books[i];
      (match Save(b.(views := b.views + 1), now)
       case Ok(saved) =>
         ReplaceSameCategory(s, i, saved);
         (Ok(saved), s.(books := s.books[i := saved]))
       case NotFound(m) => (NotFound(m), s)
       case BadRequest(m) => (BadRequest(m), s)
       case ValidationFailure(m) => (ValidationFailure(m), s)
       case ServerError(m) => (ServerError(m), s))
    case NotFound(m) => (NotFound(m), s)
    case BadRequest(m) => (BadRequest(m), s)
    case ValidationFailure(m) => (ValidationFailure(m), s)
    case ServerError(m) => (ServerError(m), s)
  }

  // createBook

  /** An isbn is unique among the books that have one. */
  predicate IsbnTaken(books: seq<Book>, isbn: Option<string>) {
    isbn.Some? && exists j :: 0 <= j < |books| && books[j].isbn == isbn
  }

  /** `createBook`: the document is created (and validated), stored, and its
      category's count goes up by one. A duplicate id or isbn is refused by
      the store's unique indexes. */
  function CreateBook(s: Store, d: BookDraft, id: BookId, creator: UserId, now: int): (r: (Response<Book>, Store))
    ensures CreateDocument(d, id, creator, now).ValidationFailure? ==> r.0.ValidationFailure?
    ensures r.0.Ok? <==>
      && CreateDocument(d, id, creator, now).Ok?
      && IndexOfBook(s.books, id) < 0
      && !IsbnTaken(s.books, CreateDocument(d, id, creator, now).value.isbn)
    ensures r.0.Ok? || r.0.ValidationFailure? || r.0.ServerError?
    ensures !r.0.Ok? ==> r.1 == s
    ensures r.0.Ok? ==>
      && r.0 == CreateDocument(d, id, creator, now)
      && IndexOfBook(s.books, id) < 0
      && r.1 == Store(s.books + [r.0.value], BumpCount(s.categories, r.0.value.category, 1), s.users)
    ensures CountsConsistent(s) ==> CountsConsistent(r.1)
  {
    match CreateDocument(d, id, creator, now)
    case Ok(b) =>
      if IndexOfBook(s.books, id) >= 0 || IsbnTaken(s.books, b.isbn) then (ServerError("Duplicate key"), s)
      else
        var s' := Store(s.books + [b], BumpCount(s.categories, b.category, 1), s.users);
        CreatePreserves(s, b);
        (Ok(b), s')
    case NotFound(m) => (NotFound(m), s)
    case BadRequest(m) => (BadRequest(m), s)
    case ValidationFailure(m) => (ValidationFailure(m), s)
    case ServerError(m) => (ServerError(m), s)
  }

  lemma CreatePreserves(s: Store, b: Book)
    ensures CountsConsistent(s) ==> CountsConsistent(Store(s.books + [b], BumpCount(s.categories, b.category, 1), s.users))
  {
    if CountsConsistent(s) {
      forall c | c in s.categories ensures BumpCount(s.categories, b.category, 1)[c].booksCount == CountIn(s.books + [b], c) {
        CountAppend(s.books, b, c);
      }
    }
  }

  // deleteBook

  /** `deleteBook`: the book's category count goes down by one and the book
      is removed. */
  function DeleteBook(s: Store, idText: string): (r: (Response<()>, Store))
    ensures Locate(s, idText).NotFound? <==> r.0.NotFound?
    ensures !r.0.Ok? ==> r.1 == s
    ensures r.0.Ok? <==> Locate(s, idText).Ok?
    ensures r.0.Ok? ==> var i := Locate(s, idText).value;
      && r.1.books == s.books[..i] + s.books[i + 1..]
      && r.1.categories == BumpCount(s.categories, s.books[i].category, -1)
      && r.1.users == s.users
    ensures CountsConsistent(s) ==> CountsConsistent(r.1)
  {
    match Locate(s, idText)
    case Ok(i) =>
      var s' := Store(s.books[..i] + s.books[i + 1..], BumpCount(s.categories, s.books[i].category, -1), s.users);
      DeletePreserves(s, i);
      (Ok(()), s')
    case NotFound(m) => (NotFound(m), s)
    case BadRequest(m) => (BadRequest(m), s)
    case ValidationFailure(m) => (ValidationFailure(m), s)
    case ServerError(m) => (ServerError(m), s)
  }

  lemma DeletePreserves(s: Store, i: nat)
    requires i < |s.books|
    ensures CountsConsistent(s) ==> CountsConsistent(Store(s.books[..i] + s.books[i + 1..], BumpCount(s.categories, s.books[i].category, -1), s.users))
  {
    if CountsConsistent(s) {
      forall c | c in s.categories
        ensures BumpCount(s.categories, s.books[i].category, -1)[c].booksCount == CountIn(s.books[..i] + s.books[i + 1..], c)
      {
        CountRemove(s.books, i, c);
      }
    }
  }

  // updateBook

  /** The fields of an update request; `None` is a field the request does
      not set. */
  datatype BookPatch = BookPatch(
    title: Option<string>,
    author: Option<string>,
    description: Option<string>,
    category: Option<string>,
    coverImage: Option<string>,
    fileUrl: Option<string>,
    isFeatured: Option<bool>,
    tags: Option<seq<string>>)

  /** The update validators, which check only the fields the request sets.
      The trimming setters apply to the new values. */
  predicate PatchValid(p: BookPatch) {
    && (p.title.Some? ==> Trim(p.title.value) != "" && Utf16Length(Trim(p.title.value)) <= MaxTitleLength)
    && (p.author.Some? ==> Trim(p.author.value) != "")
    && (p.description.Some? ==> p.description.value != "" && Utf16Length(p.description.value) <= MaxDescriptionLength)
    && (p.coverImage.Some? ==> p.coverImage.value != "")
    && (p.fileUrl.Some? ==> p.fileUrl.value != "")
    && (p.category.Some? ==> p.category.value != "")
  }

  /** The book with the request's fields set; `category` must cast. */
  function ApplyPatch(b: Book, p: BookPatch): (r: Response<Book>)
    ensures r.Ok? <==> PatchValid(p) && (p.category.Some? ==> CastObjectId(p.category.value).Some?)
    ensures r.Ok? ==> r.value.category == (if p.category.Some? then CastObjectId(p.category.value).value else b.category)
    ensures r.Ok? ==> KeepsUnpatched(b, r.value)
    ensures r.Ok? && p.title.Some? ==> r.value.title == Trim(p.title.value)
    ensures r.Ok? ==> r.value.title == (if p.title.Some? then Trim(p.title.value) else b.title)
    ensures r.Ok? ==> r.value.author == (if p.author.Some? then Trim(p.author.value) else b.author)
    ensures r.Ok? ==> r.value.description == (if p.description.Some? then p.description.value else b.description)
    ensures r.Ok? ==> r.value.coverImage == (if p.coverImage.Some? then p.coverImage.value else b.coverImage)
    ensures r.Ok? ==> r.value.fileUrl == (if p.fileUrl.Some? then p.fileUrl.value else b.fileUrl)
    ensures r.Ok? ==> r.value.isFeatured == (if p.isFeatured.Some? then p.isFeatured.value else b.isFeatured)
    ensures r.Ok? ==> r.value.tags == (if p.tags.Some? then TrimAll(p.tags.value) else b.tags)
    ensures r.Ok? ==> r.value.(title := b.title, author := b.author, description := b.description,
                               category := b.category, coverImage := b.coverImage, fileUrl := b.fileUrl,
                               isFeatured := b.isFeatured, tags := b.tags) == b
  {
    if !PatchValid(p) then ValidationFailure("Validation failed")
    else
      var category := if p.category.Some? then CastObjectId(p.category.value) else Some(b.category);
      if category.None? then ServerError("Cast to ObjectId failed")
      else Ok(SetFields(b, p, category.value))
  }

  /** The fields outside the modelled update request: the id, the reviews
      and their summary, the counters and `updatedAt` stay as they were. */
  predicate KeepsUnpatched(b: Book, r: Book) {
    && r.id == b.id && r.reviews == b.reviews && r.ratings == b.ratings
    && r.views == b.views && r.downloads == b.downloads && r.updatedAt == b.updatedAt
  }

  function PatchedTitle(b: Book, p: BookPatch): string
  {
    if p.title.Some? then Trim(p.title.value) else b.title
  }

  /** The fields the request sets, with the trimming setters applied. */
  function SetFields(b: Book, p: BookPatch, category: CategoryId): (r: Book)
    ensures KeepsUnpatched(b, r) && r.category == category
    ensures r.title == PatchedTitle(b, p)
  {
    var title := PatchedTitle(b, p);
    var author := if p.author.Some? then Trim(p.author.value) else b.author;
    var description := if p.description.Some? then p.description.value else b.description;
    var coverImage := if p.coverImage.Some? then p.coverImage.value else b.coverImage;
    var fileUrl := if p.fileUrl.Some? then p.fileUrl.value else b.fileUrl;
    var isFeatured := if p.isFeatured.Some? then p.isFeatured.value else b.isFeatured;
    var tags := if p.tags.Some? then TrimAll(p.tags.value) else b.tags;
    Book(b.id, title, author, description, b.isbn, category, coverImage, fileUrl, b.fileFormat, b.fileSize,
         b.language, b.publisher, b.publishedDate, b.pages, b.ratings, b.reviews, b.downloads, b.views,
         isFeatured, tags, b.createdBy, b.createdAt, b.updatedAt)
  }

  /** A request that sets nothing. */
  const NoPatch := BookPatch(None, None, None, None, None, None, None, None)

  /** An empty update request is accepted and changes no field. */
  lemma NoPatchKeeps(b: Book)
    ensures ApplyPatch(b, NoPatch) == Ok(b)
  {
  }

  /** The fields `later` sets, and otherwise those `earlier` sets. */
  function MergePatch(earlier: BookPatch, later: BookPatch): BookPatch
  {
    BookPatch(
      if later.title.Some? then later.title else earlier.title,
      if later.author.Some? then later.author else earlier.author,
      if later.description.Some? then later.description else earlier.description,
      if later.category.Some? then later.category else earlier.category,
      if later.coverImage.Some? then later.coverImage else earlier.coverImage,
      if later.fileUrl.Some? then later.fileUrl else earlier.fileUrl,
      if later.isFeatured.Some? then later.isFeatured else earlier.isFeatured,
      if later.tags.Some? then later.tags else earlier.tags)
  }

  /** Two accepted updates in a row are one update with the merged request:
      each field ends with the value the later request gives, or else the
      earlier one's. */
  lemma ApplyPatchTwice(b: Book, earlier: BookPatch, later: BookPatch)
    requires ApplyPatch(b, earlier).Ok? && ApplyPatch(ApplyPatch(b, earlier).value, later).Ok?
    ensures ApplyPatch(b, MergePatch(earlier, later)) == ApplyPatch(ApplyPatch(b, earlier).value, later)
  {
    var m := MergePatch(earlier, later);
    var c1 := PatchedCategory(b.category, earlier);
    var b1 := SetFields(b, earlier, c1);
    AcceptedPatchSets(b, earlier);
    var c2 := PatchedCategory(c1, later);
    AcceptedPatchSets(b1, later);
    MergeAccepted(b.category, earlier, later);
    AcceptedPatchSets(b, m);
    SetFieldsMerge(b, earlier, later, c1, c2);
  }

  /** Merging two accepted requests gives an accepted request, which leaves
      the category the two leave in turn. */
  lemma MergeAccepted(stored: CategoryId, earlier: BookPatch, later: BookPatch)
    requires PatchValid(earlier) && (earlier.category.Some? ==> CastObjectId(earlier.category.value).Some?)
    requires PatchValid(later) && (later.category.Some? ==> CastObjectId(later.category.value).Some?)
    ensures var m := MergePatch(earlier, later);
      && PatchValid(m) && (m.category.Some? ==> CastObjectId(m.category.value).Some?)
      && PatchedCategory(stored, m) == PatchedCategory(PatchedCategory(stored, earlier), later)
  {
  }

  /** Re-sending an accepted update request changes nothing more. */
  lemma ApplyPatchRepeat(b: Book, p: BookPatch)
    requires ApplyPatch(b, p).Ok?
    ensures ApplyPatch(ApplyPatch(b, p).value, p) == ApplyPatch(b, p)
  {
    var c := PatchedCategory(b.category, p);
    AcceptedPatchSets(b, p);
    AcceptedPatchSets(SetFields(b, p, c), p);
    SetFieldsAgain(b, p, c);
  }

  /** The category an accepted request leaves: the cast of the one it names,
      or the stored one. */
  function PatchedCategory(stored: CategoryId, p: BookPatch): CategoryId
    requires p.category.Some? ==> CastObjectId(p.category.value).Some?
  {
    if p.category.Some? then CastObjectId(p.category.value).value else stored
  }

  /** An accepted request sets its fields and the category it names. */
  lemma AcceptedPatchSets(b: Book, p: BookPatch)
    requires PatchValid(p) && (p.category.Some? ==> CastObjectId(p.category.value).Some?)
    ensures ApplyPatch(b, p) == Ok(SetFields(b, p, PatchedCategory(b.category, p)))
  {
  }

  lemma SetFieldsMerge(b: Book, earlier: BookPatch, later: BookPatch, c1: CategoryId, c2: CategoryId)
    ensures SetFields(b, MergePatch(earlier, later), c2) == SetFields(SetFields(b, earlier, c1), later, c2)
  {
  }

  lemma SetFieldsAgain(b: Book, p: BookPatch, c: CategoryId)
    ensures SetFields(SetFields(b, p, c), p, c) == SetFields(b, p, c)
  {
  }

  /** The tags setter trims every tag. */
  function TrimAll(tags: seq<string>): (r: seq<string>)
    ensures |r| == |tags| && forall i :: 0 <= i < |tags| ==> r[i] == Trim(tags[i])
  {
    if |tags| == 0 then [] else [Trim(tags[0])] + TrimAll(tags[1..])
  }

  /** Moving a book from category `from` to category `to`: one less in the
      old category, one more in the new. */
  function Recategorize(cats: map<CategoryId, Categories.Category>, from: CategoryId, to: CategoryId): map<CategoryId, Categories.Category>
  {
    if from == to then cats else BumpCount(BumpCount(cats, from, -1), to, 1)
  }

  /** `updateBook`, with the update validated before any count is touched:
      a failed update changes nothing, a successful one replaces the book
      and moves one unit of count from the old category to the new one.
      The update does not run the pre-save hook, so `updatedAt` is kept. */
  function UpdateBook(s: Store, idText: string, p: BookPatch): (r: (Response<Book>, Store))
    ensures Locate(s, idText).NotFound? <==> r.0.NotFound?
    ensures !r.0.Ok? ==> r.1 == s
    ensures r.0.Ok? ==> Locate(s, idText).Ok?
    ensures r.0.Ok? ==> var i := Locate(s, idText).value;
      && r.0 == ApplyPatch(s.books[i], p)
      && r.1.books == s.books[i := r.0.value]
      && r.1.categories == Recategorize(s.categories, s.books[i].category, r.0.value.category)
      && r.1.users == s.users
    ensures Locate(s, idText).Ok? ==>
      (r.0.Ok? <==> PatchValid(p) && (p.category.Some? ==> CastObjectId(p.category.value).Some?))
    ensures r.0.Ok? || r.0.NotFound? || r.0.ValidationFailure? || r.0.ServerError?
    ensures CountsConsistent(s) ==> CountsConsistent(r.1)
  {
    match Locate(s, idText)
    case Ok(i) =>
      (match ApplyPatch(s.books[i], p)
       case Ok(nb) =>
         var s' := Store(s.books[i := nb], Recategorize(s.categories, s.books[i].category, nb.category), s.users);
         UpdatePreserves(s, i, nb);
         (Ok(nb), s')
       case NotFound(m) => (NotFound(m), s)
       case BadRequest(m) => (BadRequest(m), s)
       case ValidationFailure(m) => (ValidationFailure(m), s)
       case ServerError(m) => (ServerError(m), s))
    case NotFound(m) => (NotFound(m), s)
    case BadRequest(m) => (BadRequest(m), s)
    case ValidationFailure(m) => (ValidationFailure(m), s)
    case ServerError(m) => (ServerError(m), s)
  }

  lemma UpdatePreserves(s: Store, i: nat, nb: Book)
    requires i < |s.books|
    ensures CountsConsistent(s) ==> CountsConsistent(Store(s.books[i := nb], Recategorize(s.categories, s.books[i].category, nb.category), s.users))
  {
    if CountsConsistent(s) {
      var cats := Recategorize(s.categories, s.books[i].category, nb.category);
      forall c | c in s.categories ensures cats[c].booksCount == CountIn(s.books[i := nb], c) {
        CountReplace(s.books, i, nb, c);
      }
    }
  }

  /** `updateBook` as written: when the request names a different category,
      the old category's count is decremented and the new one's incremented
      before the update runs, and they stay that way when the update then
      fails. */
  function UpdateBookAsWritten(s: Store, idText: string, p: BookPatch): (r: (Response<Book>, Store))
    ensures Locate(s, idText).NotFound? <==> r.0.NotFound?
    ensures r.0.Ok? ==> Locate(s, idText).Ok? && r.0 == ApplyPatch(s.books[Locate(s, idText).value], p)
    ensures r.0.Ok? ==> r.1.books == s.books[Locate(s, idText).value := r.0.value]
    ensures !r.0.Ok? ==> r.1.books == s.books && r.1.users == s.users
    ensures !Locate(s, idText).Ok? ==> r.1 == s
    ensures Locate(s, idText).Ok? ==> r.1.categories == CountsMovedFirst(s.categories, s.books[Locate(s, idText).value].category, p)
  {
    match Locate(s, idText)
    case Ok(i) =>
      var b := s.books[i];
      var moves := p.category.Some? && p.category.value != "" && p.category.value != b.category;
      var cats1 := if moves then BumpCount(s.categories, b.category, -1) else s.categories;
      var cast := if moves then CastObjectId(p.category.value) else Some(b.category);
      if cast.None? then (ServerError("Cast to ObjectId failed"), s.(categories := cats1))
      else
        var cats2 := if moves then BumpCount(cats1, cast.value, 1) else cats1;
        (match ApplyPatch(b, p)
         case Ok(nb) => (Ok(nb), Store(s.books[i := nb], cats2, s.users))
         case NotFound(m) => (NotFound(m), s.(categories := cats2))
         case BadRequest(m) => (BadRequest(m), s.(categories := cats2))
         case ValidationFailure(m) => (ValidationFailure(m), s.(categories := cats2))
         case ServerError(m) => (ServerError(m), s.(categories := cats2)))
    case NotFound(m) => (NotFound(m), s)
    case BadRequest(m) => (BadRequest(m), s)
    case ValidationFailure(m) => (ValidationFailure(m), s)
    case ServerError(m) => (ServerError(m), s)
  }

  /** The counts after the as-written handler's two `$inc` calls, whatever
      the update then does: a request naming a different, non-empty category
      takes one from the stored category, and adds one to the named category
      when its text casts; a text that does not cast throws after the first
      call. Any other request leaves the counts alone. */
  function CountsMovedFirst(cats: map<CategoryId, Categories.Category>, stored: CategoryId, p: BookPatch): map<CategoryId, Categories.Category>
  {
    if p.category.Some? && p.category.value != "" && p.category.value != stored then
      match CastObjectId(p.category.value)
      case Some(c) => BumpCount(BumpCount(cats, stored, -1), c, 1)
      case None => BumpCount(cats, stored, -1)
    else cats
  }

  /** Every stored book references its category by the id's stored (cast)
      form. */
  predicate CategoriesStoredCast(s: Store) {
    forall j :: 0 <= j < |s.books| ==> CastObjectId(s.books[j].category) == Some(s.books[j].category)
  }

  /** The two orders of work agree on every update that succeeds: the same
      response, the same books and the same counts. They differ only on
      failures, where the as-written handler has already moved the counts. */
  lemma UpdateBookAsWrittenAgrees(s: Store, idText: string, p: BookPatch)
    requires CategoriesStoredCast(s)
    ensures UpdateBookAsWritten(s, idText, p).0.Ok? <==> UpdateBook(s, idText, p).0.Ok?
    ensures UpdateBookAsWritten(s, idText, p).0.Ok? ==> UpdateBookAsWritten(s, idText, p) == UpdateBook(s, idText, p)
  {
    if Locate(s, idText).Ok? {
      var i := Locate(s, idText).value;
      var b := s.books[i];
      var moves := p.category.Some? && p.category.value != "" && p.category.value != b.category;
      if moves && CastObjectId(p.category.value).Some? && CastObjectId(p.category.value).value == b.category {
        BumpBack(s.categories, b.category);
      }
    }
  }

  /** Taking one from a count and adding it back restores the map. */
  lemma BumpBack(cats: map<CategoryId, Categories.Category>, c: CategoryId)
    ensures BumpCount(BumpCount(cats, c, -1), c, 1) == cats
  {
    if c in cats {
      var m := BumpCount(BumpCount(cats, c, -1), c, 1);
      assert m[c] == cats[c];
      assert forall d :: d in cats ==> m[d] == cats[d];
    }
  }

  const CategoryA: CategoryId := "aaaaaaaaaaaaaaaaaaaaaaaa"
  const CategoryB: CategoryId := "bbbbbbbbbbbbbbbbbbbbbbbb"
  const SampleBookId: BookId := "cccccccccccccccccccccccc"
  const SampleUserId: UserId := "dddddddddddddddddddddddd"

  function SampleCategory(id: CategoryId, count: int): Categories.Category
  {
    Categories.Category(id, "Name", "name", None, Categories.DefaultIcon, Categories.DefaultColor, count, 0)
  }

  function SampleBook(): Book
  {
    Book(SampleBookId, "Title", "Author", "About", None, CategoryA, "cover.png", "book.pdf", PDF, 1.0,
         "English", None, None, None, Ratings(0.0, 0), [], 0, 0, false, [], SampleUserId, 0, 0)
  }

  /** One book in category A; A counts it, B counts nothing. */
  function SampleStore(): Store
  {
    Store([SampleBook()], map[CategoryA := SampleCategory(CategoryA, 1), CategoryB := SampleCategory(CategoryB, 0)], [])
  }

  lemma SampleStoreConsistent()
    ensures CountsConsistent(SampleStore())
    ensures SampleBook().category == CategoryA
  {
    var books := SampleStore().books;
    assert CountIn(books, CategoryA) == 1 by {
      assert books[1..] == [];
    }
    assert CountIn(books, CategoryB) == 0 by {
      assert books[1..] == [];
      assert CategoryA[0] != CategoryB[0];
    }
  }

  lemma SampleIdsCast()
    ensures CastObjectId(SampleBookId) == Some(SampleBookId)
    ensures CastObjectId(CategoryB) == Some(CategoryB)
  {
    assert LowerCase(SampleBookId) == SampleBookId;
    assert LowerCase(CategoryB) == CategoryB;
  }

  /** A request that moves the sample book to category B and empties its
      title. */
  function DriftPatch(): BookPatch
  {
    BookPatch(Some(""), None, None, Some(CategoryB), None, None, None, None)
  }

  /** Moving the sample book to category B together with an empty title:
      the update fails validation, the book stays in A, yet A's count has
      dropped to 0 and B's risen to 1. */
  lemma UpdateBookAsWrittenDrifts()
    ensures UpdateBookAsWritten(SampleStore(), SampleBookId, DriftPatch()).0.ValidationFailure?
    ensures UpdateBookAsWritten(SampleStore(), SampleBookId, DriftPatch()).1.books == SampleStore().books
    ensures !CountsConsistent(UpdateBookAsWritten(SampleStore(), SampleBookId, DriftPatch()).1)
  {
    var s := SampleStore();
    SampleStoreConsistent();
    SampleIdsCast();
    assert Locate(s, SampleBookId) == Ok(0);
    assert CategoryB != CategoryA by {
      assert CategoryA[0] != CategoryB[0];
    }
    assert !PatchValid(DriftPatch()) by {
      assert Trim("") == "";
    }
    var r := UpdateBookAsWritten(s, SampleBookId, DriftPatch());
    assert r.1.categories == BumpCount(BumpCount(s.categories, CategoryA, -1), CategoryB, 1);
    assert r.1.categories[CategoryA].booksCount == 0;
  }

  /** The same request against the validate-first model changes nothing. */
  lemma UpdateBookRejectsCleanly()
    ensures UpdateBook(SampleStore(), SampleBookId, DriftPatch()).0.ValidationFailure?
    ensures UpdateBook(SampleStore(), SampleBookId, DriftPatch()).1 == SampleStore()
  {
    SampleIdsCast();
    assert !PatchValid(DriftPatch()) by {
      assert Trim("") == "";
    }
    assert Locate(SampleStore(), SampleBookId) == Ok(0);
    assert ApplyPatch(SampleBook(), DriftPatch()).ValidationFailure?;
  }

  // addReview

  /** The document part of `addReview`: a user who already reviewed the book
      is refused; otherwise the review is appended, the summary recomputed
      and the book saved. A rating that is not a number (`None`) fails the
      cast at save. */
  function ReviewBook(b: Book, user: UserId, rating: Option<real>, comment: Option<string>, now: int): (r: Response<Book>)
    ensures r.BadRequest? <==> exists j :: 0 <= j < |b.reviews| && b.reviews[j].user == user
    ensures r.BadRequest? ==> r.message == AlreadyReviewed
    ensures rating.None? && !r.BadRequest? ==> r.ValidationFailure?
    ensures rating.Some? && !ValidReview(Review(user, rating.value, comment, now)) && !r.BadRequest? ==> r.ValidationFailure?
    ensures r.Ok? ==>
      && rating.Some?
      && r.value.reviews == b.reviews + [Review(user, rating.value, comment, now)]
      && r.value.ratings == CalculateAverageRating(r.value.reviews)
      && r.value.ratings.count == |b.reviews| + 1
      && r.value.updatedAt == now
      && r.value.(reviews := b.reviews, ratings := b.ratings, updatedAt := b.updatedAt) == b
    ensures r.Ok? || r.BadRequest? || r.ValidationFailure?
    ensures && ValidBook(b) && rating.Some? && ValidReview(Review(user, rating.value, comment, now))
            && (forall j :: 0 <= j < |b.reviews| ==> b.reviews[j].user != user)
            ==> r.Ok?
  {
    if exists j :: 0 <= j < |b.reviews| && b.reviews[j].user == user then BadRequest(AlreadyReviewed)
    else if rating.None? then ValidationFailure("Cast to Number failed")
    else
      var review := Review(user, rating.value, comment, now);
      var withReview := b.(reviews := b.reviews + [review]);
      var nb := Recalculate(withReview);
      assert ValidBook(nb) ==> ValidReview(nb.reviews[|b.reviews|]);
      ReviewedStaysValid(b, review);
      Save(nb, now)
  }

  /** A valid book with one more valid review, and its summary recomputed,
      is valid: the new average stays inside the schema's bounds. */
  lemma ReviewedStaysValid(b: Book, review: Review)
    ensures ValidBook(b) && ValidReview(review) ==> ValidBook(Recalculate(b.(reviews := b.reviews + [review])))
  {
    if ValidBook(b) && ValidReview(review) {
      var reviews := b.reviews + [review];
      assert forall j :: 0 <= j < |reviews| ==> ValidReview(reviews[j]) by {
        forall j | 0 <= j < |reviews| ensures ValidReview(reviews[j]) {
          if j < |b.reviews| {
            assert reviews[j] == b.reviews[j];
          }
        }
      }
      AverageWithinBounds(reviews);
    }
  }

  /** `addReview` on the stored state: only the reviewed book changes. */
  function AddReview(s: Store, idText: string, user: UserId, rating: Option<real>, comment: Option<string>, now: int): (r: (Response<Book>, Store))
    ensures Locate(s, idText).NotFound? <==> r.0.NotFound?
    ensures !r.0.Ok? ==> r.1 == s
    ensures Locate(s, idText).Ok? ==> r.0 == ReviewBook(s.books[Locate(s, idText).value], user, rating, comment, now)
    ensures r.0.Ok? ==> Locate(s, idText).Ok?
    ensures r.0.Ok? ==> r.1 == s.(books := s.books[Locate(s, idText).value := r.0.value])
    ensures CountsConsistent(s) ==> CountsConsistent(r.1)
  {
    match Locate(s, idText)
    case Ok(i) =>
      var res := ReviewBook(s.books[i], user, rating, comment, now);
      if res.Ok? then
        ReplaceSameCategory(s, i, res.value);
        (res, s.(books := s.books[i := res.value]))
      else (res, s)
    case NotFound(m) => (NotFound(m), s)
    case BadRequest(m) => (BadRequest(m), s)
    case ValidationFailure(m) => (ValidationFailure(m), s)
    case ServerError(m) => (ServerError(m), s)
  }

  /** A second review by the same user is refused whatever its rating. */
  lemma SecondReviewRefused(b: Book, user: UserId, r1: real, r2: real, c1: Option<string>, c2: Option<string>, t1: int, t2: int)
    requires ReviewBook(b, user, Some(r1), c1, t1).Ok?
    ensures ReviewBook(ReviewBook(b, user, Some(r1), c1, t1).value, user, Some(r2), c2, t2) == BadRequest(AlreadyReviewed)
  {
    var b1 := ReviewBook(b, user, Some(r1), c1, t1).value;
    assert b1.reviews[|b.reviews|].user == user;
  }

  /** Ratings 4 then 2 from two users give summaries {4, 1} then {3, 2}; the
      first user's second attempt is refused and the summary stays {3, 2}. */
  lemma ReviewScenario(b: Book, u1: UserId, u2: UserId, t: int)
    requires ValidBook(b) && b.reviews == [] && u1 != u2
    ensures var b1 := ReviewBook(b, u1, Some(4.0), None, t);
      && b1.Ok? && b1.value.ratings == Ratings(4.0, 1)
      && var b2 := ReviewBook(b1.value, u2, Some(2.0), None, t);
      && b2.Ok? && b2.value.ratings == Ratings(3.0, 2)
      && ReviewBook(b2.value, u1, Some(5.0), None, t) == BadRequest(AlreadyReviewed)
  {
    var rv1 := Review(u1, 4.0, None, t);
    var rv2 := Review(u2, 2.0, None, t);
    FirstReview(b, rv1, t);
    var b1 := ReviewBook(b, u1, Some(4.0), None, t).value;
    assert b1.reviews == [rv1];
    SecondReview(b1, rv1, rv2, t);
    var b2 := ReviewBook(b1, u2, Some(2.0), None, t).value;
    assert b2.reviews[0].user == u1;
  }

  lemma FirstReview(b: Book, rv: Review, t: int)
    requires ValidBook(b) && b.reviews == [] && rv.rating == 4.0 && rv.comment == None && rv.createdAt == t
    ensures var r := ReviewBook(b, rv.user, Some(4.0), None, t);
      r.Ok? && r.value.ratings == Ratings(4.0, 1) && r.value.reviews == [rv]
  {
    assert b.reviews + [rv] == [rv];
    assert Sum(RatingValues([rv])) == 4.0 by {
      assert RatingValues([rv]) == [4.0];
    }
  }

  lemma SecondReview(b1: Book, rv1: Review, rv2: Review, t: int)
    requires ValidBook(b1) && b1.reviews == [rv1] && b1.ratings == Ratings(4.0, 1)
    requires rv1.rating == 4.0 && rv1.user != rv2.user
    requires rv2.rating == 2.0 && rv2.comment == None && rv2.createdAt == t
    ensures var r := ReviewBook(b1, rv2.user, Some(2.0), None, t);
      r.Ok? && r.value.ratings == Ratings(3.0, 2) && r.value.reviews == [rv1, rv2]
  {
    assert b1.reviews + [rv2] == [rv1, rv2];
    assert RatingValues([rv1, rv2]) == [4.0, 2.0];
    assert Sum([4.0, 2.0]) == 6.0 by {
      assert [4.0, 2.0][1..] == [2.0];
    }
    AverageWithinBounds([rv1, rv2]);
  }

  // downloadBook

  datatype Download = Download(fileUrl: string, fileName: string)

  /** The download name: the title and the lower-cased format. */
  function FileName(b: Book): string
  {
    b.title + "." + LowerCase(FormatName(b.fileFormat))
  }

  /** The download name carries the book's format as its extension, so the
      upload rules would accept a file of that name. The title must be a
      plain name: not empty, without a path separator. */
  lemma FileNameExtension(b: Book)
    requires b.title != "" && Upload.NoChar(b.title, '/')
    ensures Upload.ExtName(FileName(b)) == "." + LowerCase(FormatName(b.fileFormat))
    ensures Upload.Accepts(FileName(b))
  {
    var ext := FormatExtension(b.fileFormat);
    assert FileName(b) == b.title + ext;
    Upload.ExtNameOfStem(b.title, ext);
  }

  /** Each format's extension is a single dotted, lower-case, allowed one. */
  lemma FormatExtension(f: FileFormat) returns (ext: string)
    ensures ext == "." + LowerCase(FormatName(f))
    ensures |ext| >= 2 && ext[0] == '.' && Upload.NoChar(ext[1..], '.') && Upload.NoChar(ext[1..], '/')
    ensures LowerCase(ext) == ext && ext in Upload.AllowedExtensions
  {
    ext := Upload.AllowedExtensions[FormatIndex(f)];
    LowerFormatName(f);
    ExtensionShape(FormatIndex(f));
  }

  /** The first three allowed extensions, the book formats', are a dot and
      lower-case letters. */
  lemma ExtensionShape(k: nat)
    requires k < 3
    ensures var e := Upload.AllowedExtensions[k];
      && |e| >= 2 && e[0] == '.' && Upload.NoChar(e[1..], '.') && Upload.NoChar(e[1..], '/')
      && LowerCase(e) == e
  {
    var e := Upload.AllowedExtensions[k];
    assert forall i :: 1 <= i < |e| ==> 'a' <= e[i] <= 'z';
    assert LowerCase(e) == e;
  }

  /** Where each format's extension sits in the upload filter's list. */
  function FormatIndex(f: FileFormat): (k: nat)
    ensures k < 3
  {
    match f
    case PDF => 0
    case EPUB => 1
    case MOBI => 2
  }

  lemma LowerFormatName(f: FileFormat)
    ensures "." + LowerCase(FormatName(f)) == Upload.AllowedExtensions[FormatIndex(f)]
  {
    var l := LowerCase(FormatName(f));
    match f
    case PDF =>
      assert l[0] == 'p' && l[1] == 'd' && l[2] == 'f';
      assert l == "pdf";
    case EPUB =>
      assert l[0] == 'e' && l[1] == 'p' && l[2] == 'u' && l[3] == 'b';
      assert l == "epub";
    case MOBI =>
      assert l[0] == 'm' && l[1] == 'o' && l[2] == 'b' && l[3] == 'i';
      assert l == "mobi";
  }

  /** `downloadBook`: `downloads` goes up by exactly one and the book is
      saved; the requesting user's log gets one entry, if that user still
      exists. */
  function DownloadBook(s: Store, idText: string, user: UserId, now: int): (r: (Response<Download>, Store))
    ensures Locate(s, idText).NotFound? <==> r.0.NotFound?
    ensures !r.0.Ok? ==> r.1 == s
    ensures r.0.Ok? ==> Locate(s, idText).Ok?
    ensures r.0.Ok? ==> var i := Locate(s, idText).value;
      && r.0.value == Download(s.books[i].fileUrl, FileName(s.books[i]))
      && |r.1.books| == |s.books|
      && r.1.books[i].downloads == s.books[i].downloads + 1
      && r.1.books[i].(downloads := s.books[i].downloads, updatedAt := s.books[i].updatedAt) == s.books[i]
      && r.1.books == s.books[i := r.1.books[i]]
      && r.1.categories == s.categories
    ensures Locate(s, idText).Ok? ==> (r.0.Ok? <==> ValidBook(s.books[Locate(s, idText).value]))
    ensures r.0.Ok? || r.0.NotFound? || r.0.ValidationFailure? || r.0.ServerError?
    ensures r.0.Ok? ==> var k := Users.IndexOfUser(s.users, user);
      && (k < 0 ==> r.1.users == s.users)
      && (k >= 0 ==> r.1.users == s.users[k := Users.RecordDownload(s.users[k], s.books[Locate(s, idText).value].id, now)])
    ensures CountsConsistent(s) ==> CountsConsistent(r.1)
  {
    match Locate(s, idText)
    case Ok(i) =>
      var b := s.books[i];
      (match Save(b.(downloads := b.downloads + 1), now)
       case Ok(saved) =>
         var k := Users.IndexOfUser(s.users, user);
         var users := if k < 0 then s.users else s.users[k := Users.RecordDownload(s.users[k], saved.id, now)];
         ReplaceSameCategory(s, i, saved);
         (Ok(Download(saved.fileUrl, FileName(saved))), Store(s.books[i := saved], s.categories, users))
       case NotFound(m) => (NotFound(m), s)
       case BadRequest(m) => (BadRequest(m), s)
       case ValidationFailure(m) => (ValidationFailure(m), s)
       case ServerError(m) => (ServerError(m), s))
    case NotFound(m) => (NotFound(m), s)
    case BadRequest(m) => (BadRequest(m), s)
    case ValidationFailure(m) => (ValidationFailure(m), s)
    case ServerError(m) => (ServerError(m), s)
  }

  // getRelatedBooks

  const RelatedLimit := 6
  const ByAverageDesc := [SortRule("ratings.average", Desc)]

  /** The other books of `b`'s category. */
  function SameCategory(books: seq<Book>, b: Book): (r: seq<Book>)
    ensures forall x :: x in r <==> x in books && x.id != b.id && x.category == b.category
    ensures |r| <= |books|
  {
    if |books| == 0 then []
    else
      var rest := SameCategory(books[1..], b);
      assert forall x :: x in books <==> x == books[0] || x in books[1..];
      if books[0].id != b.id && books[0].category == b.category then [books[0]] + rest else rest
  }

  /** The candidates are picked book by book: a split store gives the
      candidates of each part, in order, with their multiplicity. */
  lemma {:induction false} SameCategoryConcat(xs: seq<Book>, ys: seq<Book>, b: Book)
    ensures SameCategory(xs + ys, b) == SameCategory(xs, b) + SameCategory(ys, b)
    decreases |xs|
  {
    if |xs| == 0 {
      assert xs + ys == ys;
    } else {
      assert (xs + ys)[1..] == xs[1..] + ys;
      SameCategoryConcat(xs[1..], ys, b);
    }
  }

  /** One book is a candidate exactly when it is another book of the same
      category. */
  lemma SameCategoryOne(x: Book, b: Book)
    ensures SameCategory([x], b) == if x.id != b.id && x.category == b.category then [x] else []
  {
    assert [x][1..] == [];
  }

  /** Under the related-books order, `x` before `y` means a higher or equal
      average. */
  lemma ByAverageMeaning(x: Book, y: Book)
    ensures LeBy(ByAverageDesc, x, y) <==> x.ratings.average >= y.ratings.average
  {
    var rule := SortRule("ratings.average", Desc);
    assert ByAverageDesc == [rule] && ByAverageDesc[1..] == [];
    assert FieldValue(x, rule.field) == Num(x.ratings.average);
    assert FieldValue(y, rule.field) == Num(y.ratings.average);
    assert CompareByRule(rule, x, y) == CompareNumbers(y.ratings.average, x.ratings.average);
    assert CompareBy(ByAverageDesc[1..], x, y) == 0;
    assert CompareBy(ByAverageDesc, x, y) == CompareByRule(rule, x, y);
  }

  /** `picked` is a selection of related books for `b`: at most six other
      books of its category, best average first, and no book left out has a
      higher average than one picked. */
  predicate IsRelatedSelection(books: seq<Book>, b: Book, picked: seq<Book>) {
    && |picked| <= RelatedLimit
    && |picked| == Min(RelatedLimit, |SameCategory(books, b)|)
    && multiset(picked) <= multiset(SameCategory(books, b))
    && (forall i :: 0 <= i < |picked| ==> picked[i] in books && picked[i].id != b.id && picked[i].category == b.category)
    && (forall i, j :: 0 <= i < j < |picked| ==> picked[i].ratings.average >= picked[j].ratings.average)
    && (forall y :: y in books && y.id != b.id && y.category == b.category && y !in picked ==>
          forall i :: 0 <= i < |picked| ==> picked[i].ratings.average >= y.ratings.average)
  }

  /** `getRelatedBooks`: up to six other books of the same category, best
      average first; no book left out has a higher average than one
      listed. */
  function RelatedBooks(s: Store, idText: string): (r: Response<seq<Book>>)
    ensures Locate(s, idText).NotFound? <==> r.NotFound?
    ensures r.Ok? <==> Locate(s, idText).Ok?
    ensures r.Ok? || r.NotFound? || r.ServerError?
    ensures r.Ok? ==> IsRelatedSelection(s.books, s.books[Locate(s, idText).value], r.value)
  {
    match Locate(s, idText)
    case Ok(i) =>
      var b := s.books[i];
      var candidates := SameCategory(s.books, b);
      var sorted := SortBooks(ByAverageDesc, candidates);
      var n := Min(RelatedLimit, |sorted|);
      RelatedFacts(candidates, sorted, n);
      Ok(sorted[..n])
    case NotFound(m) => NotFound(m)
    case BadRequest(m) => BadRequest(m)
    case ValidationFailure(m) => ValidationFailure(m)
    case ServerError(m) => ServerError(m)
  }

  function Min(a: int, b: int): int
  {
    if a < b then a else b
  }

  lemma RelatedFacts(candidates: seq<Book>, sorted: seq<Book>, n: nat)
    requires sorted == SortBooks(ByAverageDesc, candidates) && n <= |sorted|
    ensures |sorted| == |candidates|
    ensures multiset(sorted[..n]) <= multiset(candidates)
    ensures forall x :: x in sorted[..n] ==> x in candidates
    ensures forall i, j :: 0 <= i < j < n ==> sorted[..n][i].ratings.average >= sorted[..n][j].ratings.average
    ensures forall y :: y in candidates && y !in sorted[..n] ==>
              forall i :: 0 <= i < n ==> sorted[..n][i].ratings.average >= y.ratings.average
  {
    assert |sorted| == |multiset(sorted)| == |multiset(candidates)| == |candidates|;
    assert sorted == sorted[..n] + sorted[n..];
    assert multiset(sorted) == multiset(sorted[..n]) + multiset(sorted[n..]);
    forall x | x in sorted[..n] ensures x in candidates {
      assert x in multiset(sorted);
    }
    forall i, j | 0 <= i < j < n ensures sorted[..n][i].ratings.average >= sorted[..n][j].ratings.average {
      ByAverageMeaning(sorted[i], sorted[j]);
    }
    Sorting.PrefixBeforeRest(sorted, Le(ByAverageDesc), n);
    forall y, i | y in candidates && y !in sorted[..n] && 0 <= i < n
      ensures sorted[..n][i].ratings.average >= y.ratings.average
    {
      assert y in multiset(sorted);
      assert sorted == sorted[..n] + sorted[n..];
      assert y in sorted[n..];
      ByAverageMeaning(sorted[i], y);
    }
  }
}

=== FILE: outcomes.dfy ===
/** Outcomes of the library's request handlers, independent of HTTP.

    Every controller answers with a status and a JSON body; the model keeps
    only the kind of answer and, on success, the value the body carries.
 */
module Outcomes {

  /** The conventional Some/None datatype, used for absent query parameters,
      missing documents and "not a number" parse results. */
  datatype Option<+T> = None | Some(value: T)

  /** The kinds of answer a handler gives.
      - `Ok` is a 2xx answer carrying its data;
      - `NotFound` is the 404 answer for a missing book or user;
      - `BadRequest` is the 400 answer for a business-rule violation
        (a second review by the same user, a book already in favourites);
      - `ValidationFailure` is a document the schema refuses at save time
        (the handlers' catch-all reports it with status 500);
      - `ServerError` is any other failure the store raises (a duplicate
        key, a negative skip). */
  datatype Response<+T> =
    | Ok(value: T)
    | NotFound(message: string)
    | BadRequest(message: string)
    | ValidationFailure(message: string)
    | ServerError(message: string)

  const BookNotFound := "Book not found"
  const UserNotFound := "User not found"
  const AlreadyReviewed := "You have already reviewed this book"
  const AlreadyFavorite := "Book already in favorites"
}

=== FILE: pagination.dfy ===
/** Paging arithmetic shared by the book and user listings:
    `parseInt(x) || default`, `skip = (page - 1) * limit`,
    `pages = Math.ceil(total / limit)`, and the store's skip/limit window. */
module Pagination {
  import opened Outcomes
  import opened Text

  /** The value of a digit in radix 36 (`0-9`, then `a-z` or `A-Z`); 36 for
      every other character. */
  function DigitValue(c: char): (v: nat)
    ensures v <= 36
    ensures v < 10 <==> IsDigit(c)
  {
    if '0' <= c <= '9' then c as int - '0' as int
    else if 'a' <= c <= 'z' then c as int - 'a' as int + 10
    else if 'A' <= c <= 'Z' then c as int - 'A' as int + 10
    else 36
  }

  /** Length of the longest prefix of `s` made of digits of `radix`. */
  function DigitRun(s: string, radix: nat): (n: nat)
    ensures n <= |s|
    ensures forall i :: 0 <= i < n ==> DigitValue(s[i]) < radix
    ensures n < |s| ==> DigitValue(s[n]) >= radix
  {
    if |s| > 0 && DigitValue(s[0]) < radix then 1 + DigitRun(s[1..], radix) else 0
  }

  /** The number a digit string denotes, most significant digit first. */
  function DigitsValue(ds: string, radix: nat): nat
  {
    if |ds| == 0 then 0
    else
      var d := DigitValue(ds[|ds| - 1]);
      DigitsValue(ds[..|ds| - 1], radix) * radix + (if d < radix then d else 0)
  }

  /** `parseInt(s)` with no radix, on a string; `None` is `NaN`.
      Leading whitespace is skipped and one sign is read; the rest is read by
      `ParseMagnitude`. */
  function ParseInt(s: string): Option<int>
  {
    ParseSigned(TrimStart(s))
  }

  /** `parseInt` after the leading whitespace: an optional sign, then the
      magnitude. */
  function ParseSigned(t: string): Option<int>
  {
    if |t| > 0 && (t[0] == '-' || t[0] == '+') then
      match ParseMagnitude(t[1..])
      case None => None
      case Some(v) => Some(if t[0] == '-' then 0 - v else v)
    else
      match ParseMagnitude(t)
      case None => None
      case Some(v) => Some(v)
  }

  /** The unsigned part of `parseInt`: a `0x`/`0X` prefix switches to
      hexadecimal, and the longest run of digits is converted; whatever
      follows it is ignored, and no digit at all is `NaN`. */
  function ParseMagnitude(u: string): Option<nat>
  {
    if |u| >= 2 && u[0] == '0' && (u[1] == 'x' || u[1] == 'X') then ReadDigits(u[2..], 16)
    else ReadDigits(u, 10)
  }

  /** The longest run of digits of `radix` at the start of `body`, read as
      a number; `None` when there is none. */
  function ReadDigits(body: string, radix: nat): Option<nat>
  {
    var n := DigitRun(body, radix);
    if n == 0 then None else Some(DigitsValue(body[..n], radix))
  }

  /** The decimal digits of a natural number, as `String(n)` writes them. */
  function Decimal(n: nat): (s: string)
    ensures |s| >= 1
    ensures forall i :: 0 <= i < |s| ==> IsDigit(s[i])
    ensures s[0] == '0' ==> n == 0
  {
    if n < 10 then [('0' as int + n) as char]
    else Decimal(n / 10) + [('0' as int + n % 10) as char]
  }

  /** `String(n)` for an integer. */
  function Render(n: int): string
  {
    if n < 0 then "-" + Decimal(-n) else Decimal(n)
  }

  lemma {:induction false} DecimalValue(n: nat)
    ensures DigitsValue(Decimal(n), 10) == n
    decreases n
  {
    var s := Decimal(n);
    if n >= 10 {
      DecimalValue(n / 10);
      assert s[..|s| - 1] == Decimal(n / 10);
    }
  }

  /** Reading back a number written in decimal gives the number, also when
      other text follows it, unless that text continues the number (a digit)
      or turns a leading `0` into a hexadecimal prefix. */
  lemma ParseIntRender(n: int, rest: string)
    requires |rest| == 0 || !IsDigit(rest[0])
    requires n == 0 && |rest| > 0 ==> rest[0] != 'x' && rest[0] != 'X'
    ensures ParseInt(Render(n) + rest) == Some(n)
  {
    if n < 0 {
      ParseRenderNegative(n, rest);
    } else {
      ParseUnsigned(n, rest);
      ParsePlain(Decimal(n) + rest, n);
    }
  }

  lemma ParseRenderNegative(n: int, rest: string)
    requires n < 0
    requires |rest| == 0 || !IsDigit(rest[0])
    ensures ParseInt(Render(n) + rest) == Some(n)
  {
    assert Render(n) + rest == ("-" + Decimal(-n)) + rest;
    MinusDecimal(n, rest);
  }

  lemma MinusDecimal(n: int, rest: string)
    requires n < 0
    requires |rest| == 0 || !IsDigit(rest[0])
    ensures ParseInt(("-" + Decimal(-n)) + rest) == Some(n)
  {
    ParseUnsigned(-n, rest);
    MinusThen(Decimal(-n), rest, -n, n);
  }

  /** A minus sign in front of text whose magnitude reads as `v` reads as
      `-v`. */
  lemma MinusThen(d: string, rest: string, v: nat, w: int)
    requires ParseMagnitude(d + rest) == Some(v)
    requires w + v == 0
    ensures ParseInt(("-" + d) + rest) == Some(w)
  {
    var s := ("-" + d) + rest;
    assert s[0] == '-' && s[1..] == d + rest;
    TrimStartKeeps(s);
    SignedMinus(s, v, w);
  }

  /** Once the magnitude reads as `v`, the text alone reads as `v`. */
  lemma ParsePlain(body: string, v: nat)
    requires ParseMagnitude(body) == Some(v)
    ensures ParseInt(body) == Some(v)
  {
    MagnitudeStartsWithDigit(body);
    TrimStartKeeps(body);
    SignedPlain(body, v);
  }

  /** Once the magnitude reads as `v`, the text after a minus sign reads as
      `-v`. */
  lemma ParseMinus(body: string, v: nat)
    requires ParseMagnitude(body) == Some(v)
    ensures ParseInt("-" + body) == Some(0 - v)
  {
    var s := "-" + body;
    assert s[0] == '-' && s[1..] == body;
    TrimStartKeeps(s);
    SignedMinus(s, v, 0 - v);
  }

  lemma SignedPlain(t: string, v: nat)
    requires |t| > 0 && IsDigit(t[0])
    requires ParseMagnitude(t) == Some(v)
    ensures ParseSigned(t) == Some(v)
  {
  }

  lemma SignedMinus(t: string, v: nat, w: int)
    requires |t| > 0 && t[0] == '-'
    requires ParseMagnitude(t[1..]) == Some(v)
    requires w + v == 0
    ensures ParseSigned(t) == Some(w)
  {
  }

  lemma MagnitudeStartsWithDigit(body: string)
    requires ParseMagnitude(body).Some?
    ensures |body| > 0 && IsDigit(body[0])
  {
  }

  /** The digit-reading part of `ParseInt` on a decimal string. */
  lemma ParseUnsigned(m: nat, rest: string)
    requires |rest| == 0 || !IsDigit(rest[0])
    requires m == 0 && |rest| > 0 ==> rest[0] != 'x' && rest[0] != 'X'
    ensures ParseMagnitude(Decimal(m) + rest) == Some(m)
  {
    var d := Decimal(m);
    var body := d + rest;
    assert !(|body| >= 2 && body[0] == '0' && (body[1] == 'x' || body[1] == 'X')) by {
      if |body| >= 2 && body[0] == '0' {
        assert m == 0 && |d| == 1;
        assert body[1] == rest[0];
      }
    }
    DigitRunOfDecimal(d, rest);
    assert body[..|d|] == d;
    DecimalValue(m);
  }

  lemma DigitRunOfDecimal(d: string, rest: string)
    requires forall i :: 0 <= i < |d| ==> IsDigit(d[i])
    requires |rest| == 0 || !IsDigit(rest[0])
    ensures DigitRun(d + rest, 10) == |d|
  {
    assert forall i :: 0 <= i < |d| ==> DigitValue((d + rest)[i]) < 10;
    assert |rest| > 0 ==> DigitValue((d + rest)[|d|]) >= 10;
  }

  /** A query parameter passed to `parseInt`; an absent one is `undefined`,
      which parses to `NaN`. */
  function ParseParam(p: Option<string>): Option<int>
  {
    match p
    case None => None
    case Some(s) => ParseInt(s)
  }

  /** `parseInt(p) || d`: `NaN` and zero are falsy and give the default;
      every other number, negative ones included, is kept. */
  function OrDefault(v: Option<int>, d: int): int
  {
    if v.Some? && v.value != 0 then v.value else d
  }

  datatype Paging = Paging(page: int, limit: int, skip: int)

  /** The paging a listing handler derives from its `page` and `limit`
      parameters. */
  function ParsePaging(pageParam: Option<string>, limitParam: Option<string>, defaultLimit: int): (r: Paging)
    requires defaultLimit > 0
    ensures r.page != 0 && r.limit != 0
    ensures ParseParam(pageParam).None? || ParseParam(pageParam) == Some(0) ==> r.page == 1
    ensures ParseParam(limitParam).None? || ParseParam(limitParam) == Some(0) ==> r.limit == defaultLimit
    ensures ParseParam(pageParam).Some? && ParseParam(pageParam).value != 0 ==> r.page == ParseParam(pageParam).value
    ensures ParseParam(limitParam).Some? && ParseParam(limitParam).value != 0 ==> r.limit == ParseParam(limitParam).value
    ensures r.skip == (r.page - 1) * r.limit
  {
    var page := OrDefault(ParseParam(pageParam), 1);
    var limit := OrDefault(ParseParam(limitParam), defaultLimit);
    Paging(page, limit, (page - 1) * limit)
  }

  /** Page and limit written in decimal are taken as written, negative
      values included; zero gives the default. */
  lemma ParsePagingOfNumbers(page: int, limit: int, defaultLimit: int)
    requires defaultLimit > 0
    ensures var r := ParsePaging(Some(Render(page)), Some(Render(limit)), defaultLimit);
      && r.page == (if page == 0 then 1 else page)
      && r.limit == (if limit == 0 then defaultLimit else limit)
  {
    assert ParseParam(Some(Render(page))) == Some(page) by {
      ParseIntRender(page, "");
      assert Render(page) + "" == Render(page);
    }
    assert ParseParam(Some(Render(limit))) == Some(limit) by {
      ParseIntRender(limit, "");
      assert Render(limit) + "" == Render(limit);
    }
  }

  /** `Math.ceil(total / limit)` for a non-zero integer limit. */
  function PageCount(total: nat, limit: int): (p: int)
    requires limit != 0
    ensures limit > 0 ==> (p - 1) * limit < total <= p * limit || (total == 0 && p == 0)
    ensures limit < 0 ==> p * limit <= total < (p - 1) * limit
  {
    if limit > 0 then
      var p := (total + limit - 1) / limit;
      assert p * limit + (total + limit - 1) % limit == total + limit - 1;
      p
    else
      var q := total / -limit;
      assert q * -limit + total % -limit == total;
      -q
  }

  lemma PageCountZero(total: nat, limit: int)
    requires limit > 0
    ensures PageCount(total, limit) == 0 <==> total == 0
  {
  }

  /** With a positive limit, page `page` has items exactly when it is one
      of the first `PageCount(total, limit)` pages. */
  lemma PageInRange(total: nat, limit: int, page: int)
    requires limit > 0 && page >= 1
    ensures (page - 1) * limit < total <==> page <= PageCount(total, limit)
  {
    var p := PageCount(total, limit);
    if page <= p {
      assert (page - 1) * limit <= (p - 1) * limit by {
        MulMonotone(page - 1, p - 1, limit);
      }
    } else {
      assert p * limit <= (page - 1) * limit by {
        MulMonotone(p, page - 1, limit);
      }
    }
  }

  lemma MulMonotone(a: int, b: int, c: nat)
    requires a <= b
    ensures a * c <= b * c
  {
  }

  /** The store's `.skip(skip).limit(limit)`: a negative skip is refused; a
      negative limit returns at most `-limit` documents in one batch; a zero
      limit means no limit. */
  function Window<T>(s: seq<T>, skip: int, limit: int): (r: Option<seq<T>>)
    ensures r.None? <==> skip < 0
    ensures r.Some? && limit != 0 ==> |r.value| <= if limit < 0 then -limit else limit
    ensures r.Some? && skip >= |s| ==> r.value == []
    ensures r.Some? && skip < |s| ==> r.value <= s[skip..]
  {
    if skip < 0 then None
    else
      var n := if limit < 0 then -limit else if limit == 0 then |s| else limit;
      var lo := if skip < |s| then skip else |s|;
      var hi := if skip + n < |s| then skip + n else |s|;
      Some(s[lo..hi])
  }

  /** A window is a contiguous stretch of `s`, starting at `skip` or, past
      the end, at the end. */
  lemma WindowIsStretch<T>(s: seq<T>, skip: nat, limit: int)
    ensures var lo := if skip < |s| then skip else |s|;
      var w := Window(s, skip, limit).value;
      lo + |w| <= |s| && w == s[lo..lo + |w|]
  {
  }

  /** With a positive limit, a window is exactly the stretch of `s` that
      starts at `skip`, as long as the limit allows; past the end it is
      empty. */
  lemma WindowContents<T>(s: seq<T>, skip: nat, limit: int)
    requires limit > 0
    ensures var w := Window(s, skip, limit).value;
      && (skip >= |s| ==> w == [])
      && (skip < |s| ==> w == s[skip..if skip + limit <= |s| then skip + limit else |s|])
  {
  }
}

=== FILE: register.dfy ===
/** The registration form's submit handler: the checks it makes before
    sending anything, the request it sends, and the error it shows when the
    server refuses. */
module Register {
  import opened Outcomes
  import opened Text

  datatype Form = Form(name: string, email: string, password: string, confirmPassword: string)

  /** What the register request carries. */
  datatype RegisterRequest = RegisterRequest(name: string, email: string, password: string)

  /** The form after a submission: the error shown, whether it is waiting
      for the server, and the request sent, if any. */
  datatype Submission = Submission(error: string, loading: bool, request: Option<RegisterRequest>)

  const MinPasswordLength := 6
  const PasswordsDiffer := "Passwords do not match"
  const PasswordTooShort := "Password must be at least 6 characters"
  const RegistrationFailed := "Registration failed"

  /** `handleSubmit` up to the request: the error shown before is replaced,
      a mismatched confirmation is reported first, then a short password;
      only a form that passes both sends the request. The length is that of
      a JavaScript string, in UTF-16 code units. */
  function Submit(f: Form): (s: Submission)
    ensures s.request.Some? <==> f.password == f.confirmPassword && Utf16Length(f.password) >= MinPasswordLength
    ensures f.password != f.confirmPassword ==> s.error == PasswordsDiffer
    ensures f.password == f.confirmPassword && Utf16Length(f.password) < MinPasswordLength ==> s.error == PasswordTooShort
    ensures s.request.Some? ==> s.error == "" && s.loading
    ensures s.request.None? ==> !s.loading
    ensures s.request.Some? ==>
      s.request.value.name == f.name && s.request.value.email == f.email && s.request.value.password == f.password
  {
    if f.password != f.confirmPassword then Submission(PasswordsDiffer, false, None)
    else if Utf16Length(f.password) < MinPasswordLength then Submission(PasswordTooShort, false, None)
    else Submission("", true, Some(RegisterRequest(f.name, f.email, f.password)))
  }

  /** The server's answer: success, or a refusal with its message, if the
      answer carried one. */
  datatype Reply = Registered | Refused(message: Option<string>)

  /** After the answer: loading ends; a refusal shows the server's message,
      or a generic one when the message is missing or empty. */
  function Settle(s: Submission, reply: Reply): (r: Submission)
    requires s.request.Some?
    ensures !r.loading && r.request == s.request
    ensures reply.Registered? ==> r.error == s.error
    ensures reply.Refused? ==> r.error != ""
    ensures reply.Refused? && reply.message.Some? && reply.message.value != "" ==> r.error == reply.message.value
  {
    match reply
    case Registered => s.(loading := false)
    case Refused(m) =>
      s.(error := if m.Some? && m.value != "" then m.value else RegistrationFailed, loading := false)
  }

  /** A whole round: a sent request that the server accepts ends with no
      error shown; one it refuses ends with a message shown. Submitting the
      same form again clears that message and sends the same request; that
      part follows from `Submit` reading only the form. */
  lemma SubmitThenSettle(f: Form, m: Option<string>)
    requires Submit(f).request.Some?
    ensures Settle(Submit(f), Registered).error == "" && !Settle(Submit(f), Registered).loading
    ensures var refused := Settle(Submit(f), Refused(m));
      && refused.error != "" && !refused.loading
      && Submit(f).request == refused.request && Submit(f).error == "" && Submit(f).loading
  {
  }

  /** A mismatch is reported even when the password is also too short. */
  lemma MismatchBeforeLength()
    ensures Submit(Form("n", "e", "abc", "abd")).error == PasswordsDiffer
    ensures Submit(Form("n", "e", "abc", "abd")).request.None?
  {
  }

  /** A password of exactly six characters is long enough. */
  lemma SixCharactersSuffice()
    ensures Submit(Form("n", "e", "secret", "secret")).request.Some?
  {
    assert Utf16Length("secret") == 6;
  }

  /** Five characters are too few. */
  lemma FiveCharactersTooShort()
    ensures Submit(Form("n", "e", "short", "short")).error == PasswordTooShort
  {
    assert Utf16Length("short") == 5;
  }
}

=== FILE: sorting.dfy ===
/** A stable insertion sort over a total preorder.

    The document store sorts query results by a list of sort rules and leaves
    the order of ties unspecified; the model fixes one admissible order, the
    stable one, so that a page is a deterministic function of the collection.
 */
module Sorting {

  /** Every two elements are comparable one way or the other. */
  ghost predicate Total<T(!new)>(le: (T, T) -> bool) {
    forall a, b :: le(a, b) || le(b, a)
  }

  ghost predicate Transitive<T(!new)>(le: (T, T) -> bool) {
    forall a, b, c :: le(a, b) && le(b, c) ==> le(a, c)
  }

  /** Every element is `le` every later element. */
  ghost predicate SortedBy<T>(s: seq<T>, le: (T, T) -> bool) {
    forall i, j :: 0 <= i < j < |s| ==> le(s[i], s[j])
  }

  /** Inserts `x` before the first element it is `le`. */
  function Insert<T>(x: T, s: seq<T>, le: (T, T) -> bool): (r: seq<T>)
    ensures |r| == |s| + 1
    ensures multiset(r) == multiset(s) + multiset{x}
  {
    if |s| == 0 then [x]
    else if le(x, s[0]) then [x] + s
    else
      assert s == [s[0]] + s[1..];
      [s[0]] + Insert(x, s[1..], le)
  }

  function InsertionSort<T>(s: seq<T>, le: (T, T) -> bool): (r: seq<T>)
    ensures multiset(r) == multiset(s)
  {
    if |s| == 0 then []
    else
      assert s == [s[0]] + s[1..];
      Insert(s[0], InsertionSort(s[1..], le), le)
  }

  lemma {:induction false} InsertSorted<T(!new)>(x: T, s: seq<T>, le: (T, T) -> bool)
    requires Total(le) && Transitive(le)
    requires SortedBy(s, le)
    ensures SortedBy(Insert(x, s, le), le)
    decreases |s|
  {
    if |s| > 0 && !le(x, s[0]) {
      var tail := Insert(x, s[1..], le);
      InsertSorted(x, s[1..], le);
      assert le(s[0], x);
      forall k | 0 <= k < |tail| ensures le(s[0], tail[k]) {
        assert tail[k] in multiset(s[1..]) + multiset{x};
        if tail[k] != x {
          assert tail[k] in s[1..];
          var m :| 0 <= m < |s[1..]| && s[1..][m] == tail[k];
          assert s[m + 1] == tail[k];
        }
      }
      var r := [s[0]] + tail;
      forall i, j | 0 <= i < j < |r| ensures le(r[i], r[j]) {
        if i > 0 {
          assert r[i] == tail[i - 1] && r[j] == tail[j - 1];
        }
      }
    }
  }

  /** The sort returns its input rearranged into `le` order. */
  lemma {:induction false} InsertionSortSorted<T(!new)>(s: seq<T>, le: (T, T) -> bool)
    requires Total(le) && Transitive(le)
    ensures SortedBy(InsertionSort(s, le), le)
    ensures multiset(InsertionSort(s, le)) == multiset(s)
    decreases |s|
  {
    if |s| > 0 {
      InsertionSortSorted(s[1..], le);
      InsertSorted(s[0], InsertionSort(s[1..], le), le);
    }
  }

  /** In a sorted sequence, everything in a prefix is `le` everything after
      it: the first `n` elements are the `n` least. */
  lemma PrefixBeforeRest<T>(s: seq<T>, le: (T, T) -> bool, n: nat)
    requires SortedBy(s, le)
    requires n <= |s|
    ensures forall x, y :: x in s[..n] && y in s[n..] ==> le(x, y)
  {
    forall x, y | x in s[..n] && y in s[n..] ensures le(x, y) {
      var i :| 0 <= i < n && s[..n][i] == x;
      var j :| 0 <= j < |s| - n && s[n..][j] == y;
      assert s[i] == x && s[n + j] == y;
    }
  }

  /** Any stretch of a sorted sequence is sorted. */
  lemma SortedSlice<T>(s: seq<T>, le: (T, T) -> bool, lo: nat, hi: nat)
    requires SortedBy(s, le)
    requires lo <= hi <= |s|
    ensures SortedBy(s[lo..hi], le)
  {
    forall i, j | 0 <= i < j < hi - lo ensures le(s[lo..hi][i], s[lo..hi][j]) {
      assert s[lo..hi][i] == s[lo + i] && s[lo..hi][j] == s[lo + j];
    }
  }
}

=== FILE: text.dfy ===
/** The JavaScript string operations the library relies on: the whitespace
    set shared by `\s`, `trim` and `parseInt`, ASCII case mapping, the UTF-16
    `length`, substring search, and `split`/`join` on one separator. */
module Text {

  /** WhiteSpace and LineTerminator code points of ECMAScript (section 12.2
      and 12.3 of ECMA-262): the set matched by `\s` and removed by `trim`
      and by `parseInt`. */
  predicate IsSpace(c: char) {
    || c == '\t' || c == '\n' || c == '\U{000B}' || c == '\U{000C}' || c == '\r'
    || c == ' ' || c == '\U{00A0}' || c == '\U{1680}'
    || ('\U{2000}' <= c <= '\U{200A}')
    || c == '\U{2028}' || c == '\U{2029}' || c == '\U{202F}' || c == '\U{205F}'
    || c == '\U{3000}' || c == '\U{FEFF}'
  }

  predicate IsUpper(c: char) {
    'A' <= c <= 'Z'
  }

  predicate IsDigit(c: char) {
    '0' <= c <= '9'
  }

  /** Characters of the regular-expression class `\w`. */
  predicate IsWordChar(c: char) {
    ('a' <= c <= 'z') || IsUpper(c) || IsDigit(c) || c == '_'
  }

  /** ASCII lower-casing; every other character is left as it is. */
  function ToLower(c: char): (r: char)
    ensures !IsUpper(r)
    ensures IsUpper(c) ==> r as int == c as int + 32
    ensures !IsUpper(c) ==> r == c
  {
    if IsUpper(c) then (c as int + 32) as char else c
  }

  function LowerCase(s: string): (r: string)
    ensures |r| == |s|
    ensures forall i :: 0 <= i < |r| ==> !IsUpper(r[i])
    ensures forall i :: 0 <= i < |r| ==> r[i] == ToLower(s[i])
  {
    seq(|s|, i requires 0 <= i < |s| => ToLower(s[i]))
  }

  /** `String.prototype.length`: code points above U+FFFF take two UTF-16
      code units. */
  function Utf16Length(s: string): (n: nat)
    ensures |s| <= n <= 2 * |s|
    ensures (forall i :: 0 <= i < |s| ==> s[i] as int <= 0xFFFF) ==> n == |s|
    ensures |s| == 1 ==> n == CodeUnits(s[0])
  {
    if |s| == 0 then 0
    else CodeUnits(s[0]) + Utf16Length(s[1..])
  }

  /** The number of UTF-16 code units one code point is encoded in. */
  function CodeUnits(c: char): nat
  {
    if c as int > 0xFFFF then 2 else 1
  }

  /** The UTF-16 length of a concatenation is the sum of the lengths: the
      length counts each code point on its own. */
  lemma {:induction false} Utf16LengthConcat(a: string, b: string)
    ensures Utf16Length(a + b) == Utf16Length(a) + Utf16Length(b)
    decreases |a|
  {
    if |a| > 0 {
      Utf16LengthConcat(a[1..], b);
      assert (a + b)[1..] == a[1..] + b;
    } else {
      assert a + b == b;
    }
  }

  /** Drops leading whitespace, as `trimStart` and `parseInt` do. */
  function TrimStart(s: string): (r: string)
    ensures |r| <= |s| && r == s[|s| - |r|..]
    ensures forall i :: 0 <= i < |s| - |r| ==> IsSpace(s[i])
    ensures |r| > 0 ==> !IsSpace(r[0])
  {
    if |s| > 0 && IsSpace(s[0]) then TrimStart(s[1..]) else s
  }

  lemma TrimStartKeeps(s: string)
    requires |s| == 0 || !IsSpace(s[0])
    ensures TrimStart(s) == s
  {
  }

  /** Drops trailing whitespace. */
  function TrimEnd(s: string): (r: string)
    ensures |r| <= |s| && r == s[..|r|]
    ensures forall i :: |r| <= i < |s| ==> IsSpace(s[i])
    ensures |r| > 0 ==> !IsSpace(r[|r| - 1])
  {
    if |s| > 0 && IsSpace(s[|s| - 1]) then TrimEnd(s[..|s| - 1]) else s
  }

  /** `String.prototype.trim`, applied by Mongoose's `trim: true` setter. */
  function Trim(s: string): (r: string)
    ensures |r| <= |s|
    ensures exists k :: TrimmedAt(s, r, k)
    ensures |r| > 0 ==> !IsSpace(r[0]) && !IsSpace(r[|r| - 1])
    ensures (forall i :: 0 <= i < |s| ==> IsSpace(s[i])) ==> r == ""
    ensures (|s| == 0 || (!IsSpace(s[0]) && !IsSpace(s[|s| - 1]))) ==> r == s
  {
    var t := TrimStart(s);
    var r := TrimEnd(t);
    assert TrimmedAt(s, r, |s| - |t|);
    r
  }

  /** `r` is the stretch of `s` starting at `k`, and everything of `s`
      before and after that stretch is whitespace. */
  predicate TrimmedAt(s: string, r: string, k: int) {
    && 0 <= k <= |s| - |r|
    && r == s[k..k + |r|]
    && (forall i :: 0 <= i < k ==> IsSpace(s[i]))
    && (forall i :: k + |r| <= i < |s| ==> IsSpace(s[i]))
  }

  /** `needle` occurs in `hay` starting at some position. */
  predicate Contains(hay: string, needle: string)
    decreases |hay|
  {
    needle <= hay || (|hay| > 0 && Contains(hay[1..], needle))
  }

  /** `needle` occurs in `hay` at position `i`. */
  predicate OccursAt(hay: string, needle: string, i: int) {
    0 <= i <= |hay| - |needle| && hay[i..i + |needle|] == needle
  }

  /** The recursive search finds exactly the needles that occur somewhere. */
  lemma {:induction false} ContainsAt(hay: string, needle: string)
    ensures Contains(hay, needle) <==> exists i :: OccursAt(hay, needle, i)
    decreases |hay|
  {
    if needle <= hay {
      assert OccursAt(hay, needle, 0);
    } else if |hay| == 0 {
    } else {
      ContainsAt(hay[1..], needle);
      if Contains(hay, needle) {
        var i :| OccursAt(hay[1..], needle, i);
        assert hay[1..][i..i + |needle|] == hay[i + 1..i + 1 + |needle|];
        assert OccursAt(hay, needle, i + 1);
      }
      if exists i :: OccursAt(hay, needle, i) {
        var i :| OccursAt(hay, needle, i);
        if i > 0 {
          assert hay[1..][i - 1..i - 1 + |needle|] == hay[i..i + |needle|];
          assert OccursAt(hay[1..], needle, i - 1);
        }
      }
    }
  }

  /** Case-insensitive containment, the meaning the model gives to a
      `$regex` filter with the `i` option on a plain (metacharacter-free)
      pattern. */
  predicate ContainsIgnoringCase(hay: string, needle: string) {
    Contains(LowerCase(hay), LowerCase(needle))
  }

  /** `String.prototype.split` on a one-character separator. */
  function Split(s: string, sep: char): (parts: seq<string>)
    ensures |parts| >= 1
    ensures forall i :: 0 <= i < |parts| ==> sep !in parts[i]
    decreases |s|
  {
    if |s| == 0 then [""]
    else
      var rest := Split(s[1..], sep);
      if s[0] == sep then [""] + rest
      else [[s[0]] + rest[0]] + rest[1..]
  }

  /** `Array.prototype.join` with a one-character separator. */
  function Join(parts: seq<string>, sep: char): string
  {
    if |parts| == 0 then ""
    else if |parts| == 1 then parts[0]
    else parts[0] + [sep] + Join(parts[1..], sep)
  }

  /** Joining the pieces of a split gives back the original string. */
  lemma {:induction false} JoinSplit(s: string, sep: char)
    ensures Join(Split(s, sep), sep) == s
    decreases |s|
  {
    if |s| > 0 {
      var rest := Split(s[1..], sep);
      JoinSplit(s[1..], sep);
      if s[0] == sep {
        assert s == [sep] + s[1..];
      } else {
        if |rest| == 1 {
          assert s == [s[0]] + rest[0];
        } else {
          var parts := [[s[0]] + rest[0]] + rest[1..];
          assert parts[1..] == rest[1..];
          assert Join(rest, sep) == rest[0] + [sep] + Join(rest[1..], sep);
          assert s == [s[0]] + s[1..];
        }
      }
    }
  }

  /** Splitting a join of separator-free pieces gives back the pieces. */
  lemma {:induction false} SplitJoin(parts: seq<string>, sep: char)
    requires |parts| >= 1
    requires forall i :: 0 <= i < |parts| ==> sep !in parts[i]
    ensures Split(Join(parts, sep), sep) == parts
    decreases |parts|, |parts[0]|
  {
    var p := parts[0];
    var j := Join(parts, sep);
    if |p| > 0 {
      var parts' := [p[1..]] + parts[1..];
      DropFirstChar(parts, sep);
      SplitJoin(parts', sep);
      assert Split(j[1..], sep) == parts';
      assert p == [p[0]] + p[1..];
    } else if |parts| > 1 {
      SplitJoin(parts[1..], sep);
      assert j == [sep] + Join(parts[1..], sep);
      assert j[1..] == Join(parts[1..], sep);
      assert parts == [""] + parts[1..];
    }
  }

  /** Dropping the first character of the first piece drops the first
      character of the join, and keeps the pieces free of the separator. */
  lemma DropFirstChar(parts: seq<string>, sep: char)
    requires |parts| >= 1 && |parts[0]| > 0
    requires forall i :: 0 <= i < |parts| ==> sep !in parts[i]
    ensures var parts' := [parts[0][1..]] + parts[1..];
      && |parts'| >= 1
      && (forall i :: 0 <= i < |parts'| ==> sep !in parts'[i])
      && |Join(parts, sep)| > 0
      && Join(parts, sep)[0] == parts[0][0] != sep
      && Join(parts, sep)[1..] == Join(parts', sep)
  {
    var p := parts[0];
    var parts' := [p[1..]] + parts[1..];
    forall i | 0 <= i < |parts'| ensures sep !in parts'[i] {
      if i == 0 {
        assert forall c :: c in p[1..] ==> c in p;
      } else {
        assert parts'[i] == parts[i];
      }
    }
    var j := Join(parts, sep);
    if |parts| == 1 {
      assert j == p;
    } else {
      assert parts'[1..] == parts[1..];
      assert j == p + [sep] + Join(parts[1..], sep);
      assert j[1..] == p[1..] + [sep] + Join(parts[1..], sep);
    }
    assert p[0] in p;
  }
}

=== FILE: upload.dfy ===
/** The upload middleware's file rules: the extension of the original file
    name as Node's `path.extname` finds it, the extension allowlist, the
    name a stored upload gets, and the size limit. */
module Upload {
  import opened Outcomes
  import opened Text
  import Pagination

  const AllowedExtensions: seq<string> := [".pdf", ".epub", ".mobi", ".jpg", ".jpeg", ".png"]

  /** 50 MiB, in bytes. */
  const MaxFileSize: nat := 50 * 1024 * 1024

  const InvalidFileType := "Invalid file type. Only PDF, EPUB, MOBI, JPG, JPEG, and PNG files are allowed."
  const FileTooLarge := "File too large"

  /** The index just past the last character that is not a `/`: trailing
      separators are not part of the last component. */
  function NameEnd(p: string): (e: nat)
    ensures e <= |p|
    ensures forall j :: e <= j < |p| ==> p[j] == '/'
    ensures e > 0 ==> p[e - 1] != '/'
    decreases |p|
  {
    if |p| == 0 || p[|p| - 1] != '/' then |p| else NameEnd(p[..|p| - 1])
  }

  /** The position of the last `c` in `s[..end]`, or -1. */
  function LastIndexBefore(s: string, c: char, end: nat): (r: int)
    requires end <= |s|
    ensures -1 <= r < end
    ensures r >= 0 ==> s[r] == c
    ensures forall j :: r < j < end ==> s[j] != c
    decreases end
  {
    if end == 0 then -1
    else if s[end - 1] == c then end - 1
    else LastIndexBefore(s, c, end - 1)
  }

  /** A position that holds `c`, with no `c` after it before `end`, is the
      last one; -1 is, when there is none. */
  lemma {:induction false} LastIndexCharacterized(s: string, c: char, end: nat, k: int)
    requires end <= |s| && -1 <= k < end
    requires k >= 0 ==> s[k] == c
    requires forall j :: k < j < end ==> s[j] != c
    ensures LastIndexBefore(s, c, end) == k
    decreases end
  {
    if end > 0 && end - 1 != k {
      LastIndexCharacterized(s, c, end - 1, k);
    }
  }

  /** Where the last component of the path starts. */
  function BaseStart(p: string): (st: nat)
    ensures st <= NameEnd(p)
    ensures forall j :: st <= j < NameEnd(p) ==> p[j] != '/'
    ensures st > 0 ==> p[st - 1] == '/'
  {
    LastIndexBefore(p, '/', NameEnd(p)) + 1
  }

  /** `path.extname`: the last component from its last dot to its end. There
      is none when that component has no dot, when its last dot is its first
      character (`.bashrc`), and when the component is `..`. */
  function ExtName(p: string): (r: string)
    ensures r == "" || (r[0] == '.' && forall j :: 1 <= j < |r| ==> r[j] != '.' && r[j] != '/')
    ensures |r| <= |p|
  {
    var st := BaseStart(p);
    var e := NameEnd(p);
    var d := LastIndexBefore(p, '.', e);
    if d <= st || (e - st == 2 && p[st] == '.' && p[st + 1] == '.') then ""
    else p[d..e]
  }

  /** The scan `path.extname` performs: from the end backwards, skipping
      trailing separators, remembering the last dot and whether anything
      stood before it in the component, stopping at the separator that
      starts the component. */
  method ExtNameScan(p: string) returns (r: string)
    ensures r == ExtName(p)
  {
    var startDot := -1;
    var startPart := 0;
    var end := -1;
    var matchedSlash := true;
    var preDotState := 0;
    var i := |p|;
    while i > 0
      invariant 0 <= i <= |p|
      invariant matchedSlash <==> end == -1
      invariant end == -1 ==> NameEnd(p) <= i
      invariant end != -1 ==> end == NameEnd(p) && i < end
      invariant end != -1 ==> forall j :: i <= j < end ==> p[j] != '/'
      invariant startDot == -1 && end != -1 ==> forall j :: i <= j < end ==> p[j] != '.'
      invariant startDot != -1 ==> end != -1 && i <= startDot < end && p[startDot] == '.'
      invariant startDot != -1 ==> forall j :: startDot < j < end ==> p[j] != '.'
      invariant preDotState == 0 <==> startDot == -1 || startDot == i
      invariant startDot != -1 && startDot != i ==> (preDotState == 1 <==> p[i] == '.')
    {
      var c := p[i - 1];
      if c == '/' {
        if !matchedSlash {
          startPart := i;
          break;
        }
      } else {
        if end == -1 {
          matchedSlash := false;
          end := i;
        }
        if c == '.' {
          if startDot == -1 {
            startDot := i - 1;
          } else if preDotState != 1 {
            preDotState := 1;
          }
        } else if startDot != -1 {
          preDotState := -1;
        }
      }
      i := i - 1;
    }
    if end == -1 {
      return "";
    }
    LastIndexCharacterized(p, '/', end, startPart - 1);
    if startDot != -1 {
      LastIndexCharacterized(p, '.', end, startDot);
    }
    if startDot == -1 || preDotState == 0 || (preDotState == 1 && startDot == end - 1 && startDot == startPart + 1) {
      r := "";
    } else {
      r := p[startDot..end];
    }
  }

  /** The file filter: the lower-cased extension must be on the allowlist. */
  predicate Accepts(originalName: string) {
    LowerCase(ExtName(originalName)) in AllowedExtensions
  }

  predicate NoChar(s: string, c: char) {
    forall j :: 0 <= j < |s| ==> s[j] != c
  }

  /** A name without a dot has no extension and is refused. */
  lemma NoExtensionRejected(name: string)
    requires NoChar(name, '.')
    ensures ExtName(name) == ""
    ensures !Accepts(name)
  {
  }

  /** A stem without separators followed by one dot-led extension: the
      extension is what `path.extname` finds, unless the name is `..`. */
  lemma ExtNameOfStem(stem: string, ext: string)
    requires stem != "" && NoChar(stem, '/')
    requires |ext| >= 1 && ext[0] == '.' && NoChar(ext[1..], '.') && NoChar(ext[1..], '/')
    requires !(stem == "." && ext == ".")
    ensures ExtName(stem + ext) == ext
  {
    var p := stem + ext;
    assert p[|p| - 1] != '/';
    assert NameEnd(p) == |p|;
    LastIndexCharacterized(p, '/', |p|, -1);
    LastIndexCharacterized(p, '.', |p|, |stem|);
    assert p[|stem|..] == ext;
  }

  /** Only the last extension decides: `a.exe.pdf` is judged as `.pdf`. */
  lemma OnlyLastExtensionCounts(stem: string, ext: string)
    requires stem != "" && NoChar(stem, '/')
    requires |ext| >= 1 && ext[0] == '.' && NoChar(ext[1..], '.') && NoChar(ext[1..], '/')
    requires !(stem == "." && ext == ".")
    ensures Accepts(stem + ext) <==> LowerCase(ext) in AllowedExtensions
  {
    ExtNameOfStem(stem, ext);
  }

  /** A dotfile such as `.pdf` has no extension and is refused. */
  lemma DotfileRejected(rest: string)
    requires NoChar(rest, '.') && NoChar(rest, '/')
    ensures ExtName("." + rest) == ""
    ensures !Accepts("." + rest)
  {
    var p := "." + rest;
    if |rest| > 0 {
      assert NameEnd(p) == |p|;
    }
    LastIndexCharacterized(p, '/', NameEnd(p), -1);
    LastIndexCharacterized(p, '.', NameEnd(p), if NameEnd(p) == 0 then -1 else 0);
  }

  /** `path.extname` commutes with lower-casing: case never moves a dot or a
      separator. */
  lemma ExtNameLowerCase(p: string)
    ensures ExtName(LowerCase(p)) == LowerCase(ExtName(p))
  {
    var q := LowerCase(p);
    var st := BaseStart(p);
    var e := NameEnd(p);
    var d := LastIndexBefore(p, '.', e);
    MarksLowerCase(p);
    assert BaseStart(q) == st && NameEnd(q) == e && LastIndexBefore(q, '.', e) == d;
    if !(d <= st || (e - st == 2 && p[st] == '.' && p[st + 1] == '.')) {
      LowerCaseSlice(p, d, e);
    }
  }

  /** Lower-casing finds the same end, the same component start and the
      same last dot. */
  lemma MarksLowerCase(p: string)
    ensures NameEnd(LowerCase(p)) == NameEnd(p)
    ensures BaseStart(LowerCase(p)) == BaseStart(p)
    ensures LastIndexBefore(LowerCase(p), '.', NameEnd(p)) == LastIndexBefore(p, '.', NameEnd(p))
    ensures forall j :: 0 <= j < |p| ==> (LowerCase(p)[j] == '.' <==> p[j] == '.')
  {
    LowerCaseKeepsMarks(p);
    NameEndLowerCase(p);
    LastIndexLowerCase(p, '/', NameEnd(p));
    LastIndexLowerCase(p, '.', NameEnd(p));
  }

  /** Lower-casing neither creates nor removes a separator or a dot. */
  lemma LowerCaseKeepsMarks(p: string)
    ensures forall j :: 0 <= j < |p| ==> (LowerCase(p)[j] == '/' <==> p[j] == '/')
    ensures forall j :: 0 <= j < |p| ==> (LowerCase(p)[j] == '.' <==> p[j] == '.')
  {
  }

  lemma NameEndLowerCase(p: string)
    ensures NameEnd(LowerCase(p)) == NameEnd(p)
  {
    LowerCaseKeepsMarks(p);
    NameEndCharacterized(LowerCase(p), NameEnd(p));
  }

  lemma LastIndexLowerCase(p: string, c: char, e: nat)
    requires c == '/' || c == '.'
    requires e <= |p|
    ensures LastIndexBefore(LowerCase(p), c, e) == LastIndexBefore(p, c, e)
  {
    LowerCaseKeepsMarks(p);
    LastIndexCharacterized(LowerCase(p), c, e, LastIndexBefore(p, c, e));
  }

  lemma LowerCaseSlice(p: string, lo: nat, hi: nat)
    requires lo <= hi <= |p|
    ensures LowerCase(p)[lo..hi] == LowerCase(p[lo..hi])
  {
  }

  /** The end that trailing separators leave is the one `NameEnd` finds. */
  lemma {:induction false} NameEndCharacterized(p: string, e: nat)
    requires e <= |p|
    requires forall j :: e <= j < |p| ==> p[j] == '/'
    requires e > 0 ==> p[e - 1] != '/'
    ensures NameEnd(p) == e
    decreases |p|
  {
    if |p| > e {
      NameEndCharacterized(p[..|p| - 1], e);
    }
  }

  /** The filter ignores case: `BOOK.PDF` is judged as `book.pdf`. */
  lemma AcceptsIgnoresCase(name: string)
    ensures Accepts(name) <==> Accepts(LowerCase(name))
  {
    ExtNameLowerCase(name);
    var x := ExtName(name);
    assert LowerCase(LowerCase(x)) == LowerCase(x);
  }

  /** `BOOK.PDF` is accepted. */
  lemma UpperCaseAccepted()
    ensures Accepts("BOOK.PDF")
  {
    ExtNameOfNamed("BOOK", ".PDF", "BOOK.PDF");
    PdfAllowed();
  }

  /** `a.exe.pdf` is accepted: only its last extension counts. */
  lemma LastExtensionAccepted()
    ensures Accepts("a.exe.pdf")
  {
    ExtNameOfNamed("a.exe", ".pdf", "a.exe.pdf");
    PdfAllowed();
  }

  /** `a.pdf.exe` is refused: an allowed inner extension does not help. */
  lemma LastExtensionRefused()
    ensures !Accepts("a.pdf.exe")
  {
    ExtNameOfNamed("a.pdf", ".exe", "a.pdf.exe");
    ExeNotAllowed();
  }

  /** `ExtNameOfStem` for a name given whole. */
  lemma ExtNameOfNamed(stem: string, ext: string, name: string)
    requires stem + ext == name
    requires stem != "" && NoChar(stem, '/')
    requires |ext| >= 1 && ext[0] == '.' && NoChar(ext[1..], '.') && NoChar(ext[1..], '/')
    requires !(stem == "." && ext == ".")
    ensures ExtName(name) == ext
  {
    ExtNameOfStem(stem, ext);
  }

  lemma PdfAllowed()
    ensures LowerCase(".PDF") in AllowedExtensions
    ensures LowerCase(".pdf") in AllowedExtensions
  {
    assert LowerCase(".PDF") == AllowedExtensions[0];
    assert LowerCase(".pdf") == AllowedExtensions[0];
  }

  lemma ExeNotAllowed()
    ensures LowerCase(".exe") !in AllowedExtensions
  {
    assert LowerCase(".exe") == ".exe";
    forall k | 0 <= k < |AllowedExtensions| ensures AllowedExtensions[k] != ".exe" {
      assert AllowedExtensions[k][2] != 'x';
    }
  }

  /** `.pdf` is a dotfile without an extension, so it is refused. */
  lemma DotPdfRejected()
    ensures !Accepts(".pdf")
  {
    DotfileRejected("pdf");
    assert "." + "pdf" == ".pdf";
  }

  /** The stored name: the form field's name, the time and a random number,
      then the original extension with its case as given. */
  function StoredName(fieldName: string, now: nat, random: nat, originalName: string): (n: string)
  {
    fieldName + "-" + Pagination.Decimal(now) + "-" + Pagination.Decimal(random) + ExtName(originalName)
  }

  /** The stored file carries the extension the filter judged. */
  lemma StoredNameKeepsExtension(fieldName: string, now: nat, random: nat, originalName: string)
    requires NoChar(fieldName, '.') && NoChar(fieldName, '/')
    ensures ExtName(StoredName(fieldName, now, random, originalName)) == ExtName(originalName)
    ensures Accepts(StoredName(fieldName, now, random, originalName)) <==> Accepts(originalName)
  {
    var stem := fieldName + "-" + Pagination.Decimal(now) + "-" + Pagination.Decimal(random);
    var ext := ExtName(originalName);
    assert stem[|fieldName|] == '-';
    assert NoChar(stem, '.') && NoChar(stem, '/');
    if ext == "" {
      assert stem + ext == stem;
      NoExtensionRejected(stem);
    } else {
      ExtNameOfStem(stem, ext);
    }
  }

  /** An upload: refused when its extension is not allowed, then when it is
      larger than the limit; otherwise stored under its new name. Neither
      refusal carries a status, so Express's default error handler answers
      both with a 500. */
  function Admit(fieldName: string, originalName: string, size: nat, now: nat, random: nat): (r: Response<string>)
    ensures r.Ok? <==> Accepts(originalName) && size <= MaxFileSize
    ensures !Accepts(originalName) ==> r == ServerError(InvalidFileType)
    ensures Accepts(originalName) && size > MaxFileSize ==> r == ServerError(FileTooLarge)
    ensures r.Ok? ==> r.value == StoredName(fieldName, now, random, originalName)
  {
    if !Accepts(originalName) then ServerError(InvalidFileType)
    else if size > MaxFileSize then ServerError(FileTooLarge)
    else Ok(StoredName(fieldName, now, random, originalName))
  }
}

=== FILE: users.dfy ===
/** The reader's side of the library: favourites, reading history and the
    download log of one user, and the administrator's user listing and
    lookups by id. */
module Users {
  import opened Outcomes
  import opened Text
  import opened Books
  import Pagination
  import Sorting

  datatype HistoryEntry = HistoryEntry(book: BookId, progress: int, lastRead: int)

  datatype DownloadEntry = DownloadEntry(book: BookId, downloadedAt: int)

  datatype User = User(
    id: UserId,
    name: string,
    email: string,
    favoriteBooks: seq<BookId>,
    readingHistory: seq<HistoryEntry>,
    downloads: seq<DownloadEntry>,
    createdAt: int)

  predicate NoDuplicates<T(==)>(s: seq<T>) {
    forall i, j :: 0 <= i < j < |s| ==> s[i] != s[j]
  }

  // Favourites

  /** Adding a favourite: the requested id is cast first, and a book already
      in the list is refused with the list unchanged; otherwise it goes at
      the end. */
  function AddToFavorites(favorites: seq<BookId>, bookText: string): (r: Response<seq<BookId>>)
    ensures CastObjectId(bookText).None? <==> r.ServerError?
    ensures r.BadRequest? <==> CastObjectId(bookText).Some? && CastObjectId(bookText).value in favorites
    ensures r.BadRequest? ==> r.message == AlreadyFavorite
    ensures r.Ok? ==> r.value == favorites + [CastObjectId(bookText).value]
    ensures r.Ok? && NoDuplicates(favorites) ==> NoDuplicates(r.value)
    ensures r.Ok? || r.BadRequest? || r.ServerError?
  {
    match CastObjectId(bookText)
    case None => ServerError("Cast to ObjectId failed")
    case Some(id) =>
      if id in favorites then BadRequest(AlreadyFavorite) else Ok(favorites + [id])
  }

  /** `addToFavorites` as written: the membership test compares the request
      text with the stored ids, which are lower-case, while the id that is
      pushed is the cast one. */
  function AddToFavoritesAsWritten(favorites: seq<BookId>, bookText: string): (r: Response<seq<BookId>>)
    ensures bookText in favorites <==> r.BadRequest?
    ensures r.Ok? ==> CastObjectId(bookText).Some? && r.value == favorites + [CastObjectId(bookText).value]
  {
    if bookText in favorites then BadRequest(AlreadyFavorite)
    else
      match CastObjectId(bookText)
      case None => ServerError("Cast to ObjectId failed")
      case Some(id) => Ok(favorites + [id])
  }

  /** A book id in its stored form, and the same id in upper case. */
  const SampleId: string := seq(24, i => 'a')
  const SampleIdUpper: string := seq(24, i => 'A')

  /** The same book id written with upper-case hex digits passes the
      as-written membership test and is added a second time. */
  lemma AddToFavoritesAsWrittenDuplicates()
    ensures var r := AddToFavoritesAsWritten([SampleId], SampleIdUpper);
      r.Ok? && r.value == [SampleId, SampleId] && !NoDuplicates(r.value)
  {
    SampleIdsCast();
    var r := AddToFavoritesAsWritten([SampleId], SampleIdUpper);
    assert r.value[0] == r.value[1];
  }

  lemma SampleIdsCast()
    ensures CastObjectId(SampleIdUpper) == Some(SampleId)
    ensures CastObjectId(SampleId) == Some(SampleId)
    ensures SampleIdUpper != SampleId
  {
    assert SampleIdUpper[0] != SampleId[0];
    assert LowerCase(SampleIdUpper) == SampleId;
    assert LowerCase(SampleId) == SampleId;
  }

  /** `removeFromFavorites` as written: the stored ids are compared with the
      request text as it stands, so only an exact spelling of a stored id
      removes it. */
  function RemoveFromFavoritesAsWritten(favorites: seq<BookId>, bookText: string): (r: seq<BookId>)
    ensures bookText !in r
    ensures |r| <= |favorites|
    ensures forall x :: x in r <==> x in favorites && x != bookText
    ensures bookText !in favorites ==> r == favorites
  {
    if |favorites| == 0 then []
    else
      var rest := RemoveFromFavoritesAsWritten(favorites[1..], bookText);
      assert forall x :: x in favorites <==> x == favorites[0] || x in favorites[1..];
      if favorites[0] == bookText then rest else [favorites[0]] + rest
  }

  /** The filter works entry by entry: a list split in two is filtered
      piecewise, so the entries kept stay in their order and keep their
      multiplicity. */
  lemma {:induction false} RemoveAsWrittenConcat(a: seq<BookId>, b: seq<BookId>, bookText: string)
    ensures RemoveFromFavoritesAsWritten(a + b, bookText)
         == RemoveFromFavoritesAsWritten(a, bookText) + RemoveFromFavoritesAsWritten(b, bookText)
    decreases |a|
  {
    if |a| == 0 {
      assert a + b == b;
    } else {
      assert (a + b)[1..] == a[1..] + b;
      RemoveAsWrittenConcat(a[1..], b, bookText);
    }
  }

  /** One entry is dropped exactly when it equals the request text. */
  lemma RemoveAsWrittenOne(x: BookId, bookText: string)
    ensures RemoveFromFavoritesAsWritten([x], bookText) == if x == bookText then [] else [x]
  {
    assert [x][1..] == [];
  }

  /** Removing a favourite, as evidently intended: the request text is cast
      the way `addToFavorites` casts it, and the entries equal to that id go;
      text that is not an id removes nothing. */
  function RemoveFromFavorites(favorites: seq<BookId>, bookText: string): (r: seq<BookId>)
    ensures CastObjectId(bookText).None? ==> r == favorites
    ensures CastObjectId(bookText).Some? ==> CastObjectId(bookText).value !in r
    ensures CastObjectId(bookText).Some? ==> forall x :: x in r <==> x in favorites && x != CastObjectId(bookText).value
    ensures |r| <= |favorites|
  {
    match CastObjectId(bookText)
    case None => favorites
    case Some(id) => RemoveFromFavoritesAsWritten(favorites, id)
  }

  /** The corrected removal is piecewise too. */
  lemma RemoveConcat(a: seq<BookId>, b: seq<BookId>, bookText: string)
    ensures RemoveFromFavorites(a + b, bookText) == RemoveFromFavorites(a, bookText) + RemoveFromFavorites(b, bookText)
  {
    if CastObjectId(bookText).Some? {
      RemoveAsWrittenConcat(a, b, CastObjectId(bookText).value);
    }
  }

  /** Any spelling of a stored id removes it, upper-case digits included. */
  lemma RemoveOne(x: BookId, bookText: string)
    requires CastObjectId(x) == Some(x)
    ensures RemoveFromFavorites([x], bookText) == if CastObjectId(bookText) == Some(x) then [] else [x]
  {
    if CastObjectId(bookText).Some? {
      RemoveAsWrittenOne(x, CastObjectId(bookText).value);
    }
  }

  /** Removing twice is removing once. */
  lemma RemoveIdempotent(favorites: seq<BookId>, bookText: string)
    ensures RemoveFromFavorites(RemoveFromFavorites(favorites, bookText), bookText)
         == RemoveFromFavorites(favorites, bookText)
  {
  }

  /** Adding a book and removing it again, under any spelling of its id,
      gives back the list as it was. */
  lemma AddThenRemove(favorites: seq<BookId>, bookText: string)
    requires AddToFavorites(favorites, bookText).Ok?
    ensures RemoveFromFavorites(AddToFavorites(favorites, bookText).value, bookText) == favorites
  {
    var id := CastObjectId(bookText).value;
    RemoveConcat(favorites, [id], bookText);
    RemoveAsWrittenOne(id, id);
  }

  /** A favourite added under an upper-case spelling of its id is stored in
      lower case, and removing it under the same spelling leaves it in place
      as written; the corrected removal takes it out. */
  lemma RemoveFromFavoritesAsWrittenKeeps()
    ensures AddToFavorites([], SampleIdUpper) == Ok([SampleId])
    ensures AddToFavoritesAsWritten([], SampleIdUpper) == Ok([SampleId])
    ensures RemoveFromFavoritesAsWritten([SampleId], SampleIdUpper) == [SampleId]
    ensures RemoveFromFavorites([SampleId], SampleIdUpper) == []
  {
    SampleIdsCast();
    assert [] + [SampleId] == [SampleId];
    RemoveAsWrittenOne(SampleId, SampleIdUpper);
    RemoveOne(SampleId, SampleIdUpper);
  }

  // Reading history

  /** At most one history entry per book. */
  predicate OneEntryPerBook(h: seq<HistoryEntry>) {
    forall i, j :: 0 <= i < j < |h| ==> h[i].book != h[j].book
  }

  function IndexOfBook(h: seq<HistoryEntry>, book: BookId): (i: int)
    ensures -1 <= i < |h|
    ensures i >= 0 ==> h[i].book == book && forall j :: 0 <= j < i ==> h[j].book != book
    ensures i < 0 ==> forall j :: 0 <= j < |h| ==> h[j].book != book
  {
    if |h| == 0 then -1
    else if h[0].book == book then 0
    else
      var k := IndexOfBook(h[1..], book);
      if k < 0 then -1 else k + 1
  }

  /** Recording reading progress for the book `key` names: the first entry
      for that book takes the new progress and time in place; without one, a
      new entry is appended. */
  function Upsert(h: seq<HistoryEntry>, key: BookId, progress: int, now: int): (r: seq<HistoryEntry>)
    ensures IndexOfBook(h, key) >= 0 ==>
      && |r| == |h|
      && r[IndexOfBook(h, key)] == HistoryEntry(key, progress, now)
      && forall j :: 0 <= j < |h| && j != IndexOfBook(h, key) ==> r[j] == h[j]
    ensures IndexOfBook(h, key) < 0 ==> r == h + [HistoryEntry(key, progress, now)]
    ensures OneEntryPerBook(h) ==> OneEntryPerBook(r)
  {
    var i := IndexOfBook(h, key);
    if i >= 0 then h[i := HistoryEntry(key, progress, now)]
    else h + [HistoryEntry(key, progress, now)]
  }

  /** `updateReadingProgress`, with the requested id cast before it is looked
      up. */
  function UpdateReadingProgress(h: seq<HistoryEntry>, bookText: string, progress: int, now: int): (r: Response<seq<HistoryEntry>>)
    ensures r.ServerError? <==> CastObjectId(bookText).None?
    ensures r.Ok? ==> r.value == Upsert(h, CastObjectId(bookText).value, progress, now)
    ensures r.Ok? && OneEntryPerBook(h) ==> OneEntryPerBook(r.value)
    ensures r.Ok? || r.ServerError?
  {
    match CastObjectId(bookText)
    case None => ServerError("Cast to ObjectId failed")
    case Some(id) => Ok(Upsert(h, id, progress, now))
  }

  /** `updateReadingProgress` as written: the existing entry is looked up by
      the request text, and only a new entry's id is cast. */
  function UpdateReadingProgressAsWritten(h: seq<HistoryEntry>, bookText: string, progress: int, now: int): (r: Response<seq<HistoryEntry>>)
    ensures IndexOfBook(h, bookText) >= 0 ==> r == Ok(Upsert(h, bookText, progress, now))
    ensures IndexOfBook(h, bookText) < 0 && r.Ok? ==>
      && CastObjectId(bookText).Some?
      && r.value == h + [HistoryEntry(CastObjectId(bookText).value, progress, now)]
  {
    if IndexOfBook(h, bookText) >= 0 then Ok(Upsert(h, bookText, progress, now))
    else
      match CastObjectId(bookText)
      case None => ServerError("Cast to ObjectId failed")
      case Some(id) => Ok(h + [HistoryEntry(id, progress, now)])
  }

  /** An upper-case spelling of a book id already in the history adds a
      second entry for that book. */
  lemma UpdateReadingProgressAsWrittenDuplicates()
    ensures var r := UpdateReadingProgressAsWritten([HistoryEntry(SampleId, 10, 1)], SampleIdUpper, 20, 2);
      r.Ok? && |r.value| == 2 && !OneEntryPerBook(r.value)
  {
    SampleIdsCast();
    assert IndexOfBook([HistoryEntry(SampleId, 10, 1)], SampleIdUpper) < 0;
    var r := UpdateReadingProgressAsWritten([HistoryEntry(SampleId, 10, 1)], SampleIdUpper, 20, 2);
    assert r.value[0].book == r.value[1].book;
  }

  /** Reporting progress twice on the same book keeps a single entry: the
      second report overwrites the entry the first one left, in place, and
      nothing else. */
  lemma ProgressTwice(h: seq<HistoryEntry>, bookText: string, p1: int, p2: int, t1: int, t2: int)
    requires UpdateReadingProgress(h, bookText, p1, t1).Ok?
    ensures var id := CastObjectId(bookText).value;
      var h1 := UpdateReadingProgress(h, bookText, p1, t1).value;
      var h2 := UpdateReadingProgress(h1, bookText, p2, t2).value;
      var k := IndexOfBook(h1, id);
      && 0 <= k < |h1| && h1[k] == HistoryEntry(id, p1, t1)
      && h2 == h1[k := HistoryEntry(id, p2, t2)]
  {
    var id := CastObjectId(bookText).value;
    var h1 := Upsert(h, id, p1, t1);
    var k := EntryAfterUpsert(h, id, p1, t1);
    if IndexOfBook(h, id) >= 0 {
      FirstIndexUnchanged(h, h1, id, IndexOfBook(h, id));
    } else {
      FirstIndexAppended(h, id, p1, t1);
    }
  }

  /** Overwriting the first entry for a book with another entry for it keeps
      that entry first. */
  lemma FirstIndexUnchanged(h: seq<HistoryEntry>, h1: seq<HistoryEntry>, id: BookId, i: int)
    requires 0 <= i < |h| == |h1| && i == IndexOfBook(h, id)
    requires h1[i].book == id && forall j :: 0 <= j < |h| && j != i ==> h1[j] == h[j]
    ensures IndexOfBook(h1, id) == i
  {
  }

  /** A book without an entry gets its entry at the end. */
  lemma {:induction false} FirstIndexAppended(h: seq<HistoryEntry>, id: BookId, p: int, t: int)
    requires IndexOfBook(h, id) < 0
    ensures IndexOfBook(h + [HistoryEntry(id, p, t)], id) == |h|
    decreases |h|
  {
    if |h| > 0 {
      assert (h + [HistoryEntry(id, p, t)])[1..] == h[1..] + [HistoryEntry(id, p, t)];
      FirstIndexAppended(h[1..], id, p, t);
    }
  }

  /** After an upsert the history holds an entry for the book. */
  lemma EntryAfterUpsert(h: seq<HistoryEntry>, key: BookId, progress: int, now: int) returns (k: int)
    ensures k == IndexOfBook(Upsert(h, key, progress, now), key) && k >= 0
  {
    var h1 := Upsert(h, key, progress, now);
    if IndexOfBook(h, key) >= 0 {
      assert h1[IndexOfBook(h, key)].book == key;
    } else {
      assert h1[|h|].book == key;
    }
    k := IndexOfBook(h1, key);
  }

  // Download log

  /** One download appended to the log; earlier entries are kept. */
  function RecordDownload(u: User, book: BookId, now: int): (r: User)
    ensures r.downloads == u.downloads + [DownloadEntry(book, now)]
    ensures r.(downloads := u.downloads) == u
  {
    u.(downloads := u.downloads + [DownloadEntry(book, now)])
  }

  // The administrator's lookups by id

  /** The store's unique index on `_id`. */
  predicate UniqueIds(users: seq<User>) {
    forall i, j :: 0 <= i < j < |users| ==> users[i].id != users[j].id
  }

  function IndexOfUser(users: seq<User>, id: UserId): (i: int)
    ensures -1 <= i < |users|
    ensures i >= 0 ==> users[i].id == id && forall j :: 0 <= j < i ==> users[j].id != id
    ensures i < 0 ==> forall j :: 0 <= j < |users| ==> users[j].id != id
  {
    if |users| == 0 then -1
    else if users[0].id == id then 0
    else
      var k := IndexOfUser(users[1..], id);
      if k < 0 then -1 else k + 1
  }

  /** `getUser`: an id that does not cast is a server error, an unknown one
      is not found. */
  function GetUser(users: seq<User>, idText: string): (r: Response<User>)
    ensures r.ServerError? <==> CastObjectId(idText).None?
    ensures r.NotFound? <==> CastObjectId(idText).Some? && forall j :: 0 <= j < |users| ==> users[j].id != CastObjectId(idText).value
    ensures r.NotFound? ==> r.message == UserNotFound
    ensures r.Ok? ==> r.value in users && r.value.id == CastObjectId(idText).value
    ensures r.Ok? || r.NotFound? || r.ServerError?
  {
    match CastObjectId(idText)
    case None => ServerError("Cast to ObjectId failed")
    case Some(id) =>
      var i := IndexOfUser(users, id);
      if i < 0 then NotFound(UserNotFound) else Ok(users[i])
  }

  /** The fields an administrator may change; `None` leaves a field as it
      is. */
  datatype UserPatch = UserPatch(name: Option<string>, email: Option<string>)

  function ApplyPatch(u: User, p: UserPatch): (r: User)
    ensures r.name == (if p.name.Some? then p.name.value else u.name)
    ensures r.email == (if p.email.Some? then p.email.value else u.email)
    ensures r.(name := u.name, email := u.email) == u
  {
    u.(name := if p.name.Some? then p.name.value else u.name,
       email := if p.email.Some? then p.email.value else u.email)
  }

  /** `updateUser`: the response and the users afterwards. An unknown id
      changes nothing. */
  function UpdateUser(users: seq<User>, idText: string, p: UserPatch): (r: (Response<User>, seq<User>))
    ensures r.0.ServerError? <==> CastObjectId(idText).None?
    ensures r.0.NotFound? <==> GetUser(users, idText).NotFound?
    ensures !r.0.Ok? ==> r.1 == users
    ensures r.0.Ok? ==> |r.1| == |users| && r.0.value in r.1 && r.0.value == ApplyPatch(GetUser(users, idText).value, p)
    ensures r.0.Ok? ==> forall j :: 0 <= j < |users| && users[j].id != r.0.value.id ==> r.1[j] == users[j]
    ensures r.0.Ok? || r.0.NotFound? || r.0.ServerError?
  {
    match CastObjectId(idText)
    case None => (ServerError("Cast to ObjectId failed"), users)
    case Some(id) =>
      var i := IndexOfUser(users, id);
      if i < 0 then (NotFound(UserNotFound), users)
      else
        var u := ApplyPatch(users[i], p);
        assert users[i := u][i] == u;
        (Ok(u), users[i := u])
  }

  /** `deleteUser`: the user is removed; an unknown id changes nothing. */
  function DeleteUser(users: seq<User>, idText: string): (r: (Response<()>, seq<User>))
    ensures r.0.ServerError? <==> CastObjectId(idText).None?
    ensures r.0.NotFound? <==> GetUser(users, idText).NotFound?
    ensures !r.0.Ok? ==> r.1 == users
    ensures r.0.Ok? ==> |r.1| == |users| - 1 && multiset(r.1) == multiset(users) - multiset{GetUser(users, idText).value}
    ensures r.0.Ok? || r.0.NotFound? || r.0.ServerError?
  {
    match CastObjectId(idText)
    case None => (ServerError("Cast to ObjectId failed"), users)
    case Some(id) =>
      var i := IndexOfUser(users, id);
      if i < 0 then (NotFound(UserNotFound), users)
      else
        assert users == users[..i] + [users[i]] + users[i + 1..];
        (Ok(()), users[..i] + users[i + 1..])
  }

  /** Looking a user up after updating it returns the updated user. */
  lemma GetAfterUpdate(users: seq<User>, idText: string, p: UserPatch)
    requires UpdateUser(users, idText, p).0.Ok?
    ensures GetUser(UpdateUser(users, idText, p).1, idText) == UpdateUser(users, idText, p).0
  {
    var id := CastObjectId(idText).value;
    var i := IndexOfUser(users, id);
    var users' := UpdateUser(users, idText, p).1;
    assert users'[i].id == id;
  }

  /** With ids unique, a deleted user is no longer found. */
  lemma GetAfterDelete(users: seq<User>, idText: string)
    requires UniqueIds(users)
    requires DeleteUser(users, idText).0.Ok?
    ensures GetUser(DeleteUser(users, idText).1, idText).NotFound?
  {
    var id := CastObjectId(idText).value;
    var i := IndexOfUser(users, id);
    var users' := DeleteUser(users, idText).1;
    assert users' == users[..i] + users[i + 1..];
    forall j | 0 <= j < |users'| ensures users'[j].id != id {
      if j < i {
        assert users'[j] == users[j];
      } else {
        assert users'[j] == users[j + 1];
      }
    }
  }

  // The user listing

  const DefaultUserLimit := 20

  /** Newest first. */
  function NewerFirst(): (User, User) -> bool
  {
    (a: User, b: User) => a.createdAt >= b.createdAt
  }

  lemma NewerFirstIsPreorder()
    ensures Sorting.Total(NewerFirst())
    ensures Sorting.Transitive(NewerFirst())
  {
  }

  datatype UserPage = UserPage(count: nat, total: nat, pages: int, currentPage: int, data: seq<User>)

  /** `getUsers`: every user, newest first, windowed by the page and limit
      parameters (limit 20 by default), with the page metadata. */
  function ListUsers(pageParam: Option<string>, limitParam: Option<string>, users: seq<User>): (r: Response<UserPage>)
    ensures r.ServerError? <==> Pagination.ParsePaging(pageParam, limitParam, DefaultUserLimit).skip < 0
    ensures r.Ok? || r.ServerError?
    ensures r.Ok? ==> var p := r.value; var paging := Pagination.ParsePaging(pageParam, limitParam, DefaultUserLimit);
      && p.count == |p.data| && p.total == |users|
      && p.pages == Pagination.PageCount(|users|, paging.limit)
      && p.currentPage == paging.page
      && |p.data| <= (if paging.limit < 0 then -paging.limit else paging.limit)
      && (forall i :: 0 <= i < |p.data| ==> p.data[i] in users)
      && (forall i, j :: 0 <= i < j < |p.data| ==> p.data[i].createdAt >= p.data[j].createdAt)
      && p.data == Pagination.Window(Sorting.InsertionSort(users, NewerFirst()), paging.skip, paging.limit).value
  {
    var paging := Pagination.ParsePaging(pageParam, limitParam, DefaultUserLimit);
    NewerFirstIsPreorder();
    Sorting.InsertionSortSorted(users, NewerFirst());
    var sorted := Sorting.InsertionSort(users, NewerFirst());
    match Pagination.Window(sorted, paging.skip, paging.limit)
    case None => ServerError("skip must be non-negative")
    case Some(data) =>
      WindowFacts(users, sorted, data, paging.skip);
      Ok(UserPage(|data|, |users|, Pagination.PageCount(|users|, paging.limit), paging.page, data))
  }

  lemma WindowFacts(users: seq<User>, sorted: seq<User>, data: seq<User>, skip: int)
    requires multiset(sorted) == multiset(users) && Sorting.SortedBy(sorted, NewerFirst())
    requires skip >= 0
    requires data == [] || (skip < |sorted| && data <= sorted[skip..])
    ensures forall i :: 0 <= i < |data| ==> data[i] in users
    ensures forall i, j :: 0 <= i < j < |data| ==> data[i].createdAt >= data[j].createdAt
  {
    if data != [] {
      assert data == sorted[skip..skip + |data|];
      Sorting.SortedSlice(sorted, NewerFirst(), skip, skip + |data|);
      forall i | 0 <= i < |data| ensures data[i] in users {
        assert data[i] == sorted[skip + i];
        assert data[i] in multiset(users);
      }
    }
  }
}
